=== FILE: README.md ===
# game-server in Dafny

A model of the in-memory state logic of a small Node.js multiplayer game
server. The server keeps a registry of games. Each game holds rooms, and each
room holds players and other things. A game plugin drives every room once per
server tick. Two plugins are modelled:

- a template game that starts when two players are present and ends after
  1000 ticks;
- a dice game played on a hexagonal board, with turns, dice, credits, tile
  layers and attacks.

Next to the registry the server keeps top-ten leaderboards (two revisions of
the module), a per-game list of timed events with a weekend rule, and a store
of player profiles.

Everything is written as pure functions over immutable datatypes:

- JavaScript objects become maps.
- `Object.keys` order is an explicit key sequence (`Room.playerOrder`,
  `Game.roomOrder`, `Grid.order`, `Server.gameOrder`).
- HTTP request bodies, query values and level files are the `Js.Value`
  datatype. The dice game's `playerInput` is the typed `Entities.Input`,
  which holds only the fields the game reads (see "Left out").
- An exception that escapes a handler is an explicit outcome
  (`CreationGame.Threw`, `None` from `Sessions.Connect`).
- Time, dice rolls, random picks, colours and level files are parameters.
- Socket emits of the game tick are an event log (`GameManager.Event`).

Modules, one file each:

| module | file | models |
|---|---|---|
| `Prelude` | prelude.dfy | option type, order-preserving filter, duplicate-free key sequences |
| `Js` | js.dfy | truthiness, `a \|\| b`, `typeof` tests, `parseInt(s, 10)`, `trim`, `slice(0, n)`, numeric coercion |
| `Transforms` | transforms.dfy | transforms and colours |
| `HexGrid` | hex_grid.dfy | the dice game's board |
| `Entities` | entities.dfy | players and things and their constructors (`Utils.js`, `getPlayer` in `GameManager.js`) |
| `Rooms` | rooms.dfy | the room record and storing a player in it |
| `BasicGame` | basic_game.dfy | `examples/BasicGame.js` |
| `CreationGame` | creation_game.dfy | `games/CreationGame.js` |
| `Plugins` | plugins.dfy | dispatch to the plugin of a game |
| `GameManager` | game_manager.dfy | the `Game` class |
| `Sessions` | sessions.dfy | the socket handlers, the server tick, the player-count endpoints |
| `Ranking` | ranking.dfy | the stable descending sort and the top-ten cut shared by both leaderboards |
| `LeaderboardManager` | leaderboard_manager.dfy | `LeaderboardManager.js` |
| `Leaderboard` | leaderboard.dfy | `leaderboard.js` |
| `EventManager` | event_manager.dfy | `EventManager.js` |
| `ProfileManager` | profile_manager.dfy | `ProfileManager.js` |

## How the code and its description differ

The model follows the code in these places:

- `onConnection` does not validate the handshake's room id. Only a room change
  is checked with `VALID_ROOM_ID`.
- A room change keeps the player's score. Only the move to the lobby after a
  finished game resets scores.
- The tick's empty-room branch tests `players.length`. That is `undefined` on
  an object, so the branch never fires, and empty rooms are never removed by
  the tick.
- A disconnect's follow-up player count goes through `addGameState`. It
  re-creates a room that the removal just deleted.
- A plugin that throws ends the whole server tick. Later rooms and later games
  are not updated in that tick. The exception escapes the `setInterval`
  callback. Node then ends the process unless an `uncaughtException` handler
  is installed, and none appears in the modelled files. The model records the
  throw as the tick's `crashed` result and says nothing about what follows.
- `addLeaderboardEntry` ends with `return entry, isInTop10`. The comma
  operator returns only the boolean, so the submit reply carries neither the
  entry nor the rank.

## Model

| member | source | states |
|---|---|---|
| Js.FieldOf | LeaderboardManager.js:49 | reading a field of a value that is not an object yields `undefined` (destructuring a boolean) |
| Js.Trim | leaderboard.js:33 | the result is the input without its leading and trailing whitespace; it neither starts nor ends with whitespace |
| Js.SliceTo | LeaderboardManager.js:73 | `slice(0, n)` is a prefix: of length min(n, len) for n >= 0, and len + n (at least 0) for n < 0 |
| Js.ParseIntOfIntString | LeaderboardManager.js:71 | `parseInt` of an integer's decimal text gives that integer back |
| Js.ParseIntOfWord | LeaderboardManager.js:71 | `parseInt` of text that starts with a letter, such as the `"undefined"` of a missing limit, is NaN |
| HexGrid.Column | games/CreationGame.js:81-84 | one column holds exactly the cells (q, r) with lo <= r <= hi, once each |
| HexGrid.Columns | games/CreationGame.js:78-85 | the columns from q rightward cover exactly the board cells with that q or more, without repetition |
| HexGrid.CellsCount | games/CreationGame.js:77-85 | the loops enumerate exactly the cells with \|q\|, \|r\|, \|q+r\| <= R, once each: 3R(R+1)+1 of them |
| HexGrid.Init | games/CreationGame.js:75-85 | a new board has a tile for exactly the on-board cells, each with no layers and no attack flag, and its key order enumerates them |
| HexGrid.InitValid | games/CreationGame.js:75-85 | a new board satisfies the tile invariant (stacks of at most 6; flagged implies 6 layers of one owner) |
| HexGrid.PushLayer | games/CreationGame.js:386-409 | the layer goes on top; the oldest is dropped exactly when the stack already had 6; the flag is set iff the stack is then 6 layers all of the adder; other tiles are unchanged |
| HexGrid.PushLayerValid | games/CreationGame.js:391-409 | after a push the stack has 1 to 6 layers, the new layer on top, and the board invariant still holds |
| HexGrid.ClearTile | games/CreationGame.js:264-265 | a cleared tile has no layers and no flag; other tiles are unchanged |
| HexGrid.ClearTileValid | games/CreationGame.js:264-265 | clearing keeps the board invariant |
| HexGrid.ChooseTiles | games/CreationGame.js:319-329 | picking without replacement chooses min(amount, candidates) distinct candidates when enough draws are given |
| HexGrid.ClearTiles | games/CreationGame.js:330-333 | every chosen tile is emptied and unflagged; every other tile is unchanged |
| HexGrid.ClearTilesValid | games/CreationGame.js:330-333 | clearing several tiles keeps the board invariant |
| HexGrid.AttackClear | games/CreationGame.js:263-335 | the attacked tile and at most `amount` chosen tiles are emptied; every other tile is unchanged |
| HexGrid.AttackClearValid | games/CreationGame.js:263-335 | on a valid board the attack keeps the invariant and adds no tile; the chosen tiles are distinct, and there are min(amount, board size) of them when enough draws are given |
| Entities.GetThing | Utils.js:19-34 | a thing has the given id and type, the name or `Thing_<id>` when the name is empty, speed 0, no tags, the identity transform and empty data |
| Entities.DrawnColor | Utils.js:37-42 | each colour channel is a draw below 100 divided by 100, so in [0, 1); alpha is 1 |
| Entities.NewPlayer | GameManager.js:187-213 | the connection's player: the name or else the id, score 0, speed 0.3, tag `player`, identity transform, health 3, credits 0, dice 0, no `isAi` field |
| Entities.GetPlayer | Utils.js:36-63 | the plugin's player: as above plus `isAi` stored in the data; the colour channels lie in [0, 1) |
| Rooms.NewRoom | GameManager.js:21-33 | a new room is named `gameId:roomId` and has no players, no things, timer 0, index 0, not started, not over, not paused |
| Rooms.NewRoomOk | GameManager.js:21-33 | a new room satisfies the room invariant (players are also things; the key order enumerates the players) |
| Rooms.PlayerCountIsSize | GameManager.js:80-82 | the length of the key order is the number of players |
| Rooms.PlayersInOrder | GameManager.js:76-78 | `Object.values(players)` lists every player once, in key order |
| Rooms.PutPlayer | GameManager.js:43-44 | the player is stored under its id in both `players` and `things`; a new id is appended to the key order and an existing one keeps its place |
| Rooms.DeletePlayer | GameManager.js:49-50 | the id leaves both `players` and `things` and the key order, which otherwise keeps its order |
| Rooms.InsertThings | examples/BasicGame.js:26-28 | every level thing is stored under its id; keys no level thing uses are unchanged |
| Rooms.InsertThingsLast | examples/BasicGame.js:26-28 | when ids repeat, the last thing with an id wins |
| BasicGame.InitStateData | examples/BasicGame.js:19-34 | the level's things are stored by id, `paused` defaults to false, `camera` and `weather` to `{}`, timer and index to 0, `started` to false; players are untouched |
| BasicGame.Create | examples/BasicGame.js:10-17 | the lobby is left as it is; any other room gets its level loaded |
| BasicGame.Update | examples/BasicGame.js:40-76 | nothing changes in the lobby or after game over; otherwise the game starts at two players and never un-starts, the timer counts only while started, and the game is over once the timer reaches 1000; no other room field changes |
| BasicGame.RunReachesGameOver | examples/BasicGame.js:63-75 | a started game ends exactly at the tick on which its timer reaches 1000, and not before |
| BasicGame.RunAfterGameOver | examples/BasicGame.js:42 | once over, further ticks change nothing |
| CreationGame.BoardSize | games/CreationGame.js:17-32 | the size is 1 to 5 after the first of Small, Medium, Large, Huge, Giant the room id contains, and 1 when none matches |
| CreationGame.BoardSizeOfWord | games/CreationGame.js:19-31 | a name containing Small is size 1; one containing Large but not Small or Medium is size 3; one containing Giant but none of the other four words is size 5 |
| CreationGame.PlaceCamera | games/CreationGame.js:62-67 | the camera position becomes (0, 16 + size, 8 + size); everything else in the camera is kept |
| CreationGame.PrepareThing | games/CreationGame.js:71-86 | a board thing gets a fresh board of the room's size; other things are stored as loaded, and only a board thing's data changes |
| CreationGame.PrepareThings | games/CreationGame.js:69-88 | every level thing is prepared, in order |
| CreationGame.OnFetch | games/CreationGame.js:53-89 | the level's settings are copied with their defaults, the camera is placed, the prepared things are stored, and the turn state is reset; players are untouched |
| CreationGame.OnFetchOk | games/CreationGame.js:53-89 | loading a level keeps the room invariant and leaves only valid boards |
| CreationGame.OnFetchBoard | games/CreationGame.js:69-88 | every board in the room after loading is a fresh board of the room's size, or was there before |
| CreationGame.Create | games/CreationGame.js:12-37 | the lobby is left as it is; another room sets the plugin's size from its name and loads the level with that size |
| CreationGame.AiPlayerMax | games/CreationGame.js:39-41 | `aiPlayerMax()` answers the remembered board size unchanged; what that size is after a `create` is `Plugins.AiPlayerMaxAfterCreate` |
| CreationGame.AddAiPlayers | games/CreationGame.js:43-51 | one AI player per unit of size, with id `ai_<now>_<draw>_<i>`, name `AI_<id>`, `isAi` true and fresh stats |
| CreationGame.StartStats | games/CreationGame.js:114-124 | at the start every player has health 3, credits 0 and dice 0 (dice 1 for the first player), and `isAi` becomes a boolean |
| CreationGame.Start | games/CreationGame.js:108-132 | starting sets `started`, index 0 and the start stats of every player; nothing else changes |
| CreationGame.Succ | games/CreationGame.js:224 | the next index stays in range and wraps to 0 exactly after the last player |
| CreationGame.SuccIsMod | games/CreationGame.js:224 | the next index is (i + 1) mod playerCount |
| CreationGame.EndTurn | games/CreationGame.js:222-229 | ending a turn moves the index to the next player and resets the timer; the key order is unchanged |
| CreationGame.EndTurnPlayers | games/CreationGame.js:222-229 | ending a turn gives the next player one more die, clears the current player's input, and leaves every other player alone |
| CreationGame.EndTurns | games/CreationGame.js:224 | n turn ends advance the index n times, modulo the player count |
| CreationGame.SuccN | games/CreationGame.js:224 | n successive next-indices stay in range |
| CreationGame.SuccNWraps | games/CreationGame.js:224 | advancing by at most one round wraps exactly once past the end |
| CreationGame.EndTurnsRotate | games/CreationGame.js:222-229 | after as many turn ends as players the turn is back with the same player |
| CreationGame.Roll | games/CreationGame.js:238-244 | a roll spends one die (never below 0), adds the roll to credits, records the dice thing and clears the idle mark; other players are unchanged |
| CreationGame.EffectOf | games/CreationGame.js:274-306 | the effect table of the six rolls: credits 1/0/0/3/5/0, dice 0/1/0/0/0/1, tiles 0/0/0/2/3/4, opponent hit on 3 and 6 |
| CreationGame.Opponent | games/CreationGame.js:307-317 | the chosen target is another player of the room, and there is one exactly when such a player exists |
| CreationGame.Hit | games/CreationGame.js:337-338 | a hit lowers health by 1, clamped at 0 |
| CreationGame.Gain | games/CreationGame.js:276-339 | the attacker gains the effect's credits and dice, plus 500 points when an opponent was hit |
| CreationGame.Hurt | games/CreationGame.js:336-338 | the target loses one health point, clamped at 0; nothing else changes |
| CreationGame.EffectTarget | games/CreationGame.js:307-317 | there is a target exactly when the roll hits opponents and another player exists; the target is such a player |
| CreationGame.AttackEffect | games/CreationGame.js:263-340 | the effect changes only the attacker (by the table) and the target (one health); the players and their order stay |
| CreationGame.AttackEffectBoard | games/CreationGame.js:263-335 | the board after the effect is the attacked tile and the chosen tiles cleared; valid boards stay valid, and on a valid board as many other tiles are chosen as the effect asks for, or every tile when there are fewer |
| CreationGame.Engage | games/CreationGame.js:254-256 | any attack input gives the attacker 100 points and clears its idle mark |
| CreationGame.Attack | games/CreationGame.js:254-364 | an attack always scores at least 100; the effect happens only on a flagged tile of an existing board |
| CreationGame.AttackClearsTile | games/CreationGame.js:263-265 | after an attack on a flagged tile that tile is empty and unflagged |
| CreationGame.TargetBoard | games/CreationGame.js:370-371 | a layer input names an existing board thing, or the input is ignored |
| CreationGame.PlaceLayer | games/CreationGame.js:372-414 | placing a layer pushes the player's layer onto the tile and spends one credit, clamped at 0; nothing else changes |
| CreationGame.PlaceLayerTile | games/CreationGame.js:391-409 | the stack then has 1 to 6 layers with the player's on top, and the flag is set iff all 6 are the player's |
| CreationGame.Finish | games/CreationGame.js:437-454 | the tick ends by publishing every player in key order and clearing all inputs; it throws when the board is missing |
| CreationGame.AddLayer | games/CreationGame.js:365-435 | without credits or on a flagged tile only the idle mark changes and the update ends early; without a board the tick just finishes; otherwise the layer is placed, at the cost of one credit, and the tick finishes |
| CreationGame.Act | games/CreationGame.js:222-435 | the input branches apply in priority order: turn end, roll when dice are left, attack, then layer; an input asking for none of them only finishes the tick |
| CreationGame.AttackKeys | games/CreationGame.js:210 | exactly the flagged tiles of the board |
| CreationGame.OpenTiles | games/CreationGame.js:177 | exactly the tiles with fewer than 6 layers |
| CreationGame.FirstHeld | games/CreationGame.js:182-195 | the first open tile that holds one of the player's layers, if any |
| CreationGame.AiDecide | games/CreationGame.js:169-219 | with dice the AI rolls (and throws without a dice thing); with neither dice, credits nor a flagged tile it ends its turn; it builds only with credits and no dice, on an open tile, preferring one holding its own layer; it attacks only with neither dice nor credits, and then a flagged tile |
| CreationGame.AiMovesTakeEffect | games/CreationGame.js:177 | an AI build never targets a flagged tile, so its layer is never ignored |
| CreationGame.Think | games/CreationGame.js:160-220 | a human's input is acted on directly; an AI waits 30 ticks between moves; then its chosen move is stored as its input and acted on, a missing choice throws, and without a board the move throws |
| CreationGame.MarkIdle | games/CreationGame.js:142-158 | an idle timeout marks the player and forces a turn end, and resets the timer |
| CreationGame.Turn | games/CreationGame.js:134-158 | a started tick removes a marked idle player, marks an unmarked one, and otherwise acts; an index past the last player throws |
| CreationGame.Update | games/CreationGame.js:95-136 | the lobby and finished rooms are left alone; an unstarted room below two players only caches its count; an unstarted room with two or more starts and takes a turn; a started game takes a turn |
| CreationGame.FinishKept | games/CreationGame.js:437-454 | the end of the tick keeps the room invariant |
| CreationGame.AttackEffectKept | games/CreationGame.js:263-340 | the attack effect keeps the room invariant, including the board invariant |
| CreationGame.AttackKept | games/CreationGame.js:254-364 | an attack keeps the room invariant |
| CreationGame.PlaceLayerKept | games/CreationGame.js:372-414 | placing a layer keeps the room invariant |
| CreationGame.AddLayerKept | games/CreationGame.js:365-435 | a layer input keeps the room invariant |
| CreationGame.ActKept | games/CreationGame.js:222-435 | every input branch keeps the room invariant |
| CreationGame.ThinkKept | games/CreationGame.js:160-220 | the AI step keeps the room invariant |
| CreationGame.RemovalKept | games/CreationGame.js:145-153 | removing an idle player keeps the invariant and only shrinks the room |
| CreationGame.IdleTurnKept | games/CreationGame.js:142-158 | a forced turn end keeps the room invariant |
| CreationGame.TurnKept | games/CreationGame.js:134-456 | a tick of a started game keeps the invariant and never adds players |
| CreationGame.UpdateKept | games/CreationGame.js:95-456 | every tick keeps the invariant, never adds players, never changes the room's id, name or game-over flag, and never un-starts a game |
| CreationGame.RemovingLastLeavesIndexPastEnd | games/CreationGame.js:145-153 | removing the last player in key order leaves the index one past the end, since it is not wrapped |
| CreationGame.TurnPastEndStuck | games/CreationGame.js:135-145 | with the index past the end every update of the room throws and changes neither the index nor the players |
| Plugins.Persistent | games/CreationGame.js:7 | neither plugin keeps empty rooms |
| Plugins.Create | games/CreationGame.js:12-32 | creating a room through a plugin leaves the lobby alone and never touches the players; the dice game remembers the size the room's name picks |
| Plugins.AiPlayerMaxAfterCreate | games/CreationGame.js:12-41 | after a dice-game `create`, `aiPlayerMax()` is the size the room's name picks, from 1 to 5, and after the lobby it is the size remembered before |
| Plugins.CreateKept | GameManager.js:34 | creating a room keeps the room invariant |
| Plugins.BasicBoards | examples/BasicGame.js:26-28 | the template game's level adds no board |
| Plugins.Update | GameManager.js:117 | the template game never publishes anything; the dice game's tick is its update |
| Plugins.UpdateKept | GameManager.js:117 | a plugin tick keeps the room invariant and never adds players |
| GameManager.ValidRoomIds | GameManager.js:3-8 | a room id is valid exactly when it is `sandbox`, `lobby` or starts with `room` |
| GameManager.AddGameState | GameManager.js:19-37 | an existing room is returned and nothing changes; a missing one is created empty, named `gameId:roomId`, put last in the order and set up by the plugin; other rooms are unchanged |
| GameManager.AddGameStateIdempotent | GameManager.js:19-37 | asking for a room twice is asking once |
| GameManager.AddGameStateStored | GameManager.js:19-37 | the rooms keep storing each player under its own id in both maps |
| GameManager.AddPlayer | GameManager.js:39-45 | the player is stored in both maps of its room, which is created if missing; other rooms are unchanged |
| GameManager.PutPlayerStored | GameManager.js:43-44 | storing a player keeps `players` inside `things` |
| GameManager.AddPlayerStored | GameManager.js:39-45 | adding a player keeps `players` inside `things` in every room |
| GameManager.RemovePlayer | GameManager.js:47-58 | a missing room is a no-op; otherwise the id leaves both maps, and the room is deleted iff no players remain, it is not the lobby and the plugin is not persistent |
| GameManager.RemovePlayerStored | GameManager.js:47-58 | removing a player keeps `players` inside `things` |
| GameManager.AddThing | GameManager.js:60-62 | the thing is stored in the room, which must exist (else it throws) |
| GameManager.RemoveThing | GameManager.js:64-66 | the thing leaves the room, which must exist (else it throws) |
| GameManager.AddThingStored | GameManager.js:60-62 | adding a thing under a player's id breaks the link between that player and its thing, and nothing else does |
| GameManager.RemoveThingStored | GameManager.js:64-66 | removing a player's thing breaks that link, and nothing else does |
| GameManager.GetRoomName | GameManager.js:72-74 | the name is `gameId:roomId`, the room being created if missing |
| GameManager.GetPlayersInRoom | GameManager.js:76-78 | lists every player of the room once in key order, the room being created if missing |
| GameManager.GetPlayerCountInRoom | GameManager.js:80-82 | the number of players in the room, 0 for a missing room, which is created |
| GameManager.GetPlayerCountPerRoom | GameManager.js:84-90 | one count per existing room, each its number of players |
| GameManager.GetPlayerCount | GameManager.js:92-98 | the sum of the rooms' player counts, 0 without rooms |
| GameManager.AddPlayerCount | GameManager.js:92-98 | adding a new player to an existing room raises the total by exactly one |
| GameManager.MoveAll | GameManager.js:103-110 | moving players changes only the players and things of the two rooms |
| GameManager.MoveAllFromPlayers | GameManager.js:108 | the moved players leave the source room's players |
| GameManager.MoveAllFromThings | GameManager.js:109 | the moved players leave the source room's things, and its other things stay |
| GameManager.MoveAllToPlayers | GameManager.js:104-106 | every moved player is in the target with score 0, and the target's other players are kept |
| GameManager.MoveAllToThings | GameManager.js:107 | every moved player is a thing of the target, and the target's other things are kept |
| GameManager.MoveFromStored | GameManager.js:103-110 | the emptied source room keeps `players` inside `things` |
| GameManager.MoveToStored | GameManager.js:103-110 | the filled target room keeps `players` inside `things` |
| GameManager.MovePlayersToRoom | GameManager.js:100-111 | both rooms exist afterwards and no other room changes |
| GameManager.MovePlayersToRoomEmpties | GameManager.js:100-111 | the source room ends with no players and keeps its non-player things |
| GameManager.MovePlayersToRoomMoves | GameManager.js:100-111 | for distinct rooms every source player is in the target with score 0, and the target's own players are kept |
| GameManager.MovedAll | GameManager.js:103 | the loop moves every player of the source room |
| GameManager.MovePlayersToRoomFinished | GameManager.js:100-111 | moving players neither ends nor revives any game |
| GameManager.LengthProperty | GameManager.js:125 | `players.length` on an object is never 0, so the empty-room branch is dead |
| GameManager.AfterUpdate | GameManager.js:118-131 | after a plugin tick a finished room sends its players to the lobby and is deleted with `gameEnded` and `playersMoved`; otherwise at most one `serverUpdate`, only for a non-empty out state; a throw stops the tick |
| GameManager.Dissolve | GameManager.js:118-123 | a finished room is gone afterwards and no other room's game-over flag changes |
| GameManager.DissolveToLobby | GameManager.js:118-123 | the finished room's players are in the lobby with score 0 |
| GameManager.PluginStep | GameManager.js:117 | the plugin's tick of a room keeps its players stored in both maps |
| GameManager.PluginUpdateKept | GameManager.js:117 | a plugin tick keeps `players` inside `things` |
| GameManager.TickRooms | GameManager.js:114-132 | a tick that does not throw leaves no finished room among those it visited |
| GameManager.UpdateGame | GameManager.js:113-133 | after a full tick that does not throw no room of the game is over |
| GameManager.NoneFinished | GameManager.js:113-133 | with every room visited, no finished room remains |
| Sessions.LoadGameMap | GameManager.js:278-282 | loading the game map gives a well-formed server with no sessions whose games are the table built from the map |
| Sessions.GameTableIds | GameManager.js:278-282 | there is one game per id of the map and no other |
| Sessions.GameTableLastWins | GameManager.js:278-282 | each game starts with no rooms and the plugin given last for its id |
| Sessions.EmptyGameOk | GameManager.js:12-17 | a new game satisfies the registry invariant |
| Sessions.Connect | GameManager.js:215-235 | an unknown game throws; otherwise the session holds a new player for the socket, and no game is added |
| Sessions.ConnectJoins | GameManager.js:224-228 | the new player is in the requested room, which exists, with score 0 and health 3; the room id is not validated |
| Sessions.HoldingRoom | GameManager.js:237-238 | the room that holds the session's player object: its own room when the player is there |
| Sessions.CurrentPlayer | GameManager.js:237-238 | the session's player object as the server holds it now |
| Sessions.StoreInputIn | GameManager.js:237-239 | the input reaches the player object in the room that holds it; nothing else changes |
| Sessions.PlayerInput | GameManager.js:237-239 | an input sets the session player's input |
| Sessions.Rejoin | GameManager.js:252-259 | the player object moves into the new room, which exists afterwards |
| Sessions.RejoinLeaves | GameManager.js:254 | a player changing rooms is no longer in the old room |
| Sessions.RejoinKeepsScore | GameManager.js:254-259 | a room change keeps the player's score |
| Sessions.ChangeRoom | GameManager.js:246-267 | an invalid room id or unknown socket is ignored; otherwise the player moves and the session now names the new room |
| Sessions.Disconnect | GameManager.js:269-275 | the player is no longer in the session's room, that room exists afterwards, and the session ends |
| Sessions.DisconnectRemakesRoom | GameManager.js:269-274 | when the last player leaves a room that is not the lobby, the room is deleted and then re-created empty and not started |
| Sessions.DisconnectAfterGameOver | GameManager.js:269-274 | a player sent to the lobby by a finished game stays in the lobby after disconnecting |
| Sessions.TickGames | GameManager.js:292-294 | the tick updates only the games it visits and keeps the sessions; without a throw no visited game has a finished room |
| Sessions.ServerTick | GameManager.js:290-295 | after a server tick that does not throw, no room of any game is over |
| Sessions.PlayersInAllGames | GameManager.js:154-160 | the total over all games of their player counts |
| Sessions.PlayersPerGame | GameManager.js:163-169 | one count per game, each its player count |
| Sessions.SummaryOver | GameManager.js:172-183 | the total counts every player; the active games are at most the games and at most the players, and zero exactly when there are no players |
| Sessions.Summary | GameManager.js:172-183 | the summary's total equals the all-games count, and it has an active game iff it has a player |
| Sessions.SumGamesCounts | GameManager.js:154-169 | no single game has more players than all games together |
| Sessions.PlayersInAllGamesBounds | GameManager.js:154-169 | each per-game count is at most the all-games count |
| Ranking.InsertPos | LeaderboardManager.js:57-59 | the new entry's position after a stable sort: behind every entry scoring at least as much, ahead of the first lower one |
| Ranking.Insert | LeaderboardManager.js:57-58 | the entry lands at that position and the others keep their order |
| Ranking.InsertSorted | LeaderboardManager.js:57-58 | inserting into a sorted board keeps it sorted and adds exactly the new entry |
| Ranking.StableSort | LeaderboardManager.js:58 | the sort is non-increasing by score and a permutation of its input |
| Ranking.StableSortStable | LeaderboardManager.js:58 | entries of equal score keep their relative order |
| Ranking.StableSortOfSorted | LeaderboardManager.js:58 | a sorted board is left as it is |
| Ranking.Truncate | LeaderboardManager.js:62-64 | cutting keeps the first ten entries, and a board of ten or fewer whole |
| Ranking.Rank | LeaderboardManager.js:56-64 | the new board is the first ten of the stable sort of the old board plus the entry, sorted and at most ten long |
| Ranking.RankKeeps | LeaderboardManager.js:59-64 | an entry landing among the first ten is on the new board at its place; otherwise the board is unchanged |
| Ranking.GetLeaderboard | LeaderboardManager.js:77-82 | the game's board, created empty when missing; no other board changes |
| Ranking.GetLeaderboardIdempotent | leaderboard.js:58-63 | asking for a board twice is asking once |
| Ranking.QueryLimit | LeaderboardManager.js:71 | the limit is never 0 |
| Ranking.QueryLimitOf | LeaderboardManager.js:71 | the limit is the integer sent, and 10 when it is absent or zero |
| Ranking.LeaderboardForGame | LeaderboardManager.js:69-74 | the reply is a prefix of the board: the first `limit` entries, or all but the last `-limit`; the board is created if missing |
| Ranking.LeaderboardForGameDefault | leaderboard.js:50-55 | without a limit the whole board comes back |
| LeaderboardManager.Init | LeaderboardManager.js:8-11 | one empty board per configured game |
| LeaderboardManager.AddLeaderboardEntry | LeaderboardManager.js:53-66 | the board becomes the first ten of the stable sort with the new entry, and the flag says whether the entry placed below ten |
| LeaderboardManager.AddLeaderboardEntryPlaces | LeaderboardManager.js:53-66 | a flagged entry is on the board at its rank; an unflagged one leaves the board as it was |
| LeaderboardManager.Submit | LeaderboardManager.js:38-51 | an unknown game, a non-string name or a non-number score is refused with 400 and nothing changes; otherwise the entry is added |
| LeaderboardManager.SubmitHidesRank | LeaderboardManager.js:49-65 | an accepted submit replies `success` with neither the entry nor the rank |
| Leaderboard.StoredName | leaderboard.js:33 | the stored name is the trimmed name cut to at most 20 characters |
| Leaderboard.Push | leaderboard.js:31-44 | the board, created if missing, becomes the first ten of the stable sort with the new entry; other boards are unchanged |
| Leaderboard.PushPlaces | leaderboard.js:31-44 | an entry that ranks among ten is on the board; one that does not leaves the board unchanged |
| Leaderboard.Submit | leaderboard.js:23-47 | a non-string name or non-number score is refused with 400 and nothing changes; otherwise the entry is added with a bare `success` reply |
| Leaderboard.RefusedMakesNoBoard | leaderboard.js:27-31 | a refused submit does not create the board |
| EventManager.Init | EventManager.js:12-15 | one empty event list per configured game |
| EventManager.MakeEvent | EventManager.js:87-100 | the game's list, created if missing, gains exactly one event at its end with the defaults applied; other games are unchanged |
| EventManager.MakeEventDefaults | EventManager.js:93-95 | without length or data an event gets length 0 and data `{}` |
| EventManager.GetEventsForGame | EventManager.js:102-104 | the game's list, or empty for an unknown game, with nothing created |
| EventManager.TriggerEvent | EventManager.js:72-79 | a non-string game id or type is refused with 400 and nothing changes; otherwise one event is made |
| EventManager.UtcDay | EventManager.js:82-83 | the UTC weekday of a time is in 0..6 |
| EventManager.WeekendCalendar | EventManager.js:81-85 | the epoch's Thursday is not a weekend day, the next Friday and Sunday are, Monday is not, and the rule repeats weekly |
| EventManager.WeekendEvent | EventManager.js:42 | the weekend event is of type `double-xp-weekend` |
| EventManager.AddWeekend | EventManager.js:38-43 | a list gets a weekend event exactly when it has none |
| EventManager.AddWeekendOnce | EventManager.js:36-43 | repeated weekend ticks add at most one weekend event |
| EventManager.RemoveWeekend | EventManager.js:46-54 | every weekend event is removed and every other event kept, in order |
| EventManager.DropExpired | EventManager.js:58-67 | exactly the events with positive length and that much time passed are dropped; survivors keep their order |
| EventManager.ZeroLengthStays | EventManager.js:60 | an event of length 0 never expires |
| EventManager.Tick | EventManager.js:35-68 | a minute tick applies the weekend rule of the day and then the expiry filter to every game's list |
| EventManager.WeekdayClears | EventManager.js:44-55 | after a weekday tick no list has a weekend event |
| EventManager.WeekendAdds | EventManager.js:36-43 | after a weekend tick a list that had no weekend event has one |
| EventManager.LengthlessStays | EventManager.js:56-67 | an event without length survives a tick unless it is a weekend event on a weekday |
| ProfileManager.Spread | ProfileManager.js:100 | spreading copies an object's fields and nothing of other values |
| ProfileManager.SetProfile | ProfileManager.js:98-101 | a shallow merge: new fields override, old fields not mentioned are kept, other profiles are unchanged |
| ProfileManager.SetProfileIdempotent | ProfileManager.js:98-101 | setting the same fields twice is setting them once |
| ProfileManager.SetProfileCovering | ProfileManager.js:98-101 | a profile covering every old field replaces the old one |
| ProfileManager.GetProfile | ProfileManager.js:103-105 | the stored profile, or none (`null`) for an unknown id |
| ProfileManager.CreateProfile | ProfileManager.js:107-115 | the new profile has exactly id, name (default `Anonymous`), credits 0, creation time and empty stats |
| ProfileManager.CreateThenGet | ProfileManager.js:107-115 | a profile created without a name reads back as `Anonymous` with no stats |
| ProfileManager.UpdateStats | ProfileManager.js:34-40 | an unknown id is a no-op; otherwise the given stats are laid over the old ones |
| ProfileManager.UpdateStatsOverlays | ProfileManager.js:37 | a stat given wins; a stat not given keeps its old value |
| ProfileManager.StatHolder | ProfileManager.js:46 | the stats object the handlers write to; a truthy non-object `stats` makes the write throw |
| ProfileManager.Plus | ProfileManager.js:47 | adding to a number adds |
| ProfileManager.Minus | ProfileManager.js:57 | subtracting coerces the old value to a number and subtracts |
| ProfileManager.AdjustStat | ProfileManager.js:43-60 | an unknown id is a no-op; otherwise only the one stat changes, to the adjusted old value (absent counts as 0) |
| ProfileManager.IncrementStat | ProfileManager.js:43-50 | a numeric stat grows by the amount; an absent one becomes the amount |
| ProfileManager.DecrementStat | ProfileManager.js:53-60 | a numeric stat shrinks by the amount; an absent one becomes minus the amount |
| ProfileManager.IncrementDecrement | ProfileManager.js:43-60 | incrementing and then decrementing a numeric stat by the same amount restores the profiles |
| ProfileManager.AdjustCredits | ProfileManager.js:80-95 | an unknown id is a no-op; otherwise only the credits change, to the adjusted old value (absent counts as 0) |
| ProfileManager.AddCredits | ProfileManager.js:80-86 | credits grow by the amount |
| ProfileManager.SubtractCredits | ProfileManager.js:89-95 | credits shrink by the amount, with no lower bound |
| ProfileManager.CreditsGoNegative | ProfileManager.js:89-95 | spending from a new profile leaves negative credits |
| ProfileManager.SetCredits | ProfileManager.js:63-69 | the credits become the given value; an unknown id is a no-op |
| ProfileManager.GetCredits | ProfileManager.js:72-77 | the credits of a known profile, 0 when falsy; nothing for an unknown id |
| ProfileManager.SetThenGetCredits | ProfileManager.js:63-77 | credits read back as set, or 0 when set to a falsy value |

## Left out

- Socket.IO and Express plumbing is not modelled: `join`/`leave`, handler registration and HTTP responses beyond a status and a body. The only emits modelled are the game tick's `gameEnded`, `playersMoved` and `serverUpdate`. The plugins' own emits (`gameStarted`, `turnEnded`, `diceRolled` and so on) and the handlers' `playerJoined`/`playerLeft` are not modelled.
- Timers (`setInterval` for the game tick and the event minute) are not modelled. Each run of the timer body is one function call.
- `Date.now()`, `new Date()`, `Math.random()` and the random colours are parameters (`now`, the draws in `CreationGame.Draws`, the colour draws below 100). `CreationGame.TilePicks` holds at least four tile picks, the most any effect consumes, so the draws never run out before the source's loop would stop.
- Level files (`fetchJsonSync`) are parameters: the level is part of the plugin value.
- The custom-event registrations `io.on("submitLeaderboardEntry")`, `io.on("getManagedEvents")` and the profile handlers are not modelled as registrations, because Socket.IO's server never emits those event names, so they never run. Their bodies are modelled as the functions of `LeaderboardManager`, `EventManager` and `ProfileManager`.
- The `playersInGame` endpoint is not modelled. It calls `this.getGameState`, which does not exist, so it always throws.
- The `playerNotify` endpoint only logs and broadcasts, so it is not modelled.
- The `!io` check in the EventManager constructor is not modelled, because it is configuration.
- games/DefaultGame.js is not part of this model. It is floating-point physics whose `update` signature does not match the registry's call.
- server.js is not part of this model. It is the start-up wiring.
- The circular placement of players on each dice-game tick (cos/sin) is not modelled, so positions are not tracked. The tick still publishes every player in key order and clears their inputs.
- Keys inherited from `Object.prototype` are not modelled. In the source a store object indexed by a request-chosen key such as `"constructor"`, `"toString"` or `"__proto__"` reads an inherited, truthy value; the maps of the model hold no such key. The lines below name the members that differ.
- Leaderboard.Submit: for such a game id the source's `getLeaderboard` (leaderboard.js:59-62) returns the inherited function, and `lb.push` (leaderboard.js:32) throws, so Express answers 500. The model creates a board and answers 200.
- LeaderboardManager.Submit: for such a game id the source passes the check at LeaderboardManager.js:40 and then throws in `lb.push`, answering 500. The model answers 400.
- EventManager.MakeEvent: for such a game id the source's `makeEvent` (EventManager.js:88-91) keeps the inherited value and `push` throws, so `TriggerEvent` answers 500. The model appends the event to a new list.
- GameManager.AddGameState: for such a room id the source's check at GameManager.js:20 finds the inherited value and makes no room. `addPlayer` (GameManager.js:43) then throws. That room id is reachable through the unchecked handshake (GameManager.js:222-225), where `Sessions.Connect` builds an ordinary room instead.
- ProfileManager.GetProfile: for such an id the source (ProfileManager.js:104) returns the inherited value and answers 200. The model answers not found.
- Entities.Input: the client's `input` is stored as sent (GameManager.js:237-239), but the model keeps only the fields the dice game reads, as booleans, an optional string and integer hex coordinates. A truthy non-object input, which makes `input.endTurn = true` throw in strict mode (games/CreationGame.js:157), is not modelled. Neither are non-integer or missing tile coordinates, which give keys such as `"undefined,undefined"` or a fractional `q` that the AI's `parseInt` reads back as another tile.
- EventManager.DropExpired: `Js.Value` has no array case, so an event `length` given as an array such as `[5]` is not modelled. JavaScript coerces it to 5 (EventManager.js:60) and the event expires. The model has no such length.
- Numbers are modelled as mathematical reals and integers, so NaN, the infinities and rounding are outside the model.
- Ranking.StableSort: scores are reals, so a NaN or infinite score, whose comparator result is NaN, is not modelled.
- ProfileManager.Plus: adding to a string (concatenation) or to a value that is not a number gives no result here instead of a string or NaN.
- ProfileManager.Minus: a value whose numeric coercion is NaN gives no result here instead of NaN.
- ProfileManager.IncrementDecrement: stated for numeric stats only, because of the restriction on `Plus` and `Minus`.
- ProfileManager.StatHolder: a truthy non-object `stats` (a number, a string, a boolean) is modelled as a failed write. In strict mode the property assignment throws. A string spread by `{ ...stats }` would copy its characters, and that is not modelled.
- ProfileManager.Spread: spreading a string is modelled as copying nothing.
- Js.ToNumber: a string is read as a number only when it is blank or an optionally signed run of decimal digits. Fractions, exponents, hexadecimal and `Infinity` in strings count as NaN here.
- Leaderboard.StoredName: counts characters as code points. JavaScript's `slice` counts UTF-16 units.
- Ranking.QueryLimit: a `limit` given twice (an array in the query) is not modelled; the limit is one string or absent.
- EventManager.Tick: the same `now` serves the weekday test, the new weekend event's timestamp and the expiry test. The server reads the clock separately for each, a few microseconds apart.
- GameManager.TickRooms: rooms and games are visited in insertion order. JavaScript visits integer-like keys first, in numeric order.
- Sessions.CurrentPlayer: the session's player object is shared with the rooms that hold it. The model finds it in the session's room, else in the lobby a finished game moved it to, else in the session's own copy. After a finished game the session's room id is stale, as in the server.
- Sessions.Disconnect: the session is dropped from the table, because the socket is gone.
- Sessions.Connect: the handshake's `gameId`, `roomId` and `name` are strings here. A missing `roomId` would be the key `"undefined"`, and a missing `name` falls back to the id, as an empty one does.
- Sessions.ChangeRoom: the new room id is a string. A non-string id makes `startsWith` throw, and that is not modelled.
- CreationGame.Create: the level's camera must hold a `transform` object. Without one, `onFetch` throws, and that is not modelled.
- The dice game's `collectedCredits` field is never read, so it is not modelled.
- CreationGame.EndTurn: the write `nextPlayer.data.input = {}` (games/CreationGame.js:229) is not modelled. That field lives under `data`, and nothing reads it: the player's `input`, which the game does read, is a different field.
- CreationGame.PrepareThing: a `HexTileGrid` level thing whose `data` is not an object (undefined, null, a number, a string or a boolean) makes `objData.data.radius = boardSize` (games/CreationGame.js:72) throw a TypeError in the source, because class bodies run in strict mode. The model gives such a thing a fresh board instead. Also, a board thing's `data` object is replaced as a whole, where the source writes `radius`, `layers` and `attacks` into the loaded object and keeps its other fields. `CreationGame.OnFetch`, `CreationGame.Create` and `Plugins.Create` inherit both differences.
- CreationGame.AiDecide: the random choices (target tile, attack tile) are the parameter `pick`, used modulo the number of candidates.

=== FILE: basic_game.dfy ===
/** The template game plugin: a room loads its level, starts once two players
    are present, counts one timer step per tick and ends at step 1000. */
module BasicGame {
  import opened Js
  import opened Entities
  import opened Rooms

  /** The timer value at which a started game is over. */
  const TimeLimit := 1000

  /** `initStateData(room, level)`: copies the level's settings, with
      `paused` defaulting to `false` and `camera`/`weather` to `{}`, stores
      every level thing under its id, and resets the turn state. */
  function InitStateData(r: Room, level: Level): (r': Room)
    ensures Truthy(level.paused) ==> r'.paused == level.paused
    ensures !Truthy(level.paused) ==> r'.paused == Bool(false)
    ensures r'.camera == (if Truthy(level.camera) then level.camera else Obj(map[]))
    ensures r'.weather == (if Truthy(level.weather) then level.weather else Obj(map[]))
    ensures r'.things.Keys == r.things.Keys + Ids(level.things)
    ensures forall k :: k in Ids(level.things) ==> r'.things[k].ThingEntity?
    ensures r'.timer == 0 && r'.currentPlayerIndex == 0 && !r'.started
    ensures r'.players == r.players && r'.playerOrder == r.playerOrder
    ensures r'.roomId == r.roomId && r'.roomName == r.roomName && r'.gameOver == r.gameOver
  {
    r.(paused := Or(level.paused, Bool(false)),
       camera := Or(level.camera, Obj(map[])),
       weather := Or(level.weather, Obj(map[])),
       things := InsertThings(r.things, level.things),
       currentPlayerIndex := 0,
       timer := 0,
       started := false)
  }

  /** `create(room)`: nothing in the lobby, otherwise the level is loaded. */
  function Create(r: Room, level: Level): (r': Room)
    ensures r.roomId == "lobby" ==> r' == r
    ensures r.roomId != "lobby" ==> r' == InitStateData(r, level)
  {
    if r.roomId == "lobby" then r else InitStateData(r, level)
  }

  /** `update(io, room, outState)`. The game starts on the first tick with at
      least two players; every tick of a started game advances the timer by
      one, and the tick on which it reaches 1000 ends the game. The lobby and
      a finished game are left alone. */
  function Update(r: Room): (r': Room)
    ensures r.roomId == "lobby" || r.gameOver ==> r' == r
    ensures r.roomId != "lobby" && !r.gameOver ==>
      && r'.started == (r.started || PlayerCount(r) >= 2)
      && r'.timer == (if r'.started then r.timer + 1 else r.timer)
      && r'.gameOver == (r'.started && r'.timer >= TimeLimit)
    ensures r.started ==> r'.started
    ensures r'.players == r.players && r'.playerOrder == r.playerOrder && r'.things == r.things
    ensures r'.roomId == r.roomId && r'.roomName == r.roomName
    ensures r'.(started := r.started, timer := r.timer, gameOver := r.gameOver) == r
  {
    if r.roomId == "lobby" || r.gameOver then r
    else
      var started := r.started || PlayerCount(r) >= 2;
      if started then
        var timer := r.timer + 1;
        r.(started := true, timer := timer, gameOver := timer >= TimeLimit)
      else r
  }

  /** `n` consecutive ticks. */
  function Run(r: Room, n: nat): Room
    decreases n
  {
    if n == 0 then r else Run(Update(r), n - 1)
  }

  /** A started game in a room other than the lobby, whose timer stands at
      `t < 1000`, is still running after fewer than `1000 - t` ticks and is
      over after exactly `1000 - t` ticks, with its timer at 1000. */
  lemma {:induction false} RunReachesGameOver(r: Room, n: nat)
    requires r.roomId != "lobby" && r.started && !r.gameOver
    requires 0 <= r.timer < TimeLimit
    ensures n < TimeLimit - r.timer ==> !Run(r, n).gameOver && Run(r, n).timer == r.timer + n
    ensures n == TimeLimit - r.timer ==> Run(r, n).gameOver && Run(r, n).timer == TimeLimit
    decreases n
  {
    if n > 0 {
      var r1 := Update(r);
      assert r1.timer == r.timer + 1 && r1.started;
      if r1.timer < TimeLimit {
        RunReachesGameOver(r1, n - 1);
      }
    }
  }

  /** Once over, a game stays over and unchanged, however many ticks follow. */
  lemma {:induction false} RunAfterGameOver(r: Room, n: nat)
    requires r.gameOver
    ensures Run(r, n) == r
    decreases n
  {
    if n > 0 {
      RunAfterGameOver(Update(r), n - 1);
    }
  }
}

=== FILE: creation_game.dfy ===
/** The dice game plugin. A room other than the lobby gets a hexagonal board
    whose radius follows its name; once two players are present the game
    starts and players take turns: the current player rolls dice for credits,
    spends one credit per layer put on a tile, and attacks tiles on which one
    player has stacked six layers of their own, with a random effect. A player
    idle for more than 1000 ticks is first marked and then removed. */
module CreationGame {
  import opened Prelude
  import opened Js
  import opened Transforms
  import opened HexGrid
  import opened Entities
  import opened Rooms

  /** The key under which the game looks up its board and its dice. */
  const BoardKey := "Thing_HexTileGrid"
  const DiceKey := "Thing_GameDice"

  /** The `type` of a thing whose data the game sets up as a board. */
  const BoardKind := "HexTileGrid"

  /** Idle ticks after which the current player is marked, or removed if
      already marked. */
  const IdleLimit := 1000

  /** Ticks an AI player waits before each move. */
  const ThinkTicks := 30

  /** A value of `Math.floor(Math.random() * 6) + 1`. */
  type Die = x: int | 1 <= x <= 6 witness 1

  /** The indices of the tiles an attack clears, one per
      `Math.floor(Math.random() * n)`. `Math.random()` never runs out, and no
      effect clears more than four tiles, so four picks always suffice. */
  type TilePicks = s: seq<nat> | |s| >= 4 witness [0, 0, 0, 0]

  /** The random draws one update may consume: the dice roll, the attack's
      effect roll, the index of the opponent it hits, the indices of the
      tiles it clears, and the index of an AI player's random target. */
  datatype Draws = Draws(diceRoll: Die, effectRoll: Die, opponentPick: nat, tilePicks: TilePicks, aiPick: nat)

  /** How an update ends: normally, with the ids of the players whose
      positions are sent to the room, or by throwing a TypeError after the
      mutations it made so far. */
  datatype Outcome = Done(room: Room, out: seq<string>) | Threw(room: Room)

  // ---------------------------------------------------------------------------
  // Setup

  /** The board radius for a room id: the first of `Small`, `Medium`,
      `Large`, `Huge`, `Giant` it contains gives 1 to 5; none gives 1. */
  function BoardSize(roomId: string): (size: nat)
    ensures 1 <= size <= 5
    ensures size == 2 <==> !Includes(roomId, "Small") && Includes(roomId, "Medium")
    ensures size == 3 <==> !Includes(roomId, "Small") && !Includes(roomId, "Medium") && Includes(roomId, "Large")
    ensures size == 4 <==> !Includes(roomId, "Small") && !Includes(roomId, "Medium") && !Includes(roomId, "Large")
                           && Includes(roomId, "Huge")
    ensures size == 5 <==> !Includes(roomId, "Small") && !Includes(roomId, "Medium") && !Includes(roomId, "Large")
                           && !Includes(roomId, "Huge") && Includes(roomId, "Giant")
  {
    if Includes(roomId, "Small") then 1
    else if Includes(roomId, "Medium") then 2
    else if Includes(roomId, "Large") then 3
    else if Includes(roomId, "Huge") then 4
    else if Includes(roomId, "Giant") then 5
    else 1
  }

  /** A size word is recognised wherever it stands in the room id. */
  lemma BoardSizeOfWord(prefix: string, suffix: string)
    ensures var g := prefix + "Giant" + suffix;
      !Includes(g, "Small") && !Includes(g, "Medium") && !Includes(g, "Large") && !Includes(g, "Huge") ==>
        BoardSize(g) == 5
    ensures !Includes(prefix + "Large" + suffix, "Small") && !Includes(prefix + "Large" + suffix, "Medium") ==>
      BoardSize(prefix + "Large" + suffix) == 3
    ensures BoardSize(prefix + "Small" + suffix) == 1
  {
    var s := prefix + "Small" + suffix;
    assert s[|prefix|..|prefix| + 5] == "Small";
    IncludesAt(s, "Small", |prefix|);
    var l := prefix + "Large" + suffix;
    assert l[|prefix|..|prefix| + 5] == "Large";
    IncludesAt(l, "Large", |prefix|);
    var g := prefix + "Giant" + suffix;
    assert g[|prefix|..|prefix| + 5] == "Giant";
    IncludesAt(g, "Giant", |prefix|);
  }

  /** The level camera the game can set up: an object whose `transform` is an
      object. With any other camera setting its position throws. */
  predicate CameraOk(camera: Value) {
    camera.Obj? && "transform" in camera.fields && camera.fields["transform"].Obj?
  }

  /** `camera.transform.position = { x: 0, y: 16 + size, z: 8 + size }`. */
  function PlaceCamera(camera: Value, size: nat): (c: Value)
    requires CameraOk(camera)
    ensures CameraOk(c)
    ensures c.fields.Keys == camera.fields.Keys
    ensures var t := c.fields["transform"].fields;
      && t.Keys == camera.fields["transform"].fields.Keys + {"position"}
      && t["position"] == Obj(map["x" := Num(0.0), "y" := Num((16 + size) as real), "z" := Num((8 + size) as real)])
  {
    var t := camera.fields["transform"].fields;
    var pos := Obj(map["x" := Num(0.0), "y" := Num((16 + size) as real), "z" := Num((8 + size) as real)]);
    Obj(camera.fields["transform" := Obj(t["position" := pos])])
  }

  /** A level thing as the game stores it: a board thing gets a fresh board
      of the given radius. */
  function PrepareThing(t: Thing, size: nat): (t': Thing)
    ensures t'.(data := t.data) == t
    ensures t.kind == BoardKind ==> t'.data == GridData(Init(size))
    ensures t.kind != BoardKind ==> t'.data == t.data
  {
    if t.kind == BoardKind then t.(data := GridData(Init(size))) else t
  }

  function PrepareThings(ts: seq<Thing>, size: nat): (ts': seq<Thing>)
    ensures |ts'| == |ts|
    ensures forall i :: 0 <= i < |ts| ==> ts'[i] == PrepareThing(ts[i], size)
    decreases |ts|
  {
    if |ts| == 0 then [] else [PrepareThing(ts[0], size)] + PrepareThings(ts[1..], size)
  }

  /** `onFetch(room, level, size)`: the level's settings with their defaults,
      the camera placed for the board, every level thing stored under its
      id with board things holding a fresh board, and the turn state reset. */
  function OnFetch(r: Room, level: Level, size: nat): (r': Room)
    requires CameraOk(level.camera)
    ensures r'.paused == Or(level.paused, Bool(false)) && r'.weather == Or(level.weather, Obj(map[]))
    ensures r'.camera == PlaceCamera(level.camera, size)
    ensures r'.things == InsertThings(r.things, PrepareThings(level.things, size))
    ensures r'.timer == 0 && r'.currentPlayerIndex == 0 && !r'.started
    ensures r'.players == r.players && r'.playerOrder == r.playerOrder
    ensures r'.roomId == r.roomId && r'.roomName == r.roomName && r'.gameOver == r.gameOver
  {
    r.(paused := Or(level.paused, Bool(false)),
       camera := PlaceCamera(level.camera, size),
       weather := Or(level.weather, Obj(map[])),
       currentPlayerIndex := 0,
       timer := 0,
       started := false,
       things := InsertThings(r.things, PrepareThings(level.things, size)))
  }

  /** Every board set up by `OnFetch` is a valid board of the room's size,
      and a room without players keeps the room invariant. */
  lemma OnFetchOk(r: Room, level: Level, size: nat)
    requires CameraOk(level.camera)
    requires RoomOk(r) && GridsValid(r)
    requires forall t :: t in level.things ==> !t.data.GridData?
    ensures RoomOk(OnFetch(r, level, size))
    ensures GridsValid(OnFetch(r, level, size))
  {
    var ts := PrepareThings(level.things, size);
    var r' := OnFetch(r, level, size);
    forall k | k in r'.things && r'.things[k].ThingEntity? && r'.things[k].thing.data.GridData?
      ensures Valid(r'.things[k].thing.data.grid)
    {
      OnFetchBoard(r.things, level.things, size, k);
    }
  }

  /** A board stored by the level load is either one the room already held
      or a fresh board of the given radius. */
  lemma {:induction false} OnFetchBoard(m: map<string, Entity>, ts: seq<Thing>, size: nat, k: string)
    requires forall t :: t in ts ==> !t.data.GridData?
    ensures var m' := InsertThings(m, PrepareThings(ts, size));
      k in m' && m'[k].ThingEntity? && m'[k].thing.data.GridData? ==>
        m'[k].thing.data.grid == Init(size) || (k in m && m'[k] == m[k])
    decreases |ts|
  {
    if |ts| > 0 {
      var t := PrepareThing(ts[0], size);
      assert PrepareThings(ts, size)[1..] == PrepareThings(ts[1..], size);
      OnFetchBoard(m[t.id := ThingEntity(t)], ts[1..], size, k);
    }
  }

  /** `create(room)`: the lobby is left alone; any other room sets the
      plugin's size from its id and loads the level. Returns the plugin's
      new size and the room. */
  function Create(size: nat, r: Room, level: Level): (res: (nat, Room))
    requires CameraOk(level.camera)
    ensures r.roomId == "lobby" ==> res == (size, r)
    ensures r.roomId != "lobby" ==> res.0 == BoardSize(r.roomId) && res.1 == OnFetch(r, level, res.0)
  {
    if r.roomId == "lobby" then (size, r)
    else
      var b := BoardSize(r.roomId);
      (b, OnFetch(r, level, b))
  }

  /** `aiPlayerMax()`: the size of the room created last. */
  function AiPlayerMax(size: nat): (n: nat)
    ensures n == size
  {
    size
  }

  /** `addAiPlayers()`: `size` AI players with ids `ai_<now>_<k>_<i>` for the
      random draws `k`, named `AI_` followed by the id. */
  function AddAiPlayers(size: nat, now: int, draws: seq<nat>, colors: seq<Color>): (ps: seq<Player>)
    requires |draws| == size && |colors| == size
    ensures |ps| == size
    ensures forall i :: 0 <= i < size ==>
      && ps[i].id == "ai_" + IntString(now) + "_" + IntString(draws[i]) + "_" + IntString(i)
      && ps[i].name == "AI_" + ps[i].id
      && ps[i].data.isAi == Some(true)
      && ps[i].data.health == 3 && ps[i].data.credits == 0 && ps[i].data.dice == 0
  {
    seq(size, i requires 0 <= i < size =>
      var id := "ai_" + IntString(now) + "_" + IntString(draws[i]) + "_" + IntString(i);
      NewPlayer(id, "AI_" + id, Some(true), colors[i]))
  }


  // ---------------------------------------------------------------------------
  // Helpers on the room

  /** The board stored under `Thing_HexTileGrid`, if the room has one. */
  function BoardOf(r: Room): Option<Grid> {
    if BoardKey in r.things && r.things[BoardKey].ThingEntity? && r.things[BoardKey].thing.data.GridData?
    then Some(r.things[BoardKey].thing.data.grid)
    else None
  }

  /** The `id` field of the entry stored under `key`. A player's entry is the
      player itself, stored under its own id. */
  function IdOf(r: Room, key: string): string
    requires key in r.things
  {
    match r.things[key]
    case PlayerRef => key
    case ThingEntity(t) => t.id
  }

  /** No negative health, credits or dice. */
  predicate StatsOk(d: PlayerData) {
    d.health >= 0 && d.credits >= 0 && d.dice >= 0
  }

  /** Every player of the room has non-negative stats. */
  ghost predicate AllStatsOk(r: Room) {
    forall k :: k in r.players ==> StatsOk(r.players[k].data)
  }

  /** What no branch of a turn changes: the room's identity, whether the
      game has started and whether it is over. */
  predicate SameRoom(r: Room, r': Room) {
    r'.roomId == r.roomId && r'.roomName == r.roomName && r'.started == r.started && r'.gameOver == r.gameOver
  }

  /** Replaces the `data` of a present player. */
  function SetData(r: Room, id: string, data: PlayerData): (r': Room)
    requires RoomOk(r) && id in r.players
    ensures RoomOk(r')
    ensures r'.players == r.players[id := r.players[id].(data := data)]
    ensures r'.things == r.things && r'.playerOrder == r.playerOrder
    ensures r'.(players := r.players) == r
    ensures AllStatsOk(r) && StatsOk(data) ==> AllStatsOk(r')
  {
    SetPlayer(r, r.players[id].(data := data))
  }

  /** Writes the input object back to the player when the player holds one:
      an absent input is read as a fresh `{}` whose changes are lost. */
  function StoreInput(r: Room, id: string, input: Input): (r': Room)
    requires RoomOk(r) && id in r.players
    ensures RoomOk(r')
    ensures r.players[id].input.Some? ==> r'.players == r.players[id := r.players[id].(input := Some(input))]
    ensures r.players[id].input.None? ==> r' == r
    ensures r'.players.Keys == r.players.Keys
    ensures r'.(players := r.players) == r
    ensures AllStatsOk(r) ==> AllStatsOk(r')
  {
    var p := r.players[id];
    if p.input.Some? then SetPlayer(r, p.(input := Some(input))) else r
  }

  /** Replaces the board stored under `key`. */
  function SetBoard(r: Room, key: string, g: Grid): (r': Room)
    requires RoomOk(r) && key in r.things && r.things[key].ThingEntity?
    ensures RoomOk(r')
    ensures r'.things == r.things[key := ThingEntity(r.things[key].thing.(data := GridData(g)))]
    ensures r'.(things := r.things) == r
    ensures GridsValid(r) && Valid(g) ==> GridsValid(r')
  {
    SetThingData(r, key, GridData(g))
  }

  // ---------------------------------------------------------------------------
  // The start of the game

  /** The stats a player gets when the game starts: health 3, no credits, one
      die for the first player and none for the others, and `isAi` made a
      boolean. */
  function StartStats(d: PlayerData, first: bool): (d': PlayerData)
    ensures StatsOk(d')
    ensures d'.health == 3 && d'.credits == 0 && d'.dice == (if first then 1 else 0)
    ensures d'.isAi == Some(d.isAi == Some(true))
    ensures d'.(health := d.health, credits := d.credits, dice := d.dice, isAi := d.isAi) == d
  {
    d.(health := 3, credits := 0, dice := if first then 1 else 0, isAi := Some(d.isAi == Some(true)))
  }

  /** The start of the game: every player gets the start stats, the first
      player in key order one die, and the turn goes to that player. */
  function Start(r: Room): (r': Room)
    requires RoomOk(r) && PlayerCount(r) >= 1
    ensures RoomOk(r') && AllStatsOk(r')
    ensures r'.started && r'.currentPlayerIndex == 0
    ensures r'.players.Keys == r.players.Keys
    ensures forall k :: k in r.players ==>
      r'.players[k] == r.players[k].(data := StartStats(r.players[k].data, k == r.playerOrder[0]))
    ensures r'.(players := r.players, started := r.started, currentPlayerIndex := r.currentPlayerIndex) == r
  {
    var first := r.playerOrder[0];
    var reset := map k | k in r.players :: r.players[k].(data := StartStats(r.players[k].data, k == first));
    assert reset.Keys == r.players.Keys;
    r.(players := reset, started := true, currentPlayerIndex := 0)
  }

  // ---------------------------------------------------------------------------
  // The branches of `update`

  /** `(i + 1) % count` for an index in range: the next index, wrapping
      past the last one to the first. */
  function Succ(i: nat, c: nat): (j: nat)
    requires i < c
    ensures j < c
    ensures j == 0 <==> i == c - 1
  {
    if i + 1 < c then i + 1 else 0
  }

  /** `Succ` is the code's `(i + 1) % count`. */
  lemma SuccIsMod(i: nat, c: nat)
    requires i < c
    ensures Succ(i, c) == (i + 1) % c
  {
  }

  /** The `endTurn` branch: the turn passes to the next player in key order,
      who gets one more die; the timer restarts and the current player's
      input is replaced by `{}`. */
  function EndTurn(r: Room): (r': Room)
    requires RoomOk(r) && r.currentPlayerIndex < PlayerCount(r)
    ensures RoomOk(r') && r'.playerOrder == r.playerOrder
    ensures r'.currentPlayerIndex == Succ(r.currentPlayerIndex, PlayerCount(r))
    ensures r'.timer == 0
    ensures r'.(players := r.players, timer := r.timer, currentPlayerIndex := r.currentPlayerIndex) == r
  {
    var cur := r.playerOrder[r.currentPlayerIndex];
    var i := Succ(r.currentPlayerIndex, PlayerCount(r));
    var next := r.playerOrder[i];
    OrderedPresent(r, r.currentPlayerIndex);
    OrderedPresent(r, i);
    var d := r.players[next].data;
    var r1 := SetData(r.(timer := 0, currentPlayerIndex := i), next, d.(dice := d.dice + 1));
    SetPlayer(r1, r1.players[cur].(input := Some(NoInput)))
  }

  /** At the end of a turn the next player gets one more die and the
      current player's input is replaced by `{}`; nobody else changes, and
      no stat becomes negative. */
  lemma EndTurnPlayers(r: Room)
    requires RoomOk(r) && r.currentPlayerIndex < PlayerCount(r)
    ensures var r' := EndTurn(r);
      var (cur, next) := (PlayerAt(r, r.currentPlayerIndex), PlayerAt(r, r'.currentPlayerIndex));
      && r'.players.Keys == r.players.Keys
      && r'.players[next].data == r.players[next].data.(dice := r.players[next].data.dice + 1)
      && r'.players[cur].input == Some(NoInput)
      && (forall k :: k in r.players && k != cur && k != next ==> r'.players[k] == r.players[k])
      && (AllStatsOk(r) ==> AllStatsOk(r'))
  {
  }

  /** `n` turn ends in a row. */
  function EndTurns(r: Room, n: nat): (r': Room)
    requires RoomOk(r) && r.currentPlayerIndex < PlayerCount(r)
    ensures RoomOk(r') && r'.playerOrder == r.playerOrder
    ensures r'.currentPlayerIndex == SuccN(r.currentPlayerIndex, n, PlayerCount(r))
    decreases n
  {
    if n == 0 then r else EndTurn(EndTurns(r, n - 1))
  }

  /** Index `i` after `n` steps of `Succ` among `c`. */
  function SuccN(i: nat, n: nat, c: nat): (j: nat)
    requires i < c
    ensures j < c
    decreases n
  {
    if n == 0 then i else Succ(SuccN(i, n - 1, c), c)
  }

  /** `n` steps of `Succ` from `i`, for `n` up to `c`, land on `i + n`,
      wrapping past the last index to the first. */
  lemma {:induction false} SuccNWraps(i: nat, n: nat, c: nat)
    requires i < c && n <= c
    ensures SuccN(i, n, c) == if i + n < c then i + n else i + n - c
    decreases n
  {
    if n > 0 {
      SuccNWraps(i, n - 1, c);
    }
  }

  /** Turns rotate through the players in key order: from index `i`, the
      `n`-th turn end (for `n` up to the player count) lands on index
      `i + n`, wrapping past the last player to the first, so after as many
      turn ends as there are players the turn is back with the same player. */
  lemma EndTurnsRotate(r: Room, n: nat)
    requires RoomOk(r) && r.currentPlayerIndex < PlayerCount(r)
    requires n <= PlayerCount(r)
    ensures var (i, c) := (r.currentPlayerIndex, PlayerCount(r));
      EndTurns(r, n).currentPlayerIndex == if i + n < c then i + n else i + n - c
    ensures n == PlayerCount(r) ==> EndTurns(r, n).currentPlayerIndex == r.currentPlayerIndex
  {
    SuccNWraps(r.currentPlayerIndex, n, PlayerCount(r));
  }

  /** The `rollDice` branch for a player holding a die: one die is spent, the
      roll is added to the credits and the dice thing's id is remembered. */
  function Roll(r: Room, id: string, diceId: Option<string>, roll: Die): (r': Room)
    requires RoomOk(r) && id in r.players && r.players[id].data.dice > 0
    ensures RoomOk(r') && (AllStatsOk(r) ==> AllStatsOk(r'))
    ensures r'.players.Keys == r.players.Keys
    ensures var (d, d') := (r.players[id].data, r'.players[id].data);
      && d'.dice == d.dice - 1 && d'.dice >= 0
      && d'.credits == d.credits + roll
      && d'.diceRef == diceId
      && d' == d.(dice := d'.dice, credits := d'.credits, diceRef := diceId, markedForRemoval := false)
    ensures r'.players[id].(data := r.players[id].data) == r.players[id]
    ensures forall k :: k in r.players && k != id ==> r'.players[k] == r.players[k]
    ensures r'.(players := r.players) == r
  {
    var d := r.players[id].data;
    SetData(r, id, d.(markedForRemoval := false, dice := d.dice - 1, diceRef := diceId, credits := d.credits + roll))
  }

  /** What an attack's effect roll grants the attacker: credits, dice, how
      many random tiles are cleared and whether a random opponent is hit. */
  datatype Effect = Effect(credits: nat, dice: nat, tiles: nat, hitOpponent: bool)

  function EffectOf(roll: Die): (e: Effect)
    ensures e.tiles > 0 <==> roll >= 4
    ensures e.tiles == (if roll >= 4 then roll - 2 else 0)
    ensures e.hitOpponent <==> roll == 3 || roll == 6
    ensures e.dice == (if roll == 2 || roll == 6 then 1 else 0)
    ensures e.credits + e.dice >= 1 || roll == 3
  {
    match roll
    case 1 => Effect(1, 0, 0, false)
    case 2 => Effect(0, 1, 0, false)
    case 3 => Effect(0, 0, 0, true)
    case 4 => Effect(3, 0, 2, false)
    case 5 => Effect(5, 0, 3, false)
    case 6 => Effect(0, 1, 4, true)
  }

  /** The opponent an attack hits: a random one of the other players, in
      key order. */
  function Opponent(r: Room, id: string, pick: nat): (target: Option<string>)
    requires RoomOk(r)
    ensures target.Some? ==> target.value in r.players && target.value != id
    ensures target.None? <==> forall k :: k in r.players ==> k == id
  {
    EnumeratesIff(r.playerOrder, r.players.Keys);
    var others := Filter(k => k != id, r.playerOrder);
    if |others| == 0 then None else Some(others[pick % |others|])
  }

  /** Health after a hit: one less, never below zero. */
  function Hit(health: int): (h: int)
    ensures health >= 1 ==> h == health - 1
    ensures health < 1 ==> h == 0
  {
    var h := health - 1;
    if h < 0 then 0 else h
  }

  /** The attacker after an effect: the effect's credits and dice, and 500
      more points when an opponent is hit. */
  function Gain(p: Player, e: Effect, hit: bool): (p': Player)
    ensures p'.data.credits == p.data.credits + e.credits && p'.data.dice == p.data.dice + e.dice
    ensures p'.score == p.score + (if hit then 500 else 0)
    ensures p'.(score := p.score, data := p.data) == p
    ensures p'.data.(credits := p.data.credits, dice := p.data.dice) == p.data
    ensures StatsOk(p.data) ==> StatsOk(p'.data)
  {
    p.(score := p.score + (if hit then 500 else 0),
       data := p.data.(credits := p.data.credits + e.credits, dice := p.data.dice + e.dice))
  }

  /** A player hit by an attack: one health point less, never below zero. */
  function Hurt(p: Player): (p': Player)
    ensures p'.data.health == Hit(p.data.health) && p'.data.health >= 0
    ensures p'.(data := p.data) == p && p'.data.(health := p.data.health) == p.data
    ensures StatsOk(p.data) ==> StatsOk(p'.data)
  {
    p.(data := p.data.(health := Hit(p.data.health)))
  }

  /** The opponent an effect roll hits, if any. */
  function EffectTarget(r: Room, id: string, d: Draws): (target: Option<string>)
    requires RoomOk(r)
    ensures target.Some? ==> target.value in r.players && target.value != id
    ensures target.Some? <==> EffectOf(d.effectRoll).hitOpponent && exists k :: k in r.players && k != id
  {
    if EffectOf(d.effectRoll).hitOpponent then Opponent(r, id, d.opponentPick) else None
  }

  /** How an effect changes the players: the attacker `id` gains, the
      opponent hit (if any) is hurt, and nobody else changes. */
  predicate EffectOnPlayers(before: map<string, Player>, after: map<string, Player>, id: string,
                            e: Effect, target: Option<string>) {
    && after.Keys == before.Keys
    && id in before && after[id] == Gain(before[id], e, target.Some?)
    && (target.Some? ==> target.value in before && after[target.value] == Hurt(before[target.value]))
    && (forall k :: k in before && k != id && Some(k) != target ==> after[k] == before[k])
  }

  /** The players after an effect, as `EffectOnPlayers` describes them;
      every player keeps its id. */
  function ApplyEffect(players: map<string, Player>, id: string, e: Effect, target: Option<string>): (after: map<string, Player>)
    requires id in players && (target.Some? ==> target.value in players && target.value != id)
    ensures EffectOnPlayers(players, after, id, e, target)
    ensures forall k :: k in after ==> after[k].id == players[k].id
  {
    var gained := players[id := Gain(players[id], e, target.Some?)];
    var after := if target.Some? then gained[target.value := Hurt(players[target.value])] else gained;
    assert after.Keys == players.Keys;
    after
  }

  /** The effects of a successful attack on the flagged tile `at`: the tile
      is cleared, the effect roll grants its credits and dice, clears random
      tiles, and may hit a random opponent, which earns the attacker 500
      more points. Nobody else is touched. */
  function AttackEffect(r: Room, id: string, at: Hex, d: Draws): (r': Room)
    requires RoomOk(r) && id in r.players && BoardOf(r).Some?
    ensures RoomOk(r')
    ensures r'.players.Keys == r.players.Keys && r'.playerOrder == r.playerOrder && SameRoom(r, r')
    ensures EffectOnPlayers(r.players, r'.players, id, EffectOf(d.effectRoll), EffectTarget(r, id, d))
  {
    var e := EffectOf(d.effectRoll);
    var players := ApplyEffect(r.players, id, e, EffectTarget(r, id, d));
    var r1 := r.(players := players);
    assert RoomOk(r1);
    SetBoard(r1, BoardKey, AttackClear(BoardOf(r).value, at, e.tiles, d.tilePicks).0)
  }

  /** The board after an attack's effect is the cleared board, which stays
      valid; on a valid board exactly as many other tiles are chosen as the
      effect asks for, or all of them when the board is smaller. */
  lemma AttackEffectBoard(r: Room, id: string, at: Hex, d: Draws)
    requires RoomOk(r) && id in r.players && BoardOf(r).Some?
    ensures var r' := AttackEffect(r, id, at, d);
      && BoardOf(r') == Some(AttackClear(BoardOf(r).value, at, EffectOf(d.effectRoll).tiles, d.tilePicks).0)
      && r'.things.Keys == r.things.Keys
      && (GridsValid(r) ==> GridsValid(r'))
    ensures var (g', chosen) := AttackClear(BoardOf(r).value, at, EffectOf(d.effectRoll).tiles, d.tilePicks);
      Valid(BoardOf(r).value) ==> |chosen| == Min(EffectOf(d.effectRoll).tiles, |g'.tiles|)
  {
    AttackClearValid(BoardOf(r).value, at, EffectOf(d.effectRoll).tiles, d.tilePicks);
  }

  /** The attacker before the effect: 100 points more and no longer idle. */
  function Engage(r: Room, id: string): (r': Room)
    requires RoomOk(r) && id in r.players
    ensures RoomOk(r') && r'.players.Keys == r.players.Keys
    ensures r'.players[id].score == r.players[id].score + 100 && !r'.players[id].data.markedForRemoval
    ensures r'.players[id].data.(markedForRemoval := r.players[id].data.markedForRemoval) == r.players[id].data
    ensures forall k :: k in r.players && k != id ==> r'.players[k] == r.players[k]
    ensures r'.(players := r.players) == r
  {
    var p := r.players[id];
    SetPlayer(r, p.(score := p.score + 100, data := p.data.(markedForRemoval := false)))
  }

  /** The `attack` branch: the attacker is no longer idle and scores 100;
      when the board's tile `at` is flagged, the attack takes effect,
      otherwise nothing else changes. */
  function Attack(r: Room, id: string, at: Hex, d: Draws): (r': Room)
    requires RoomOk(r) && id in r.players
    ensures RoomOk(r')
    ensures r'.players.Keys == r.players.Keys && r'.playerOrder == r.playerOrder && SameRoom(r, r')
    ensures r'.players[id].score >= r.players[id].score + 100
    ensures !r'.players[id].data.markedForRemoval
    ensures BoardOf(r).None? || !Flagged(BoardOf(r).value, at) ==> r' == Engage(r, id)
    ensures BoardOf(r).Some? && Flagged(BoardOf(r).value, at) ==> r' == AttackEffect(Engage(r, id), id, at, d)
  {
    var r1 := Engage(r, id);
    if BoardOf(r1).Some? && Flagged(BoardOf(r1).value, at) then AttackEffect(r1, id, at, d)
    else r1
  }

  /** An attack on a flagged tile leaves that tile empty and unflagged. */
  lemma AttackClearsTile(r: Room, id: string, at: Hex, d: Draws)
    requires RoomOk(r) && id in r.players
    requires BoardOf(r).Some? && Flagged(BoardOf(r).value, at)
    ensures BoardOf(Attack(r, id, at, d)).Some?
    ensures TileAt(BoardOf(Attack(r, id, at, d)).value, at) == EmptyTile
  {
    AttackEffectBoard(Engage(r, id), id, at, d);
  }

  /** The board an `addLayerToTile` input names: `things[input.thingId]`, an
      absent id reading the key `"undefined"`, when it is a thing of type
      `HexTileGrid` holding a board. */
  function TargetBoard(r: Room, thingId: Option<string>): (res: Option<(string, Grid)>)
    ensures res.Some? ==> var (key, g) := res.value;
      && key == thingId.GetOr("undefined")
      && key in r.things && r.things[key].ThingEntity?
      && r.things[key].thing.kind == BoardKind && r.things[key].thing.data == GridData(g)
    ensures res.None? ==> var key := thingId.GetOr("undefined");
      !(key in r.things && r.things[key].ThingEntity? && r.things[key].thing.kind == BoardKind
        && r.things[key].thing.data.GridData?)
  {
    var key := thingId.GetOr("undefined");
    if key in r.things && r.things[key].ThingEntity?
       && r.things[key].thing.kind == BoardKind && r.things[key].thing.data.GridData?
    then Some((key, r.things[key].thing.data.grid))
    else None
  }

  /** A layer is put on the unflagged tile `at` of the board `key`: the
      current player's layer goes on top and one credit is spent, never going
      below 0. */
  function PlaceLayer(r: Room, id: string, key: string, g: Grid, at: Hex): (r': Room)
    requires RoomOk(r) && id in r.players
    requires key in r.things && r.things[key].ThingEntity? && r.things[key].thing.data == GridData(g)
    requires !Flagged(g, at)
    ensures RoomOk(r') && (AllStatsOk(r) ==> AllStatsOk(r'))
    ensures r'.players.Keys == r.players.Keys && r'.playerOrder == r.playerOrder && SameRoom(r, r')
    ensures key in r'.things && r'.things[key].ThingEntity?
    ensures r'.things[key].thing.data == GridData(PushLayer(g, at, Layer(id, r.players[id].data.color, at)).0)
    ensures var c := r.players[id].data.credits - 1;
      r'.players == r.players[id := r.players[id].(data := r.players[id].data.(credits := if c < 0 then 0 else c))]
  {
    var p := r.players[id];
    var (g', _) := PushLayer(g, at, Layer(id, p.data.color, at));
    var r1 := SetBoard(r, key, g');
    var c := p.data.credits - 1;
    SetData(r1, id, p.data.(credits := if c < 0 then 0 else c))
  }

  /** On a valid board the placed layer is on top of a stack of at most six,
      and the tile is flagged exactly when it holds six layers of the
      player's own. */
  lemma PlaceLayerTile(r: Room, id: string, key: string, g: Grid, at: Hex)
    requires RoomOk(r) && id in r.players && Valid(g)
    requires key in r.things && r.things[key].ThingEntity? && r.things[key].thing.data == GridData(g)
    requires !Flagged(g, at)
    ensures var g' := PlaceLayer(r, id, key, g, at).things[key].thing.data.grid;
      var after := TileAt(g', at).layers;
      && 1 <= |after| <= MaxLayers
      && after[|after| - 1] == Layer(id, r.players[id].data.color, at)
      && (TileAt(g', at).attack <==> |after| == MaxLayers && OwnedBy(after, id))
  {
    PushLayerValid(g, at, Layer(id, r.players[id].data.color, at));
  }

  /** Reading the board's radius for the player positions throws when no
      entry is stored under `Thing_HexTileGrid` or its `data` is undefined or
      null. */
  predicate RadiusReadable(r: Room) {
    && BoardKey in r.things
    && (r.things[BoardKey].ThingEntity? && r.things[BoardKey].thing.data.Plain? ==>
          var v := r.things[BoardKey].thing.data.value;
          !v.Undefined? && !v.Null?)
  }

  /** `player.input = {}` for every player. */
  function ClearInputs(r: Room): (r': Room)
    requires RoomOk(r)
    ensures RoomOk(r') && (AllStatsOk(r) ==> AllStatsOk(r'))
    ensures r'.players.Keys == r.players.Keys
    ensures forall k :: k in r.players ==> r'.players[k] == r.players[k].(input := Some(NoInput))
    ensures r'.(players := r.players) == r
  {
    var cleared := map k | k in r.players :: r.players[k].(input := Some(NoInput));
    assert cleared.Keys == r.players.Keys;
    r.(players := cleared)
  }

  /** The end of a normal update: every player's position is sent (the ids,
      in key order) and every input is replaced by `{}`. */
  function Finish(r: Room): (o: Outcome)
    requires RoomOk(r)
    ensures o.Threw? <==> !RadiusReadable(r)
    ensures o.Threw? ==> o.room == r
    ensures o.Done? ==> o.out == r.playerOrder && o.room == ClearInputs(r)
  {
    if RadiusReadable(r) then Done(ClearInputs(r), r.playerOrder) else Threw(r)
  }

  /** The `addLayerToTile` branch: the player is no longer idle; without
      credits, or on a flagged tile, nothing else happens and the update ends
      early; a named thing that is not a board changes nothing more. */
  function AddLayer(r: Room, id: string, input: Input): (o: Outcome)
    requires RoomOk(r) && id in r.players
    ensures var r1 := SetData(r, id, r.players[id].data.(markedForRemoval := false));
      var target := TargetBoard(r, input.thingId);
      && (r.players[id].data.credits <= 0 ==> o == Done(r1, []))
      && (r.players[id].data.credits > 0 && target.None? ==> o == Finish(r1))
      && (r.players[id].data.credits > 0 && target.Some? && Flagged(target.value.1, input.at) ==> o == Done(r1, []))
      && (r.players[id].data.credits > 0 && target.Some? && !Flagged(target.value.1, input.at) ==>
            o == Finish(PlaceLayer(r1, id, target.value.0, target.value.1, input.at)))
  {
    var p := r.players[id];
    var r1 := SetData(r, id, p.data.(markedForRemoval := false));
    assert TargetBoard(r1, input.thingId) == TargetBoard(r, input.thingId);
    if p.data.credits <= 0 then Done(r1, [])
    else match TargetBoard(r1, input.thingId)
      case None => Finish(r1)
      case Some((key, g)) =>
        if Flagged(g, input.at) then Done(r1, [])
        else Finish(PlaceLayer(r1, id, key, g, input.at))
  }

  /** The action branches, in the order the code tests them: ending the
      turn wins over everything, a roll without dice falls through to the
      next branch, and an input asking for nothing changes nothing before
      the positions are sent. */
  function Act(r: Room, input: Input, d: Draws): (o: Outcome)
    requires RoomOk(r) && r.currentPlayerIndex < PlayerCount(r)
    ensures input.endTurn ==> o == Finish(EndTurn(r))
    ensures var id := PlayerAt(r, r.currentPlayerIndex);
      !input.endTurn && input.rollDice && r.players[id].data.dice > 0 ==>
      o == Finish(Roll(r, id, input.thingId, d.diceRoll))
    ensures var id := PlayerAt(r, r.currentPlayerIndex);
      !input.endTurn && (!input.rollDice || r.players[id].data.dice <= 0) && input.attack.Some? ==>
      o == Finish(Attack(r, id, input.attack.value, d))
    ensures var id := PlayerAt(r, r.currentPlayerIndex);
      !input.endTurn && (!input.rollDice || r.players[id].data.dice <= 0) && input.attack.None? && !input.addLayer ==>
      o == Finish(r)
    ensures var id := PlayerAt(r, r.currentPlayerIndex);
      !input.endTurn && (!input.rollDice || r.players[id].data.dice <= 0) && input.attack.None? && input.addLayer ==>
      o == AddLayer(r, id, input)
  {
    var id := PlayerAt(r, r.currentPlayerIndex);
    var p := r.players[id];
    if input.endTurn then Finish(EndTurn(r))
    else if input.rollDice && p.data.dice > 0 then Finish(Roll(r, id, input.thingId, d.diceRoll))
    else if input.attack.Some? then Finish(Attack(r, id, input.attack.value, d))
    else if input.addLayer then AddLayer(r, id, input)
    else Finish(r)
  }

  // ---------------------------------------------------------------------------
  // AI players

  /** The tiles of `g` whose flag is raised, in key order. */
  function AttackKeys(g: Grid): (hs: seq<Hex>)
    ensures forall h :: h in hs <==> h in g.order && Flagged(g, h)
  {
    Filter(h => Flagged(g, h), g.order)
  }

  /** The tiles of `g` holding fewer than six layers, in key order. */
  function OpenTiles(g: Grid): (hs: seq<Hex>)
    ensures forall h :: h in hs <==> h in g.order && |TileAt(g, h).layers| < MaxLayers
  {
    Filter(h => |TileAt(g, h).layers| < MaxLayers, g.order)
  }

  /** `id` owns a layer of the stack at `h`. */
  predicate Holds(g: Grid, h: Hex, id: string) {
    exists i :: 0 <= i < |TileAt(g, h).layers| && TileAt(g, h).layers[i].owner == id
  }

  /** The index of the first tile of `hs` on which `id` owns a layer, or
      `|hs|` when there is none. */
  function FirstHeld(g: Grid, hs: seq<Hex>, id: string): (i: nat)
    ensures i <= |hs|
    ensures i < |hs| ==> Holds(g, hs[i], id)
    ensures forall j :: 0 <= j < i ==> !Holds(g, hs[j], id)
    decreases |hs|
  {
    if |hs| == 0 then 0
    else if Holds(g, hs[0], id) then 0
    else 1 + FirstHeld(g, hs[1..], id)
  }

  /** The move of an AI player whose turn it is, written into its input: end
      the turn when there is nothing to do; roll while it holds dice; spend
      credits on an open tile, preferring the first on which it already owns
      a layer and otherwise a random one; attack a random flagged tile; and
      end the turn otherwise. `None` when it wants to roll and the room has
      no `Thing_GameDice`, whose `id` it then reads from `undefined`. */
  function AiDecide(g: Grid, id: string, data: PlayerData, input: Input, diceId: Option<string>,
                    boardId: string, pick: nat): (res: Option<Input>)
    ensures res.None? <==> data.dice > 0 && diceId.None?
    ensures data.dice > 0 && diceId.Some? ==> res == Some(input.(rollDice := true, thingId := diceId))
    ensures |AttackKeys(g)| == 0 && data.dice <= 0 && data.credits <= 0 ==> res == Some(input.(endTurn := true))
    ensures res.Some? && res.value.attack != input.attack ==>
      && data.dice <= 0 && data.credits <= 0
      && res.value.attack.Some? && Flagged(g, res.value.attack.value) && res.value.attack.value in g.order
    ensures res.Some? && res.value.addLayer && !input.addLayer ==>
      && data.dice <= 0 && data.credits > 0
      && res.value.at in OpenTiles(g) && res.value.thingId == Some(boardId)
      && (Holds(g, res.value.at, id) || forall h :: h in OpenTiles(g) ==> !Holds(g, h, id))
  {
    var attacks := AttackKeys(g);
    if |attacks| == 0 && data.dice == 0 && data.credits == 0 then Some(input.(endTurn := true))
    else if data.dice > 0 then
      if diceId.Some? then Some(input.(rollDice := true, thingId := diceId)) else None
    else if data.credits > 0 then
      var targets := OpenTiles(g);
      if |targets| == 0 then Some(input)
      else
        var i := FirstHeld(g, targets, id);
        var at := if i < |targets| then targets[i] else targets[pick % |targets|];
        Some(input.(addLayer := true, at := at, thingId := Some(boardId)))
    else if |attacks| > 0 then Some(input.(attack := Some(attacks[pick % |attacks|])))
    else Some(input.(endTurn := true))
  }

  /** An AI player never wastes its move on the board: a tile it puts a layer
      on is unflagged, so the layer is placed. */
  lemma AiMovesTakeEffect(g: Grid, id: string, data: PlayerData, input: Input, diceId: Option<string>,
                          boardId: string, pick: nat)
    requires Valid(g)
    ensures var res := AiDecide(g, id, data, input, diceId, boardId, pick);
      res.Some? && res.value.addLayer && !input.addLayer ==> !Flagged(g, res.value.at)
  {
    var res := AiDecide(g, id, data, input, diceId, boardId, pick);
    if res.Some? && res.value.addLayer && !input.addLayer {
      var h := res.value.at;
      if h in g.tiles {
        assert TileOk(g.tiles[h]);
      }
    }
  }

  /** The id the AI reads from `things.Thing_GameDice.id`, if that entry exists. */
  function DiceId(r: Room): Option<string> {
    if DiceKey in r.things then Some(IdOf(r, DiceKey)) else None
  }

  /** The AI step of the current player, then the action branches. An AI
      player waits 30 ticks before each move, staying unmarked; reading the
      board's attack flags throws when the room has no board. */
  function Think(r: Room, input: Input, d: Draws): (o: Outcome)
    requires RoomOk(r) && r.currentPlayerIndex < PlayerCount(r)
    ensures var p := r.players[PlayerAt(r, r.currentPlayerIndex)];
      p.data.isAi != Some(true) ==> o == Act(r, input, d)
    ensures var id := PlayerAt(r, r.currentPlayerIndex);
      var p := r.players[id];
      p.data.isAi == Some(true) && p.data.thinkTimer + 1 < ThinkTicks ==>
      && o.Done? && o.out == []
      && o.room.players == r.players[id := p.(data := p.data.(markedForRemoval := false, thinkTimer := p.data.thinkTimer + 1))]
    ensures var p := r.players[PlayerAt(r, r.currentPlayerIndex)];
      p.data.isAi == Some(true) && p.data.thinkTimer + 1 >= ThinkTicks && BoardOf(r).None? ==> o.Threw?
    ensures var id := PlayerAt(r, r.currentPlayerIndex);
      var p := r.players[id];
      var r1 := SetData(r, id, p.data.(markedForRemoval := false, thinkTimer := 0));
      p.data.isAi == Some(true) && p.data.thinkTimer + 1 >= ThinkTicks && BoardOf(r).Some? ==>
      match AiDecide(BoardOf(r).value, id, p.data, input, DiceId(r1), IdOf(r1, BoardKey), d.aiPick)
      case None => o == Threw(StoreInput(r1, id, input.(rollDice := true)))
      case Some(input') => o == Act(StoreInput(r1, id, input'), input', d)
  {
    var id := PlayerAt(r, r.currentPlayerIndex);
    var p := r.players[id];
    if p.data.isAi != Some(true) then Act(r, input, d)
    else
      var thought := p.data.thinkTimer + 1;
      if thought < ThinkTicks then
        Done(SetData(r, id, p.data.(markedForRemoval := false, thinkTimer := thought)), [])
      else
        var r1 := SetData(r, id, p.data.(markedForRemoval := false, thinkTimer := 0));
        assert BoardOf(r1) == BoardOf(r);
        match BoardOf(r1)
        case None => Threw(r1)
        case Some(g) =>
          match AiDecide(g, id, p.data, input, DiceId(r1), IdOf(r1, BoardKey), d.aiPick)
          case None => Threw(StoreInput(r1, id, input.(rollDice := true)))
          case Some(input') => Act(StoreInput(r1, id, input'), input', d)
  }

  /** The timer advances by one tick. */
  function Tick(r: Room): (r': Room)
    ensures r'.timer == r.timer + 1
    ensures r'.(timer := r.timer) == r
  {
    r.(timer := r.timer + 1)
  }

  /** An idle current player who is not yet marked: the timer restarts, the
      player is marked for removal and its input (when it holds one) is told
      to end the turn. */
  function MarkIdle(r: Room, id: string, input: Input): (r': Room)
    requires RoomOk(r) && id in r.players
    ensures RoomOk(r') && r'.timer == 0
    ensures r'.players.Keys == r.players.Keys && id in r'.players
    ensures r'.players[id].data == r.players[id].data.(markedForRemoval := true)
    ensures r'.players[id].input == if r.players[id].input.Some? then Some(input.(endTurn := true)) else None
    ensures forall k :: k in r.players && k != id ==> r'.players[k] == r.players[k]
    ensures r'.(players := r.players, timer := r.timer) == r
  {
    var r1 := SetData(r.(timer := 0), id, r.players[id].data.(markedForRemoval := true));
    StoreInput(r1, id, input.(endTurn := true))
  }

  /** One tick of a started game: the timer advances; after more than 1000
      ticks it restarts and the current player is removed if already marked,
      and otherwise marked and made to end the turn. Then the AI step and the
      action branches run. A current index past the last player throws,
      because the stand-in player the code builds has no `data`. */
  function Turn(r: Room, d: Draws): (o: Outcome)
    requires RoomOk(r)
    ensures r.currentPlayerIndex >= PlayerCount(r) ==>
      o == Threw(r.(timer := if r.timer + 1 > IdleLimit then 0 else r.timer + 1))
    ensures r.currentPlayerIndex < PlayerCount(r) && r.timer + 1 <= IdleLimit ==>
      var p := r.players[PlayerAt(r, r.currentPlayerIndex)];
      o == Think(Tick(r), p.input.GetOr(NoInput), d)
    ensures r.currentPlayerIndex < PlayerCount(r) && r.timer + 1 > IdleLimit ==>
      var id := PlayerAt(r, r.currentPlayerIndex);
      var input := r.players[id].input.GetOr(NoInput);
      && (r.players[id].data.markedForRemoval ==> o == Done(DeletePlayer(r.(timer := 0), id), []))
      && (!r.players[id].data.markedForRemoval ==> o == Think(MarkIdle(r, id, input), input.(endTurn := true), d))
  {
    var timer := r.timer + 1;
    if r.currentPlayerIndex >= PlayerCount(r) then
      Threw(r.(timer := if timer > IdleLimit then 0 else timer))
    else
      var id := PlayerAt(r, r.currentPlayerIndex);
      var p := r.players[id];
      var input := p.input.GetOr(NoInput);
      if timer <= IdleLimit then Think(Tick(r), input, d)
      else if p.data.markedForRemoval then Done(DeletePlayer(r.(timer := 0), id), [])
      else Think(MarkIdle(r, id, input), input.(endTurn := true), d)
  }

  /** `update(io, room, outState)`. The lobby and a finished game are left
      alone; otherwise the player count is cached, the game starts when two
      players are present, and a started game takes one turn tick. */
  function Update(r: Room, d: Draws): (o: Outcome)
    requires RoomOk(r)
    ensures r.roomId == "lobby" || r.gameOver ==> o == Done(r, [])
    ensures r.roomId != "lobby" && !r.gameOver && !r.started && PlayerCount(r) < 2 ==>
      o == Done(r.(cachedPlayerCount := Some(PlayerCount(r))), [])
    ensures r.roomId != "lobby" && !r.gameOver && !r.started && PlayerCount(r) >= 2 ==>
      o == Turn(Start(r.(cachedPlayerCount := Some(PlayerCount(r)))), d)
    ensures r.roomId != "lobby" && !r.gameOver && r.started ==>
      o == Turn(r.(cachedPlayerCount := Some(PlayerCount(r))), d)
  {
    if r.roomId == "lobby" || r.gameOver then Done(r, [])
    else
      var r1 := r.(cachedPlayerCount := Some(PlayerCount(r)));
      var r2 := if PlayerCount(r) >= 2 && !r.started then Start(r1) else r1;
      if r2.started then Turn(r2, d) else Done(r2, [])
  }

  // ---------------------------------------------------------------------------
  // What a tick keeps

  /** The room invariant together with valid boards and non-negative stats. */
  ghost predicate Inv(r: Room) {
    RoomOk(r) && GridsValid(r) && AllStatsOk(r)
  }

  /** `r'` keeps the invariant, the players, their order and the room's
      identity. */
  ghost predicate Kept(r: Room, r': Room) {
    Inv(r') && r'.players.Keys == r.players.Keys && r'.playerOrder == r.playerOrder && SameRoom(r, r')
  }

  lemma FinishKept(r: Room)
    requires Inv(r)
    ensures Kept(r, Finish(r).room)
  {
  }

  /** An attack's effect keeps every stat non-negative: the attacker only
      gains and a hit opponent's health stops at zero. */
  lemma AttackEffectKept(r: Room, id: string, at: Hex, d: Draws)
    requires Inv(r) && id in r.players && BoardOf(r).Some?
    ensures Kept(r, AttackEffect(r, id, at, d))
  {
    var r' := AttackEffect(r, id, at, d);
    AttackEffectBoard(r, id, at, d);
    var target := EffectTarget(r, id, d);
    assert EffectOnPlayers(r.players, r'.players, id, EffectOf(d.effectRoll), target);
    forall k | k in r'.players
      ensures StatsOk(r'.players[k].data)
    {
      assert StatsOk(r.players[k].data);
    }
  }

  /** An attack keeps the boards valid and every stat non-negative. */
  lemma AttackKept(r: Room, id: string, at: Hex, d: Draws)
    requires Inv(r) && id in r.players
    ensures Kept(r, Attack(r, id, at, d))
  {
    var r1 := Engage(r, id);
    assert Kept(r, r1);
    if BoardOf(r).Some? && Flagged(BoardOf(r).value, at) {
      AttackEffectKept(r1, id, at, d);
    }
  }

  /** Putting a layer on a valid board keeps it valid. */
  lemma PlaceLayerKept(r: Room, id: string, key: string, g: Grid, at: Hex)
    requires Inv(r) && id in r.players
    requires key in r.things && r.things[key].ThingEntity? && r.things[key].thing.data == GridData(g)
    requires !Flagged(g, at)
    ensures Kept(r, PlaceLayer(r, id, key, g, at))
  {
    var p := r.players[id];
    var (g', _) := PushLayer(g, at, Layer(id, p.data.color, at));
    PushLayerValid(g, at, Layer(id, p.data.color, at));
    var r1 := SetBoard(r, key, g');
    assert GridsValid(r1);
  }

  lemma AddLayerKept(r: Room, id: string, input: Input)
    requires Inv(r) && id in r.players
    ensures Kept(r, AddLayer(r, id, input).room)
  {
    var p := r.players[id];
    var r1 := SetData(r, id, p.data.(markedForRemoval := false));
    assert Kept(r, r1);
    if p.data.credits > 0 {
      match TargetBoard(r1, input.thingId)
      case None =>
        FinishKept(r1);
      case Some((key, g)) =>
        if !Flagged(g, input.at) {
          PlaceLayerKept(r1, id, key, g, input.at);
          FinishKept(PlaceLayer(r1, id, key, g, input.at));
        }
    }
  }

  /** Every action branch keeps the players, their order, valid boards and
      non-negative stats, whether it ends normally or throws. */
  lemma ActKept(r: Room, input: Input, d: Draws)
    requires Inv(r) && r.currentPlayerIndex < PlayerCount(r)
    ensures Kept(r, Act(r, input, d).room)
  {
    var id := PlayerAt(r, r.currentPlayerIndex);
    var p := r.players[id];
    if input.endTurn {
      EndTurnPlayers(r);
      FinishKept(EndTurn(r));
    } else if input.rollDice && p.data.dice > 0 {
      FinishKept(Roll(r, id, input.thingId, d.diceRoll));
    } else if input.attack.Some? {
      AttackKept(r, id, input.attack.value, d);
      FinishKept(Attack(r, id, input.attack.value, d));
    } else if input.addLayer {
      AddLayerKept(r, id, input);
    } else {
      FinishKept(r);
    }
  }

  lemma ThinkKept(r: Room, input: Input, d: Draws)
    requires Inv(r) && r.currentPlayerIndex < PlayerCount(r)
    ensures Kept(r, Think(r, input, d).room)
  {
    var id := PlayerAt(r, r.currentPlayerIndex);
    var p := r.players[id];
    if p.data.isAi != Some(true) {
      ActKept(r, input, d);
    } else if p.data.thinkTimer + 1 >= ThinkTicks {
      var r1 := SetData(r, id, p.data.(markedForRemoval := false, thinkTimer := 0));
      assert Kept(r, r1);
      match BoardOf(r1)
      case None =>
      case Some(g) =>
        match AiDecide(g, id, p.data, input, DiceId(r1), IdOf(r1, BoardKey), d.aiPick)
        case None =>
        case Some(input') =>
          ActKept(StoreInput(r1, id, input'), input', d);
    }
  }

  /** `r'` keeps the invariant and the room's identity, and no player was
      added. */
  ghost predicate Shrunk(r: Room, r': Room) {
    Inv(r') && r'.players.Keys <= r.players.Keys && SameRoom(r, r')
  }

  /** Removing an idle player keeps the invariant. */
  lemma RemovalKept(r: Room, id: string)
    requires Inv(r)
    ensures Shrunk(r, DeletePlayer(r.(timer := 0), id))
  {
    var r' := DeletePlayer(r.(timer := 0), id);
    assert GridsValid(r');
  }

  /** Marking an idle player and forcing the end of its turn keeps the
      invariant. */
  lemma IdleTurnKept(r: Room, id: string, input: Input, d: Draws)
    requires Inv(r) && r.currentPlayerIndex < PlayerCount(r) && id in r.players
    ensures Kept(r, Think(MarkIdle(r, id, input), input.(endTurn := true), d).room)
  {
    var r1 := MarkIdle(r, id, input);
    assert Kept(r, r1);
    ThinkKept(r1, input.(endTurn := true), d);
  }

  /** A tick of a started game keeps the invariant and the room's identity;
      players only leave. */
  lemma TurnKept(r: Room, d: Draws)
    requires Inv(r)
    ensures Shrunk(r, Turn(r, d).room)
  {
    var o := Turn(r, d);
    if r.currentPlayerIndex < PlayerCount(r) {
      var id := PlayerAt(r, r.currentPlayerIndex);
      var p := r.players[id];
      var input := p.input.GetOr(NoInput);
      if r.timer + 1 <= IdleLimit {
        var r1 := Tick(r);
        assert Kept(r, r1);
        ThinkKept(r1, input, d);
      } else if p.data.markedForRemoval {
        RemovalKept(r, id);
      } else {
        IdleTurnKept(r, id, input, d);
      }
    } else {
      assert o.room.players == r.players && o.room.things == r.things && o.room.playerOrder == r.playerOrder;
    }
  }

  /** `update` keeps the invariant, never adds a player, never changes the
      room's id, name or `gameOver`, and never un-starts a game. */
  lemma UpdateKept(r: Room, d: Draws)
    requires Inv(r)
    ensures var r' := Update(r, d).room;
      && Inv(r') && r'.players.Keys <= r.players.Keys
      && r'.roomId == r.roomId && r'.roomName == r.roomName && r'.gameOver == r.gameOver
      && (r.started ==> r'.started)
  {
    if r.roomId != "lobby" && !r.gameOver {
      var r1 := r.(cachedPlayerCount := Some(PlayerCount(r)));
      var r2 := if PlayerCount(r) >= 2 && !r.started then Start(r1) else r1;
      if r2.started {
        TurnKept(r2, d);
      }
    }
  }

  // ---------------------------------------------------------------------------
  // A current index past the last player

  /** Removing an idle current player who is last in key order leaves the
      index one past the new last player. */
  lemma RemovingLastLeavesIndexPastEnd(r: Room, d: Draws)
    requires RoomOk(r) && r.currentPlayerIndex + 1 == PlayerCount(r)
    requires r.timer + 1 > IdleLimit
    requires r.players[PlayerAt(r, r.currentPlayerIndex)].data.markedForRemoval
    ensures Turn(r, d).Done?
    ensures Turn(r, d).room.currentPlayerIndex == PlayerCount(Turn(r, d).room)
  {
    PlayerCountIsSize(r);
    PlayerCountIsSize(Turn(r, d).room);
  }

  /** With the index past the last player every tick throws and leaves the
      index where it is, so the game never moves again. */
  lemma TurnPastEndStuck(r: Room, d: Draws)
    requires RoomOk(r) && r.currentPlayerIndex >= PlayerCount(r)
    ensures Turn(r, d).Threw?
    ensures Turn(r, d).room.currentPlayerIndex == r.currentPlayerIndex
    ensures Turn(r, d).room.players == r.players
  {
  }
}

=== FILE: entities.dfy ===
/** The entities a room holds: players and other things, and the two
    constructors that build them with their default fields. A player is
    stored in a room under its id twice, in `players` and in `things`, as one
    shared object. */
module Entities {
  import opened Prelude
  import opened Js
  import opened Transforms
  import opened HexGrid

  /** The fields of a client's `input` object the dice game reads. An absent
      or falsy flag is `false`; `addLayer` stands for
      `type === "addLayerToTile"`, whose target tile is `at`. */
  datatype Input = Input(
    endTurn: bool,
    rollDice: bool,
    thingId: Option<string>,
    attack: Option<Hex>,
    addLayer: bool,
    at: Hex)

  /** The empty object `{}`. */
  const NoInput := Input(false, false, None, None, false, Hex(0, 0))

  /** The `data` record of a player. `isAi` is `None` when the field is
      absent; an absent `markedForRemoval` reads as `false`, an absent
      `thinkTimer` as 0 and an absent `diceRef` as `None`. */
  datatype PlayerData = PlayerData(
    isAi: Option<bool>,
    health: int,
    credits: int,
    dice: int,
    color: Color,
    markedForRemoval: bool,
    thinkTimer: int,
    diceRef: Option<string>)

  /** A player; `input` is `None` until the client first sends one or the game
      resets it. */
  datatype Player = Player(
    id: string,
    name: string,
    score: int,
    speed: real,
    kind: string,
    tags: seq<string>,
    transform: Transform,
    data: PlayerData,
    input: Option<Input>)

  /** The `data` of a non-player thing: the level file's value, or the hex
      board the dice game sets up for things of type `HexTileGrid`. */
  datatype ThingData = Plain(value: Value) | GridData(grid: Grid)

  datatype Thing = Thing(
    id: string,
    name: string,
    speed: real,
    kind: string,
    tags: seq<string>,
    transform: Transform,
    data: ThingData)

  /** An entry of a room's `things` map. A player is stored in `things` as the
      very object held in `players` under the same id, so its entry is a
      reference to that map rather than a copy. */
  datatype Entity = PlayerRef | ThingEntity(thing: Thing)

  /** The `type` of every player. */
  const PlayerKind := "BasicCapsuleThing"

  /** The string `${id}`. An empty `name` stands for every falsy name. */
  function NameOr(name: string, default: string): (r: string)
    ensures name != "" ==> r == name
    ensures name == "" ==> r == default
  {
    if name != "" then name else default
  }

  /** `getThing(id, name, type)`: a thing at the identity placement with no
      tags, zero speed and an empty data object, named `Thing_<id>` unless a
      name is given. */
  function GetThing(id: string, name: string, kind: string): (t: Thing)
    ensures t.id == id && t.kind == kind
    ensures t.name == if name == "" then "Thing_" + id else name
    ensures t.speed == 0.0 && t.tags == []
    ensures t.transform == Identity
    ensures t.data == Plain(Obj(map[]))
  {
    Thing(id, NameOr(name, "Thing_" + id), 0.0, kind, [], Identity, Plain(Obj(map[])))
  }

  /** The colour `{ r, g, b, a: 1 }` whose components are
      `Math.floor(Math.random() * 100) / 100` for the random draws `red`,
      `green`, `blue`. */
  function DrawnColor(red: nat, green: nat, blue: nat): (c: Color)
    requires red < 100 && green < 100 && blue < 100
    ensures 0.0 <= c.r < 1.0 && 0.0 <= c.g < 1.0 && 0.0 <= c.b < 1.0 && c.a == 1.0
    ensures c.r * 100.0 == red as real && c.g * 100.0 == green as real && c.b * 100.0 == blue as real
  {
    Color(red as real / 100.0, green as real / 100.0, blue as real / 100.0, 1.0)
  }

  /** A player as both player constructors build it, with the given `isAi`
      field (absent for connecting clients). */
  function NewPlayer(id: string, name: string, isAi: Option<bool>, color: Color): (p: Player)
    ensures p.id == id && p.name == NameOr(name, id)
    ensures p.score == 0 && p.speed == 0.3 && p.kind == PlayerKind && p.tags == ["player"]
    ensures p.transform == Identity && p.input == None
    ensures p.data == PlayerData(isAi, 3, 0, 0, color, false, 0, None)
  {
    Player(id, NameOr(name, id), 0, 0.3, PlayerKind, ["player"], Identity,
           PlayerData(isAi, 3, 0, 0, color, false, 0, None), None)
  }

  /** `getPlayer(id, name, isAi = false)`: a fresh player with score 0,
      health 3, no credits and no dice, tagged `player`, named after its id
      unless a name is given, with `data.isAi` recorded. */
  function GetPlayer(id: string, name: string, isAi: bool, red: nat, green: nat, blue: nat): (p: Player)
    requires red < 100 && green < 100 && blue < 100
    ensures p.id == id
    ensures p.name == if name == "" then id else name
    ensures p.score == 0 && p.speed == 0.3 && p.kind == "BasicCapsuleThing" && p.tags == ["player"]
    ensures p.transform == Identity
    ensures p.data.health == 3 && p.data.credits == 0 && p.data.dice == 0
    ensures p.data.isAi == Some(isAi)
    ensures 0.0 <= p.data.color.r < 1.0 && 0.0 <= p.data.color.g < 1.0 && 0.0 <= p.data.color.b < 1.0
    ensures p.data.color.a == 1.0
  {
    NewPlayer(id, name, Some(isAi), DrawnColor(red, green, blue))
  }
}

=== FILE: event_manager.dfy ===
/** Timed events per game: a list of `{ type, data, timestamp, length }` for
    every game id, an endpoint that triggers an event, and a minute timer
    that keeps one "double-xp-weekend" event per game from Friday to Sunday
    (UTC), removes them on other days, and drops events whose length has
    passed. The clock is the parameter `now` (milliseconds since the epoch);
    the broadcasts are not modelled. */
module EventManager {
  import opened Prelude
  import opened Js

  /** `length` and `data` are whatever the request carried, after the
      `length || 0` and `data || {}` defaults. */
  datatype Event = Event(kind: string, data: Value, timestamp: int, length: Value)

  type Events = map<string, seq<Event>>

  const DoubleXp := "double-xp-weekend"

  /** 72 hours in milliseconds. */
  const WeekendLength := 72 * 60 * 60 * 1000

  const DayMs := 24 * 60 * 60 * 1000

  /** The constructor: an empty list for every game id. */
  function Init(gameIds: seq<string>): (m: Events)
    ensures m.Keys == set id | id in gameIds
    ensures forall id :: id in m ==> m[id] == []
  {
    map id | id in gameIds :: []
  }

  /** `makeEvent(io, gameId, type, length, data)`: the game's list, made
      empty first when missing, gets one event at its end. */
  function MakeEvent(m: Events, gameId: string, kind: string, length: Value, data: Value, now: int): (m': Events)
    ensures m'.Keys == m.Keys + {gameId} && m' - {gameId} == m - {gameId}
    ensures var before := GetEventsForGame(m, gameId);
      && |m'[gameId]| == |before| + 1 && m'[gameId][..|before|] == before
      && m'[gameId][|before|] == Event(kind, Or(data, Obj(map[])), now, Or(length, Num(0.0)))
  {
    var before := if gameId in m then m[gameId] else [];
    m[gameId := before + [Event(kind, Or(data, Obj(map[])), now, Or(length, Num(0.0)))]]
  }

  /** An event made without a usable length or data gets length 0 and an
      empty data object. */
  lemma MakeEventDefaults(m: Events, gameId: string, kind: string, length: Value, data: Value, now: int)
    requires !Truthy(length) && !Truthy(data)
    ensures var e := Last(MakeEvent(m, gameId, kind, length, data, now)[gameId]);
      e.length == Num(0.0) && e.data == Obj(map[])
  {
  }

  function Last(s: seq<Event>): Event
    requires |s| > 0
  {
    s[|s| - 1]
  }

  /** `getEventsForGame(gameId)`: the game's list, or an empty one for a
      game without a list, which is not made. */
  function GetEventsForGame(m: Events, gameId: string): (r: seq<Event>)
    ensures gameId !in m ==> r == []
    ensures gameId in m ==> r == m[gameId]
  {
    if gameId in m then m[gameId] else []
  }

  /** `triggerEvent` for `POST /api/eventManager/triggerEvent`: a game id or
      type that is not a string is refused and nothing changes. */
  function TriggerEvent(m: Events, body: map<string, Value>, now: int): (res: (Events, Reply))
    ensures var gameId := Get(body, "gameId"); var kind := Get(body, "type");
      if !IsString(gameId) || !IsString(kind) then
        res.0 == m && res.1.status == 400
      else
        && res.0 == MakeEvent(m, gameId.s, kind.s, Get(body, "length"), Get(body, "data"), now)
        && res.1 == Reply(200, map["success" := Bool(true)])
  {
    var gameId := Get(body, "gameId");
    var kind := Get(body, "type");
    if !IsString(gameId) || !IsString(kind) then
      (m, Reply(400, map["error" := Str("Invalid gameId or type")]))
    else
      (MakeEvent(m, gameId.s, kind.s, Get(body, "length"), Get(body, "data"), now), Reply(200, map["success" := Bool(true)]))
  }

  // ---------------------------------------------------------------------------
  // The calendar

  /** `new Date(now).getUTCDay()`: 0 is Sunday; the epoch fell on a
      Thursday. Dafny's division rounds down for a positive divisor, as the
      day count of a date before the epoch does. */
  function UtcDay(now: int): (d: nat)
    ensures d < 7
  {
    (now / DayMs + 4) % 7
  }

  /** `isWeekend()`: Friday, Saturday or Sunday in UTC. */
  predicate IsWeekend(now: int) {
    var day := UtcDay(now);
    day == 5 || day == 6 || day == 0
  }

  /** The calendar repeats every week: the epoch's Thursday is not a
      weekend day, the Friday after it is, and a week later the answer is
      the same. */
  lemma WeekendCalendar(now: int)
    ensures !IsWeekend(0) && IsWeekend(DayMs) && IsWeekend(3 * DayMs) && !IsWeekend(4 * DayMs)
    ensures IsWeekend(now + 7 * DayMs) == IsWeekend(now)
  {
    assert (now + 7 * DayMs) / DayMs == now / DayMs + 7;
  }

  // ---------------------------------------------------------------------------
  // The timer

  predicate IsDoubleXp(e: Event) {
    e.kind == DoubleXp
  }

  predicate NotDoubleXp(e: Event) {
    e.kind != DoubleXp
  }

  /** `events.some(event => event.type === "double-xp-weekend")`. */
  predicate HasDoubleXp(s: seq<Event>) {
    exists i :: 0 <= i < |s| && IsDoubleXp(s[i])
  }

  function WeekendEvent(now: int): (e: Event)
    ensures IsDoubleXp(e)
  {
    Event(DoubleXp, Obj(map["title" := Str("Double XP Weekend"), "xpBonus" := Num(2.0)]), now, Num(WeekendLength as real))
  }

  /** The weekend branch for one game: a weekend event is added unless one
      is there already. */
  function AddWeekend(s: seq<Event>, now: int): (r: seq<Event>)
    ensures HasDoubleXp(r)
    ensures HasDoubleXp(s) ==> r == s
    ensures !HasDoubleXp(s) ==> r == s + [WeekendEvent(now)]
  {
    if HasDoubleXp(s) then s
    else
      assert IsDoubleXp((s + [WeekendEvent(now)])[|s|]);
      s + [WeekendEvent(now)]
  }

  /** Repeated weekend ticks add one weekend event at most. */
  lemma AddWeekendOnce(s: seq<Event>, now: int, later: int)
    ensures AddWeekend(AddWeekend(s, now), later) == AddWeekend(s, now)
    ensures |Filter(IsDoubleXp, AddWeekend(s, now))| == |Filter(IsDoubleXp, s)| + (if HasDoubleXp(s) then 0 else 1)
  {
    if !HasDoubleXp(s) {
      FilterAppend(IsDoubleXp, s, [WeekendEvent(now)]);
      assert [WeekendEvent(now)][1..] == [];
    }
  }

  /** The weekday branch for one game: every weekend event goes, every other
      event stays, in order. */
  function RemoveWeekend(s: seq<Event>): (r: seq<Event>)
    ensures !HasDoubleXp(r)
    ensures forall e :: e in r <==> e in s && e.kind != DoubleXp
    ensures IsSubsequence(r, s)
  {
    FilterIsSubsequence(NotDoubleXp, s);
    var r := Filter(NotDoubleXp, s);
    assert forall i :: 0 <= i < |r| ==> r[i] in r && NotDoubleXp(r[i]);
    r
  }

  /** The expiry test: `event.length > 0 && now - event.timestamp >=
      event.length`, with the length coerced to a number; a length that is
      not a number (NaN) never compares true. */
  predicate Expired(e: Event, now: int) {
    match ToNumber(e.length)
    case None => false
    case Some(l) => l > 0.0 && (now - e.timestamp) as real >= l
  }

  predicate Unexpired(now: int, e: Event) {
    !Expired(e, now)
  }

  /** The expiry filter for one game. */
  function DropExpired(s: seq<Event>, now: int): (r: seq<Event>)
    ensures forall e :: e in r <==> e in s && !Expired(e, now)
    ensures IsSubsequence(r, s)
  {
    FilterIsSubsequence(e => Unexpired(now, e), s);
    Filter(e => Unexpired(now, e), s)
  }

  /** An event of length 0 never expires. */
  lemma ZeroLengthStays(e: Event, now: int)
    requires ToNumber(e.length) == Some(0.0)
    ensures !Expired(e, now)
  {
  }

  /** One run of the minute timer at time `now`. */
  function Tick(m: Events, now: int): (m': Events)
    ensures m'.Keys == m.Keys
    ensures forall id :: id in m ==> m'[id] == DropExpired(
      if IsWeekend(now) then AddWeekend(m[id], now) else RemoveWeekend(m[id]), now)
  {
    var m1 := map id | id in m :: if IsWeekend(now) then AddWeekend(m[id], now) else RemoveWeekend(m[id]);
    if |m1| == 0 then m1
    else map id | id in m1 :: DropExpired(m1[id], now)
  }

  /** On a weekday no game keeps a weekend event. */
  lemma WeekdayClears(m: Events, now: int, id: string)
    requires !IsWeekend(now) && id in m
    ensures !HasDoubleXp(Tick(m, now)[id])
  {
    var s := RemoveWeekend(m[id]);
    var r := DropExpired(s, now);
    assert Tick(m, now)[id] == r;
    forall i | 0 <= i < |r| ensures !IsDoubleXp(r[i]) {
      assert r[i] in s;
    }
  }

  /** On a weekend a game that had no weekend event has one after the tick:
      the new event has just started and cannot have expired. */
  lemma WeekendAdds(m: Events, now: int, id: string)
    requires IsWeekend(now) && id in m && !HasDoubleXp(m[id])
    ensures WeekendEvent(now) in Tick(m, now)[id] && HasDoubleXp(Tick(m, now)[id])
  {
    var s := AddWeekend(m[id], now);
    assert WeekendEvent(now) in s;
    var r := Tick(m, now)[id];
    assert WeekendEvent(now) in r;
    var i :| 0 <= i < |r| && r[i] == WeekendEvent(now);
  }

  /** An event made without a length survives every tick unless it is a
      weekend event on a weekday. */
  lemma LengthlessStays(m: Events, now: int, id: string, e: Event)
    requires id in m && e in m[id] && e.length == Num(0.0)
    requires IsWeekend(now) || e.kind != DoubleXp
    ensures e in Tick(m, now)[id]
  {
    var s := if IsWeekend(now) then AddWeekend(m[id], now) else RemoveWeekend(m[id]);
    assert e in s;
    ZeroLengthStays(e, now);
    assert e in DropExpired(s, now);
  }
}

=== FILE: game_manager.dfy ===
/** The registry of one game type (the `Game` class): its plugin and its rooms
    by id, created on first access and destroyed when their last player
    leaves, and the per-tick dispatch to the plugin with the room-level
    consequences of a finished game. Socket emits are an appended event log. */
module GameManager {
  import opened Prelude
  import opened Js
  import opened HexGrid
  import opened Entities
  import opened Rooms
  import opened Plugins
  import CreationGame

  const Lobby := "lobby"

  /** `VALID_ROOM_ID(roomId)`: the room ids a player may change to. */
  predicate ValidRoomId(roomId: string) {
    roomId == "sandbox" || roomId == Lobby || StartsWith(roomId, "room")
  }

  /** Exactly `sandbox`, `lobby` and the ids starting with `room` are
      accepted; matching is case-sensitive and a longer reserved name is
      not reserved. */
  lemma ValidRoomIds(suffix: string, other: string)
    ensures ValidRoomId("room" + suffix)
    ensures ValidRoomId("sandbox") && ValidRoomId("lobby")
    ensures !ValidRoomId("") && !ValidRoomId("Room1") && !ValidRoomId("lobby1") && !ValidRoomId("roo")
    ensures ValidRoomId(other) <==> other == "sandbox" || other == "lobby" || (|other| >= 4 && other[..4] == "room")
  {
    assert ("room" + suffix)[..4] == "room";
    assert "Room1"[..4] != "room" by { assert "Room1"[0] != "room"[0]; }
    assert "lobby1"[..4] != "room" by { assert "lobby1"[0] != "room"[0]; }
  }

  datatype Game = Game(gameId: string, plugin: Plugin, rooms: map<string, Room>, roomOrder: seq<string>)

  /** A room stored under `key`: it knows its id and its name
      `<gameId>:<key>`, and keeps the room invariant with valid boards and
      non-negative stats. */
  ghost predicate RoomStored(gameId: string, key: string, r: Room) {
    r.roomId == key && r.roomName == gameId + ":" + key && CreationGame.Inv(r)
  }

  /** The registry invariant: `roomOrder` is the key order of `rooms`. */
  ghost predicate GameOk(g: Game) {
    && PluginOk(g.plugin)
    && Enumerates(g.roomOrder, g.rooms.Keys)
    && forall k :: k in g.rooms ==> RoomStored(g.gameId, k, g.rooms[k])
  }

  /** Every player of the room is also in `things`, as the same object. */
  ghost predicate PlayersStored(r: Room) {
    forall id :: id in r.players ==> id in r.things && r.things[id] == PlayerRef
  }

  ghost predicate AllStored(g: Game) {
    forall k :: k in g.rooms ==> PlayersStored(g.rooms[k])
  }

  /** Stores room `r` under `key`, a new key going to the end of the key
      order. */
  function PutRoom(g: Game, key: string, r: Room): (g': Game)
    requires Enumerates(g.roomOrder, g.rooms.Keys)
    ensures Enumerates(g'.roomOrder, g'.rooms.Keys)
    ensures g'.rooms == g.rooms[key := r] && g'.gameId == g.gameId && g'.plugin == g.plugin
    ensures key in g.rooms ==> g'.roomOrder == g.roomOrder
    ensures key !in g.rooms ==> g'.roomOrder == g.roomOrder + [key]
    ensures g'.rooms - {key} == g.rooms - {key}
    ensures GameOk(g) && RoomStored(g.gameId, key, r) ==> GameOk(g')
    ensures AllStored(g) && PlayersStored(r) ==> AllStored(g')
  {
    EnumeratesIff(g.roomOrder, g.rooms.Keys);
    EnumeratesAddKey(g.roomOrder, g.rooms.Keys, key);
    assert g.rooms[key := r].Keys == g.rooms.Keys + {key};
    g.(rooms := g.rooms[key := r], roomOrder := AddKey(g.roomOrder, key))
  }

  /** `delete rooms[key]`. */
  function DropRoom(g: Game, key: string): (g': Game)
    requires Enumerates(g.roomOrder, g.rooms.Keys)
    ensures Enumerates(g'.roomOrder, g'.rooms.Keys)
    ensures g'.rooms == g.rooms - {key} && g'.gameId == g.gameId && g'.plugin == g.plugin
    ensures g'.rooms - {key} == g.rooms - {key}
    ensures GameOk(g) ==> GameOk(g')
    ensures AllStored(g) ==> AllStored(g')
    ensures forall k :: k != key ==> (Finished(g'.rooms, k) <==> Finished(g.rooms, k))
  {
    EnumeratesRemove(g.roomOrder, g.rooms.Keys, key);
    assert (g.rooms - {key}).Keys == g.rooms.Keys - {key};
    g.(rooms := g.rooms - {key}, roomOrder := Remove(g.roomOrder, key))
  }

  // ---------------------------------------------------------------------------
  // Rooms on demand

  /** `addGameState(roomId)`: an existing room is returned as it is; a
      missing one is made empty, named `<gameId>:<roomId>`, stored, and set
      up by the plugin's `create`. */
  function AddGameState(g: Game, roomId: string): (res: (Game, Room))
    requires GameOk(g)
    ensures GameOk(res.0) && res.0.gameId == g.gameId
    ensures roomId in res.0.rooms && res.0.rooms[roomId] == res.1
    ensures roomId in g.rooms ==> res == (g, g.rooms[roomId])
    ensures res.0.rooms - {roomId} == g.rooms - {roomId}
    ensures forall k :: Finished(res.0.rooms, k) <==> Finished(g.rooms, k)
    ensures roomId !in g.rooms ==>
      && res.0.rooms == g.rooms[roomId := res.1] && res.0.roomOrder == g.roomOrder + [roomId]
      && res.1.players == map[] && res.1.playerOrder == [] && !res.1.started && !res.1.gameOver
      && res.1.roomId == roomId && res.1.roomName == g.gameId + ":" + roomId
      && res.1.timer == 0 && res.1.currentPlayerIndex == 0
  {
    if roomId in g.rooms then (g, g.rooms[roomId])
    else
      var empty := NewRoom(g.gameId, roomId);
      NewRoomOk(g.gameId, roomId);
      CreateKept(g.plugin, empty);
      var (plugin', r) := Create(g.plugin, empty);
      var g' := PutRoom(g.(plugin := plugin'), roomId, r);
      assert RoomStored(g.gameId, roomId, r);
      FinishedPut(g.rooms, roomId, r);
      (g', r)
  }

  /** Asking twice for a room is asking once: the second call finds the
      room the first one made. */
  lemma AddGameStateIdempotent(g: Game, roomId: string)
    requires GameOk(g)
    ensures var (g1, r1) := AddGameState(g, roomId); AddGameState(g1, roomId) == (g1, r1)
  {
  }

  /** A room made on demand holds no player, so it keeps every player in
      `things`. */
  lemma AddGameStateStored(g: Game, roomId: string)
    requires GameOk(g) && AllStored(g)
    ensures AllStored(AddGameState(g, roomId).0)
  {
  }

  /** `addPlayer(roomId, player)`: the room is made if missing, and the
      player is stored under its id in `players` and in `things`. */
  function AddPlayer(g: Game, roomId: string, p: Player): (g': Game)
    requires GameOk(g) && CreationGame.StatsOk(p.data)
    ensures GameOk(g') && g'.gameId == g.gameId
    ensures var base := AddGameState(g, roomId).1;
      && roomId in g'.rooms
      && g'.rooms[roomId].players == base.players[p.id := p]
      && g'.rooms[roomId].things == base.things[p.id := PlayerRef]
    ensures g'.rooms - {roomId} == g.rooms - {roomId}
  {
    var (g1, base) := AddGameState(g, roomId);
    PutPlayerStored(g.gameId, roomId, base, p);
    PutRoom(g1, roomId, PutPlayer(base, p))
  }

  /** Storing a player with non-negative stats keeps a stored room stored,
      and keeps every player in `things`. */
  lemma PutPlayerStored(gameId: string, key: string, r: Room, p: Player)
    requires RoomStored(gameId, key, r) && CreationGame.StatsOk(p.data)
    ensures RoomStored(gameId, key, PutPlayer(r, p))
    ensures PlayersStored(r) ==> PlayersStored(PutPlayer(r, p))
  {
    var r' := PutPlayer(r, p);
    assert forall k :: k in r'.players && k != p.id ==> r'.players[k] == r.players[k];
  }

  /** Adding a player keeps every player of every room in `things`. */
  lemma AddPlayerStored(g: Game, roomId: string, p: Player)
    requires GameOk(g) && CreationGame.StatsOk(p.data) && AllStored(g)
    ensures AllStored(AddPlayer(g, roomId, p))
  {
    var (g1, base) := AddGameState(g, roomId);
    AddGameStateStored(g, roomId);
    PutPlayerStored(g.gameId, roomId, base, p);
  }

  /** `removePlayer(roomId, playerId)`: nothing for a missing room;
      otherwise the player leaves `players` and `things`, and the room is
      destroyed when no player is left, unless it is the lobby or the
      plugin is persistent. Other rooms are untouched. */
  function RemovePlayer(g: Game, roomId: string, id: string): (g': Game)
    requires GameOk(g)
    ensures GameOk(g') && g'.gameId == g.gameId && g'.plugin == g.plugin
    ensures roomId !in g.rooms ==> g' == g
    ensures roomId in g.rooms ==>
      var r := g.rooms[roomId];
      && (roomId !in g'.rooms <==> r.players.Keys <= {id} && roomId != Lobby && !Persistent(g.plugin))
      && (roomId in g'.rooms ==>
            g'.rooms[roomId].players == r.players - {id} && g'.rooms[roomId].things == r.things - {id})
    ensures g'.rooms - {roomId} == g.rooms - {roomId}
  {
    if roomId !in g.rooms then g
    else
      var r := DeletePlayer(g.rooms[roomId], id);
      PlayerCountIsSize(r);
      assert |r.players| == 0 <==> g.rooms[roomId].players.Keys <= {id};
      assert RoomStored(g.gameId, roomId, r);
      if PlayerCount(r) == 0 && roomId != Lobby && !Persistent(g.plugin) then DropRoom(g, roomId)
      else PutRoom(g, roomId, r)
  }

  /** Removing a player keeps every remaining player in `things`. */
  lemma RemovePlayerStored(g: Game, roomId: string, id: string)
    requires GameOk(g) && AllStored(g)
    ensures AllStored(RemovePlayer(g, roomId, id))
  {
    if roomId in g.rooms {
      assert PlayersStored(DeletePlayer(g.rooms[roomId], id));
    }
  }

  /** `addThing(roomId, thing)`: `None` stands for the TypeError a missing
      room raises. */
  function AddThing(g: Game, roomId: string, t: Thing): (res: Option<Game>)
    requires GameOk(g)
    ensures res.None? <==> roomId !in g.rooms
    ensures res.Some? ==> var g' := res.value;
      && g'.rooms.Keys == g.rooms.Keys && g'.roomOrder == g.roomOrder
      && g'.rooms[roomId].things == g.rooms[roomId].things[t.id := ThingEntity(t)]
      && g'.rooms[roomId].players == g.rooms[roomId].players
      && (forall k :: k in g.rooms && k != roomId ==> g'.rooms[k] == g.rooms[k])
      && (t.data.Plain? ==> GameOk(g'))
  {
    if roomId !in g.rooms then None
    else
      var r := g.rooms[roomId];
      var r' := r.(things := r.things[t.id := ThingEntity(t)]);
      assert t.data.Plain? ==> RoomStored(g.gameId, roomId, r');
      Some(PutRoom(g, roomId, r'))
  }

  /** `removeThing(roomId, thingId)`: `None` stands for the TypeError a
      missing room raises. */
  function RemoveThing(g: Game, roomId: string, thingId: string): (res: Option<Game>)
    requires GameOk(g)
    ensures res.None? <==> roomId !in g.rooms
    ensures res.Some? ==> var g' := res.value;
      && GameOk(g') && g'.rooms.Keys == g.rooms.Keys && g'.roomOrder == g.roomOrder
      && g'.rooms[roomId].things == g.rooms[roomId].things - {thingId}
      && g'.rooms[roomId].players == g.rooms[roomId].players
      && (forall k :: k in g.rooms && k != roomId ==> g'.rooms[k] == g.rooms[k])
  {
    if roomId !in g.rooms then None
    else
      var r := g.rooms[roomId];
      var r' := r.(things := r.things - {thingId});
      assert RoomStored(g.gameId, roomId, r');
      Some(PutRoom(g, roomId, r'))
  }

  /** Adding a thing under a player's id leaves that player without its
      `things` entry; a thing with any other id keeps every player stored. */
  lemma AddThingStored(g: Game, roomId: string, t: Thing)
    requires GameOk(g) && AllStored(g) && roomId in g.rooms
    ensures t.id in g.rooms[roomId].players <==> !AllStored(AddThing(g, roomId, t).value)
  {
    var g' := AddThing(g, roomId, t).value;
    if t.id in g.rooms[roomId].players {
      assert !PlayersStored(g'.rooms[roomId]);
    } else {
      assert PlayersStored(g'.rooms[roomId]);
    }
  }

  /** Removing a player's id from `things` leaves that player without its
      entry; removing any other id keeps every player stored. */
  lemma RemoveThingStored(g: Game, roomId: string, thingId: string)
    requires GameOk(g) && AllStored(g) && roomId in g.rooms
    ensures thingId in g.rooms[roomId].players <==> !AllStored(RemoveThing(g, roomId, thingId).value)
  {
    var g' := RemoveThing(g, roomId, thingId).value;
    if thingId in g.rooms[roomId].players {
      assert !PlayersStored(g'.rooms[roomId]);
    } else {
      assert PlayersStored(g'.rooms[roomId]);
    }
  }

  // ---------------------------------------------------------------------------
  // Queries

  /** `getRoomName(roomId)`: the room is made if missing; its name is
      `<gameId>:<roomId>`. */
  function GetRoomName(g: Game, roomId: string): (res: (Game, string))
    requires GameOk(g)
    ensures res.1 == g.gameId + ":" + roomId
    ensures res.0 == AddGameState(g, roomId).0
  {
    var (g', r) := AddGameState(g, roomId);
    (g', r.roomName)
  }

  /** `getPlayersInRoom(roomId)`: the room's players in key order, the room
      being made if missing. */
  function GetPlayersInRoom(g: Game, roomId: string): (res: (Game, seq<Player>))
    requires GameOk(g)
    ensures res.0 == AddGameState(g, roomId).0
    ensures var r := res.0.rooms[roomId];
      && |res.1| == PlayerCount(r)
      && (forall i :: 0 <= i < |res.1| ==> res.1[i] == r.players[PlayerAt(r, i)])
      && (forall id :: id in r.players ==> r.players[id] in res.1)
  {
    var (g', r) := AddGameState(g, roomId);
    (g', PlayersInOrder(r))
  }

  /** `getPlayerCountInRoom(roomId)`: the number of players, the room being
      made (empty) if missing. */
  function GetPlayerCountInRoom(g: Game, roomId: string): (res: (Game, nat))
    requires GameOk(g)
    ensures res.0 == AddGameState(g, roomId).0
    ensures roomId in g.rooms ==> res.0 == g && res.1 == |g.rooms[roomId].players|
    ensures roomId !in g.rooms ==> res.1 == 0
  {
    var (g', r) := AddGameState(g, roomId);
    PlayerCountIsSize(r);
    (g', PlayerCount(r))
  }

  /** `getPlayerCountPerRoom()`: the number of players of every room. Every
      room exists, so nothing is made. */
  function GetPlayerCountPerRoom(g: Game): (counts: map<string, nat>)
    requires GameOk(g)
    ensures counts.Keys == g.rooms.Keys
    ensures forall k :: k in counts ==> counts[k] == |g.rooms[k].players|
  {
    map k | k in g.rooms :: GetPlayerCountInRoom(g, k).1
  }

  /** The sum of the player counts of the rooms listed in `ids`. */
  function SumCounts(rooms: map<string, Room>, ids: seq<string>): nat {
    if |ids| == 0 then 0
    else (if ids[0] in rooms then |rooms[ids[0]].players| else 0) + SumCounts(rooms, ids[1..])
  }

  /** `getPlayerCount()`: the number of players over all rooms. */
  function GetPlayerCount(g: Game): (n: nat)
    requires GameOk(g)
    ensures n == SumCounts(g.rooms, g.roomOrder)
    ensures g.rooms == map[] ==> n == 0
  {
    EnumeratesIff(g.roomOrder, g.rooms.Keys);
    SumCounts(g.rooms, g.roomOrder)
  }

  /** Replacing one listed room changes the sum by the difference of its
      counts. */
  lemma {:induction false} SumCountsReplace(rooms: map<string, Room>, ids: seq<string>, k: string, r: Room)
    requires NoDup(ids) && k in rooms
    ensures var rooms' := rooms[k := r];
      k in ids ==> SumCounts(rooms', ids) + |rooms[k].players| == SumCounts(rooms, ids) + |r.players|
    ensures k !in ids ==> SumCounts(rooms[k := r], ids) == SumCounts(rooms, ids)
    decreases |ids|
  {
    if |ids| > 0 {
      assert NoDup(ids[1..]) by {
        forall i, j | 0 <= i < j < |ids[1..]| ensures ids[1..][i] != ids[1..][j] {
          assert ids[1..][i] == ids[i + 1] && ids[1..][j] == ids[j + 1];
        }
      }
      SumCountsReplace(rooms, ids[1..], k, r);
      if ids[0] == k {
        assert k !in ids[1..] by {
          forall i | 0 <= i < |ids[1..]| ensures ids[1..][i] != k {
            assert ids[1..][i] == ids[i + 1];
          }
        }
      }
    }
  }

  /** Adding a player with a new id to an existing room raises the total
      player count by one. */
  lemma AddPlayerCount(g: Game, roomId: string, p: Player)
    requires GameOk(g) && CreationGame.StatsOk(p.data) && roomId in g.rooms && p.id !in g.rooms[roomId].players
    ensures GetPlayerCount(AddPlayer(g, roomId, p)) == GetPlayerCount(g) + 1
  {
    var r := PutPlayer(g.rooms[roomId], p);
    PutPlayerStored(g.gameId, roomId, g.rooms[roomId], p);
    assert AddPlayer(g, roomId, p) == PutRoom(g, roomId, r);
    EnumeratesIff(g.roomOrder, g.rooms.Keys);
    SumCountsReplace(g.rooms, g.roomOrder, roomId, r);
    assert |r.players| == |g.rooms[roomId].players| + 1 by {
      assert r.players.Keys == g.rooms[roomId].players.Keys + {p.id};
    }
  }

  // ---------------------------------------------------------------------------
  // Moving players between rooms

  /** The players `movePlayersToRoom` moves one by one: each player of
      `from` listed in `ids` (the key order read when the loop starts) is
      stored in `to` with score 0 and leaves `from`. */
  function MoveAll(from: Room, to: Room, ids: seq<string>): (res: (Room, Room))
    requires RoomOk(from) && RoomOk(to)
    ensures RoomOk(res.0) && RoomOk(res.1)
    ensures res.0.(players := from.players, things := from.things, playerOrder := from.playerOrder) == from
    ensures res.1.(players := to.players, things := to.things, playerOrder := to.playerOrder) == to
    decreases |ids|
  {
    if |ids| == 0 then (from, to)
    else if ids[0] !in from.players then MoveAll(from, to, ids[1..])
    else
      var p := from.players[ids[0]];
      MoveAll(DeletePlayer(from, ids[0]), PutPlayer(to, p.(score := 0)), ids[1..])
  }

  /** The ids of `from` that a move over `ids` takes. */
  function Moved(from: Room, ids: seq<string>): set<string> {
    set id | id in ids && id in from.players
  }

  /** The step of the induction: taking the first id leaves the rest to
      take from the smaller room. */
  lemma MovedStep(from: Room, ids: seq<string>)
    requires RoomOk(from) && |ids| > 0
    ensures ids[0] !in from.players ==> Moved(from, ids) == Moved(from, ids[1..])
    ensures ids[0] in from.players ==>
      Moved(from, ids) == Moved(DeletePlayer(from, ids[0]), ids[1..]) + {ids[0]}
  {
    assert forall id :: id in ids <==> id == ids[0] || id in ids[1..] by {
      forall id ensures id in ids <==> id == ids[0] || id in ids[1..] {
        if id in ids {
          var i :| 0 <= i < |ids| && ids[i] == id;
          if i > 0 { assert ids[1..][i - 1] == id; }
        }
      }
    }
  }

  /** The room moved from loses exactly the moved players. */
  lemma {:induction false} MoveAllFromPlayers(from: Room, to: Room, ids: seq<string>)
    requires RoomOk(from) && RoomOk(to)
    ensures var res := MoveAll(from, to, ids);
      res.0.players == from.players - Moved(from, ids)
    decreases |ids|
  {
    if |ids| > 0 {
      MovedStep(from, ids);
      if ids[0] !in from.players {
        MoveAllFromPlayers(from, to, ids[1..]);
      } else {
        var p := from.players[ids[0]];
        MoveAllFromPlayers(DeletePlayer(from, ids[0]), PutPlayer(to, p.(score := 0)), ids[1..]);
      }
    }
  }

  /** The room moved from loses the moved players' entries in `things`
      and keeps every other thing. */
  lemma {:induction false} MoveAllFromThings(from: Room, to: Room, ids: seq<string>)
    requires RoomOk(from) && RoomOk(to)
    ensures var res := MoveAll(from, to, ids);
      res.0.things == from.things - Moved(from, ids)
    decreases |ids|
  {
    if |ids| > 0 {
      MovedStep(from, ids);
      if ids[0] !in from.players {
        MoveAllFromThings(from, to, ids[1..]);
      } else {
        var p := from.players[ids[0]];
        MoveAllFromThings(DeletePlayer(from, ids[0]), PutPlayer(to, p.(score := 0)), ids[1..]);
      }
    }
  }

  /** The room moved to gains the moved players with score 0 and keeps
      every other player. */
  lemma MoveAllToPlayers(from: Room, to: Room, ids: seq<string>)
    requires RoomOk(from) && RoomOk(to)
    ensures var res := MoveAll(from, to, ids); var moved := Moved(from, ids);
      && res.1.players.Keys == to.players.Keys + moved
      && (forall id :: id in moved ==> res.1.players[id] == from.players[id].(score := 0))
      && (forall id :: id in to.players && id !in moved ==> res.1.players[id] == to.players[id])
  {
    MoveAllToKeys(from, to, ids);
    MoveAllToMoved(from, to, ids);
    MoveAllToKept(from, to, ids);
  }

  lemma {:induction false} MoveAllToKeys(from: Room, to: Room, ids: seq<string>)
    requires RoomOk(from) && RoomOk(to)
    ensures var res := MoveAll(from, to, ids); var moved := Moved(from, ids);
      res.1.players.Keys == to.players.Keys + moved
    decreases |ids|
  {
    if |ids| > 0 {
      MovedStep(from, ids);
      if ids[0] !in from.players {
        MoveAllToKeys(from, to, ids[1..]);
      } else {
        var p := from.players[ids[0]];
        var from1, to1 := DeletePlayer(from, ids[0]), PutPlayer(to, p.(score := 0));
        assert p.id == ids[0];
        MoveAllToKeys(from1, to1, ids[1..]);
        assert ids[0] !in Moved(from1, ids[1..]);
      }
    }
  }

  lemma {:induction false} MoveAllToMoved(from: Room, to: Room, ids: seq<string>)
    requires RoomOk(from) && RoomOk(to)
    ensures var res := MoveAll(from, to, ids); var moved := Moved(from, ids);
      forall id :: id in moved ==> id in res.1.players && res.1.players[id] == from.players[id].(score := 0)
    decreases |ids|
  {
    if |ids| > 0 {
      MovedStep(from, ids);
      if ids[0] !in from.players {
        MoveAllToMoved(from, to, ids[1..]);
      } else {
        var p := from.players[ids[0]];
        var from1, to1 := DeletePlayer(from, ids[0]), PutPlayer(to, p.(score := 0));
        assert p.id == ids[0];
        MoveAllToMoved(from1, to1, ids[1..]);
        assert ids[0] !in Moved(from1, ids[1..]);
        MoveAllToKept(from1, to1, ids[1..]);
      }
    }
  }

  lemma {:induction false} MoveAllToKept(from: Room, to: Room, ids: seq<string>)
    requires RoomOk(from) && RoomOk(to)
    ensures var res := MoveAll(from, to, ids); var moved := Moved(from, ids);
      forall id :: id in to.players && id !in moved ==> id in res.1.players && res.1.players[id] == to.players[id]
    decreases |ids|
  {
    if |ids| > 0 {
      MovedStep(from, ids);
      if ids[0] !in from.players {
        MoveAllToKept(from, to, ids[1..]);
      } else {
        var p := from.players[ids[0]];
        var from1, to1 := DeletePlayer(from, ids[0]), PutPlayer(to, p.(score := 0));
        assert p.id == ids[0];
        MoveAllToKept(from1, to1, ids[1..]);
        assert ids[0] !in Moved(from1, ids[1..]);
      }
    }
  }

  /** The room moved to stores every moved player in `things` too, and
      keeps every other thing. */
  lemma {:induction false} MoveAllToThings(from: Room, to: Room, ids: seq<string>)
    requires RoomOk(from) && RoomOk(to)
    ensures var res := MoveAll(from, to, ids); var moved := Moved(from, ids);
      && res.1.things.Keys == to.things.Keys + moved
      && (forall id :: id in moved ==> res.1.things[id] == PlayerRef)
      && (forall id :: id in to.things && id !in moved ==> res.1.things[id] == to.things[id])
    decreases |ids|
  {
    if |ids| > 0 {
      MovedStep(from, ids);
      if ids[0] !in from.players {
        MoveAllToThings(from, to, ids[1..]);
      } else {
        var p := from.players[ids[0]];
        var from1, to1 := DeletePlayer(from, ids[0]), PutPlayer(to, p.(score := 0));
        assert p.id == ids[0];
        MoveAllToThings(from1, to1, ids[1..]);
        assert ids[0] !in Moved(from1, ids[1..]);
      }
    }
  }

  /** `movePlayersToRoom(roomId, roomId)`: every player is stored back under
      its own key and then deleted, so the room ends up empty. */
  function EmptySelf(r: Room): (r': Room)
    requires RoomOk(r)
    ensures RoomOk(r') && r'.players == map[] && r'.playerOrder == []
    ensures r'.things == r.things - r.players.Keys
    ensures r'.(players := r.players, things := r.things, playerOrder := r.playerOrder) == r
  {
    r.(players := map[], things := r.things - r.players.Keys, playerOrder := [])
  }

  /** Moving keeps a stored room stored: the room moved from only loses
      entries. */
  lemma MoveFromStored(gameId: string, key: string, from: Room, to: Room)
    requires RoomStored(gameId, key, from) && RoomOk(to)
    ensures RoomStored(gameId, key, MoveAll(from, to, from.playerOrder).0)
  {
    MoveAllFromPlayers(from, to, from.playerOrder);
    MoveAllFromThings(from, to, from.playerOrder);
  }

  /** Moving keeps a stored room stored: the room moved to gains players
      with their ids and stats kept, and only players enter `things`. */
  lemma MoveToStored(gameId: string, key: string, from: Room, to: Room)
    requires CreationGame.Inv(from) && RoomStored(gameId, key, to)
    ensures RoomStored(gameId, key, MoveAll(from, to, from.playerOrder).1)
  {
    var res := MoveAll(from, to, from.playerOrder);
    MoveAllToPlayers(from, to, from.playerOrder);
    MoveAllToThings(from, to, from.playerOrder);
    assert CreationGame.AllStatsOk(res.1);
    assert GridsValid(res.1);
  }

  /** `movePlayersToRoom(fromRoomId, toRoomId)`: both rooms are made if
      missing, then every player of the first goes to the second with
      score 0. */
  function MovePlayersToRoom(g: Game, fromId: string, toId: string): (g': Game)
    requires GameOk(g)
    ensures GameOk(g') && g'.gameId == g.gameId && g'.plugin == AddGameState(AddGameState(g, fromId).0, toId).0.plugin
    ensures fromId in g'.rooms && toId in g'.rooms
    ensures g'.rooms - {fromId, toId} == g.rooms - {fromId, toId}
  {
    var (g1, from) := AddGameState(g, fromId);
    var (g2, to) := AddGameState(g1, toId);
    var both := {fromId, toId};
    AgreeOutside(g1.rooms, g.rooms, {fromId}, both);
    AgreeOutside(g2.rooms, g1.rooms, {toId}, both);
    if fromId == toId then
      assert RoomStored(g.gameId, fromId, EmptySelf(to));
      var g3 := PutRoom(g2, fromId, EmptySelf(to));
      AgreeOutside(g3.rooms, g2.rooms, {fromId}, both);
      g3
    else
      var from := g2.rooms[fromId];
      var res := MoveAll(from, to, from.playerOrder);
      MoveFromStored(g.gameId, fromId, from, to);
      MoveToStored(g.gameId, toId, from, to);
      var g3 := PutRoom(g2, fromId, res.0);
      var g4 := PutRoom(g3, toId, res.1);
      AgreeOutside(g3.rooms, g2.rooms, {fromId}, both);
      AgreeOutside(g4.rooms, g3.rooms, {toId}, both);
      g4
  }

  /** After a move the room moved from holds no player and keeps its other
      things. */
  lemma MovePlayersToRoomEmpties(g: Game, fromId: string, toId: string)
    requires GameOk(g)
    ensures var g' := MovePlayersToRoom(g, fromId, toId);
      var from := AddGameState(g, fromId).1;
      && g'.rooms[fromId].players == map[]
      && g'.rooms[fromId].things == from.things - from.players.Keys
  {
    var (g1, from) := AddGameState(g, fromId);
    var (g2, to) := AddGameState(g1, toId);
    if fromId != toId {
      assert g2.rooms[fromId] == from;
      MovedAll(from);
      MoveAllFromPlayers(from, to, from.playerOrder);
      MoveAllFromThings(from, to, from.playerOrder);
    }
  }

  /** After a move between two rooms every player of the first is in the
      second with score 0, and the second keeps its own players whose ids
      were not moved. */
  lemma MovePlayersToRoomMoves(g: Game, fromId: string, toId: string)
    requires GameOk(g)
    ensures var g' := MovePlayersToRoom(g, fromId, toId);
      var (g1, from) := AddGameState(g, fromId);
      var to := AddGameState(g1, toId).1;
      fromId != toId ==>
      && g'.rooms[toId].players.Keys == to.players.Keys + from.players.Keys
      && (forall id :: id in from.players ==> g'.rooms[toId].players[id] == from.players[id].(score := 0))
      && (forall id :: id in to.players && id !in from.players ==> g'.rooms[toId].players[id] == to.players[id])
  {
    var (g1, from) := AddGameState(g, fromId);
    var (g2, to) := AddGameState(g1, toId);
    if fromId != toId {
      assert g2.rooms[fromId] == from;
      MovedAll(from);
      MoveAllToPlayers(from, to, from.playerOrder);
    }
  }

  /** A move over the whole key order takes every player. */
  lemma MovedAll(r: Room)
    requires RoomOk(r)
    ensures Moved(r, r.playerOrder) == r.players.Keys
  {
    EnumeratesIff(r.playerOrder, r.players.Keys);
  }

  /** The room `k` exists and its game is over. */
  ghost predicate Finished(rooms: map<string, Room>, k: string) {
    k in rooms && rooms[k].gameOver
  }

  /** Storing a room under `k` decides whether `k` is finished and leaves
      every other room as it was. */
  lemma FinishedPut(rooms: map<string, Room>, k: string, r: Room)
    ensures Finished(rooms[k := r], k) == r.gameOver
    ensures forall j :: j != k ==> (Finished(rooms[k := r], j) <==> Finished(rooms, j))
  {
  }

  /** Making rooms and moving players between them finishes no game and
      un-finishes none. */
  lemma MovePlayersToRoomFinished(g: Game, fromId: string, toId: string)
    requires GameOk(g)
    ensures forall k :: Finished(MovePlayersToRoom(g, fromId, toId).rooms, k) <==> Finished(g.rooms, k)
  {
    var (g1, from) := AddGameState(g, fromId);
    var (g2, to) := AddGameState(g1, toId);
    var g' := MovePlayersToRoom(g, fromId, toId);
    if fromId == toId {
      FinishedPut(g2.rooms, fromId, EmptySelf(to));
    } else {
      var res := MoveAll(g2.rooms[fromId], to, g2.rooms[fromId].playerOrder);
      var m3 := g2.rooms[fromId := res.0];
      FinishedPut(g2.rooms, fromId, res.0);
      FinishedPut(m3, toId, res.1);
      assert g'.rooms == m3[toId := res.1];
      assert forall k :: Finished(m3, k) <==> Finished(g2.rooms, k) by {
        assert Finished(m3, fromId) == Finished(g2.rooms, fromId);
      }
    }
  }

  // ---------------------------------------------------------------------------
  // The tick

  /** What a tick sends to a room's socket channel. */
  datatype Event =
    | GameEnded(channel: string)
    | PlayersMoved(channel: string, toRoom: string)
    | ServerUpdate(channel: string, things: seq<string>)

  /** `players.length` on the players object: a player stored under the key
      `length`, or nothing. It is never the number 0, so the branch that
      destroys a room on `players.length === 0` is never taken. */
  function LengthProperty(players: map<string, Player>): (v: Value)
    ensures v != Num(0.0)
  {
    if "length" in players then Obj(map[]) else Undefined
  }

  /** What one iteration of the loop in `update(io)` does with the room
      under `key` once the plugin's update ended with `o`: a throw leaves
      the tick (the flag is set); a finished game sends its players to the
      lobby and is destroyed; otherwise the reported things are sent to the
      room. */
  function AfterUpdate(g: Game, key: string, o: CreationGame.Outcome): (res: (Game, seq<Event>, bool))
    requires GameOk(g) && key in g.rooms && RoomStored(g.gameId, key, o.room)
    ensures GameOk(res.0) && res.0.gameId == g.gameId
    ensures var name := o.room.roomName;
      && (res.2 <==> o.Threw?)
      && (res.2 ==> res.1 == [] && res.0.rooms == g.rooms[key := o.room])
      && (!res.2 && o.room.gameOver ==>
            key !in res.0.rooms && res.1 == [GameEnded(name), PlayersMoved(name, Lobby)])
      && (!res.2 && !o.room.gameOver ==>
            && res.0.rooms == g.rooms[key := o.room]
            && res.1 == if |o.out| > 0 then [ServerUpdate(name, o.out)] else [])
    ensures !res.2 ==>
      && !Finished(res.0.rooms, key)
      && forall k :: k != key ==> (Finished(res.0.rooms, k) <==> Finished(g.rooms, k))
  {
    FinishedPut(g.rooms, key, o.room);
    match o
    case Threw(r') => (PutRoom(g, key, r'), [], true)
    case Done(r', out) =>
      var g1 := PutRoom(g, key, r');
      if r'.gameOver then
        (Dissolve(g1, key), [GameEnded(r'.roomName), PlayersMoved(r'.roomName, Lobby)], false)
      else if LengthProperty(r'.players) == Num(0.0) then assert false; (g1, [], false)
      else if |out| > 0 then (g1, [ServerUpdate(r'.roomName, out)], false)
      else (g1, [], false)
  }

  /** The end of a finished game: its players go to the lobby with score
      0 and the room is destroyed. */
  function Dissolve(g: Game, key: string): (g': Game)
    requires GameOk(g) && key in g.rooms
    ensures GameOk(g') && g'.gameId == g.gameId && key !in g'.rooms
    ensures forall k :: k != key ==> (Finished(g'.rooms, k) <==> Finished(g.rooms, k))
  {
    MovePlayersToRoomFinished(g, key, Lobby);
    DropRoom(MovePlayersToRoom(g, key, Lobby), key)
  }

  /** The players of a dissolved game other than the lobby are in the
      lobby, with score 0. */
  lemma DissolveToLobby(g: Game, key: string)
    requires GameOk(g) && key in g.rooms && key != Lobby
    ensures var g' := Dissolve(g, key);
      && Lobby in g'.rooms
      && forall id :: id in g.rooms[key].players ==>
           id in g'.rooms[Lobby].players && g'.rooms[Lobby].players[id] == g.rooms[key].players[id].(score := 0)
  {
    var g1 := MovePlayersToRoom(g, key, Lobby);
    MovePlayersToRoomMoves(g, key, Lobby);
    assert AddGameState(g, key) == (g, g.rooms[key]);
    assert Dissolve(g, key).rooms[Lobby] == g1.rooms[Lobby];
  }

  /** The plugin's update of a stored room: it keeps the room stored. */
  function PluginStep(g: Game, key: string, d: CreationGame.Draws): (o: CreationGame.Outcome)
    requires GameOk(g) && key in g.rooms
    ensures RoomStored(g.gameId, key, o.room)
    ensures o == Update(g.plugin, g.rooms[key], d)
  {
    PluginUpdateKept(g.plugin, g.gameId, key, g.rooms[key], d);
    Update(g.plugin, g.rooms[key], d)
  }

  /** A plugin's update keeps a stored room stored under its key. */
  lemma PluginUpdateKept(p: Plugin, gameId: string, key: string, r: Room, d: CreationGame.Draws)
    requires RoomStored(gameId, key, r)
    ensures RoomStored(gameId, key, Update(p, r, d).room)
  {
    UpdateKept(p, r, d);
  }

  /** The loop of `update(io)` over `keys`, the key order of the rooms when
      it starts: a key whose room is gone is skipped, and a throw ends the
      loop. `dr` gives the random draws of each room's update. */
  function TickRooms(g: Game, keys: seq<string>, dr: string -> CreationGame.Draws): (res: (Game, seq<Event>, bool))
    requires GameOk(g)
    ensures GameOk(res.0) && res.0.gameId == g.gameId
    ensures !res.2 ==> forall k :: Finished(res.0.rooms, k) ==> Finished(g.rooms, k) && k !in keys
    decreases |keys|
  {
    if |keys| == 0 then (g, [], false)
    else if keys[0] !in g.rooms then TickRooms(g, keys[1..], dr)
    else
      var (g1, ev1, crashed) := AfterUpdate(g, keys[0], PluginStep(g, keys[0], dr(keys[0])));
      if crashed then (g1, ev1, true)
      else
        var (g2, ev2, crashed2) := TickRooms(g1, keys[1..], dr);
        (g2, ev1 + ev2, crashed2)
  }

  /** `update(io)`: one tick over every room of the game. A tick that does
      not throw leaves no finished game behind: each one was dissolved into
      the lobby. */
  function UpdateGame(g: Game, dr: string -> CreationGame.Draws): (res: (Game, seq<Event>, bool))
    requires GameOk(g)
    ensures GameOk(res.0) && res.0.gameId == g.gameId
    ensures !res.2 ==> forall k :: k in res.0.rooms ==> !res.0.rooms[k].gameOver
  {
    var res := TickRooms(g, g.roomOrder, dr);
    NoneFinished(g, res.0, res.2);
    res
  }

  /** Every room is listed in the key order, so a room finished after the
      loop over all of them is impossible. */
  lemma NoneFinished(g: Game, g': Game, crashed: bool)
    requires GameOk(g)
    requires !crashed ==> forall k :: Finished(g'.rooms, k) ==> Finished(g.rooms, k) && k !in g.roomOrder
    ensures !crashed ==> forall k :: k in g'.rooms ==> !g'.rooms[k].gameOver
  {
    EnumeratesIff(g.roomOrder, g.rooms.Keys);
    if !crashed {
      forall k | k in g'.rooms
        ensures !g'.rooms[k].gameOver
      {
        assert k in g.rooms ==> k in g.roomOrder;
        assert !Finished(g'.rooms, k);
      }
    }
  }
}

=== FILE: hex_grid.dfy ===
/** The hexagonal board of the dice game: tiles in axial coordinates, each
    holding a stack of at most six coloured layers and an attack flag that is
    raised when one player owns a full stack. The two JavaScript maps
    `layers` and `attacks`, which always have the same keys, are kept here as
    one map of tiles; `order` is the insertion order of their keys. */
module HexGrid {
  import opened Prelude
  import opened Transforms

  /** Axial coordinates; the key `${q},${r}` of the JavaScript maps. */
  datatype Hex = Hex(q: int, r: int)

  /** One layer of a tile stack, of type "Default". */
  datatype Layer = Layer(owner: string, color: Color, at: Hex)

  datatype Tile = Tile(layers: seq<Layer>, attack: bool)

  datatype Grid = Grid(radius: int, order: seq<Hex>, tiles: map<Hex, Tile>)

  /** The stack height at which a tile can become an attack. */
  const MaxLayers := 6

  const EmptyTile := Tile([], false)

  // ---------------------------------------------------------------------------
  // Board shape

  /** `h` lies within hexagonal distance `radius` of the centre tile. */
  predicate OnBoard(h: Hex, radius: int) {
    -radius <= h.q <= radius && -radius <= h.r <= radius && -radius <= h.q + h.r <= radius
  }

  function Max(a: int, b: int): int { if a >= b then a else b }
  function Min(a: int, b: int): int { if a <= b then a else b }

  /** The cells `(q, r)` for `r` from `lo` to `hi`, in increasing `r`. */
  function Column(q: int, lo: int, hi: int): (cells: seq<Hex>)
    ensures |cells| == if lo <= hi then hi - lo + 1 else 0
    ensures forall h :: h in cells <==> h.q == q && lo <= h.r <= hi
    ensures NoDup(cells)
    decreases hi - lo
  {
    if lo > hi then [] else [Hex(q, lo)] + Column(q, lo + 1, hi)
  }

  /** The board's cells with first coordinate from `q` to `radius`, in the
      order of the nested initialisation loops. */
  function Columns(q: int, radius: int): (cells: seq<Hex>)
    requires -radius <= q
    ensures forall h :: h in cells <==> q <= h.q && OnBoard(h, radius)
    ensures NoDup(cells)
    decreases radius - q
  {
    if q > radius then []
    else
      var col := Column(q, Max(-radius, -q - radius), Min(radius, -q + radius));
      var rest := Columns(q + 1, radius);
      assert forall i, j :: 0 <= i < |col| && 0 <= j < |rest| ==> col[i] != rest[j] by {
        forall i, j | 0 <= i < |col| && 0 <= j < |rest|
          ensures col[i] != rest[j]
        {
          assert col[i] in col && rest[j] in rest;
        }
      }
      col + rest
  }

  /** The number of cells in columns `q..radius`, column by column: column
      `q` has `2R+1-|q|` cells. */
  function CountFrom(q: int, radius: int): int
    decreases radius - q
  {
    if q > radius then 0 else 2 * radius + 1 - (if q >= 0 then q else -q) + CountFrom(q + 1, radius)
  }

  lemma {:induction false} ColumnsLength(q: int, radius: int)
    requires -radius <= q
    ensures |Columns(q, radius)| == CountFrom(q, radius)
    decreases radius - q
  {
    if q <= radius {
      ColumnsLength(q + 1, radius);
      var col := Column(q, Max(-radius, -q - radius), Min(radius, -q + radius));
      assert Columns(q, radius) == col + Columns(q + 1, radius);
      assert |col| == 2 * radius + 1 - (if q >= 0 then q else -q);
    }
  }

  /** Twice `CountFrom(q, radius)` in closed form, for `0 <= q <= radius + 1`. */
  lemma {:induction false} CountRight(q: int, radius: int)
    requires 0 <= q <= radius + 1
    ensures 2 * CountFrom(q, radius) == (radius + 1 - q) * (4 * radius + 2) - radius * (radius + 1) + q * (q - 1)
    decreases radius - q
  {
    if q <= radius {
      CountRight(q + 1, radius);
      assert (radius + 1 - q) * (4 * radius + 2) == (radius - q) * (4 * radius + 2) + (4 * radius + 2);
      assert q * (q - 1) == (q + 1) * q - 2 * q;
    }
  }

  /** Twice `CountFrom(-m, radius)` in closed form, for `0 <= m <= radius`. */
  lemma {:induction false} CountLeft(m: int, radius: int)
    requires 0 <= m <= radius
    ensures 2 * CountFrom(-m, radius) == (radius + 1) * (4 * radius + 2) - radius * (radius + 1) + m * (4 * radius + 2) - m * (m + 1)
    decreases m
  {
    if m == 0 {
      CountRight(0, radius);
    } else {
      CountLeft(m - 1, radius);
      assert -m + 1 == -(m - 1);
      assert m * (4 * radius + 2) == (m - 1) * (4 * radius + 2) + (4 * radius + 2);
      assert m * (m + 1) == (m - 1) * m + 2 * m;
    }
  }

  /** The cells of a board of the given radius, in initialisation order. */
  function Cells(radius: nat): seq<Hex> {
    Columns(-(radius as int), radius)
  }

  /** A board of the given radius has 3R(R+1)+1 cells, each listed once. */
  lemma CellsCount(radius: nat)
    ensures |Cells(radius)| == 3 * radius * (radius + 1) + 1
    ensures NoDup(Cells(radius))
    ensures forall h :: h in Cells(radius) <==> OnBoard(h, radius)
  {
    ColumnsLength(-(radius as int), radius);
    CountLeft(radius, radius);
  }

  /** The board the dice game sets up for a room: every cell of the given
      radius present with an empty stack and no attack. */
  function Init(radius: nat): (g: Grid)
    ensures g.radius == radius
    ensures forall h :: h in g.tiles <==> OnBoard(h, radius)
    ensures forall h :: h in g.tiles ==> g.tiles[h] == EmptyTile
    ensures Enumerates(g.order, g.tiles.Keys)
    ensures |g.tiles| == 3 * radius * (radius + 1) + 1
  {
    var cells := Cells(radius);
    CellsCount(radius);
    var g := Grid(radius, cells, map h | h in cells :: EmptyTile);
    EnumeratesIff(g.order, g.tiles.Keys);
    EnumerationLength(g.order, g.tiles.Keys);
    g
  }

  // ---------------------------------------------------------------------------
  // Stacks and attack flags

  /** Every layer of the stack belongs to `owner`. */
  predicate OwnedBy(layers: seq<Layer>, owner: string) {
    forall i :: 0 <= i < |layers| ==> layers[i].owner == owner
  }

  /** The tile invariant: a stack never exceeds six layers, and a flagged
      tile holds exactly six layers of a single owner. */
  predicate TileOk(t: Tile) {
    && |t.layers| <= MaxLayers
    && (t.attack ==> |t.layers| == MaxLayers && OwnedBy(t.layers, t.layers[0].owner))
  }

  /** The board invariant: `order` lists the tile keys once each and every
      tile satisfies `TileOk`. */
  ghost predicate Valid(g: Grid) {
    Enumerates(g.order, g.tiles.Keys) && forall h :: h in g.tiles ==> TileOk(g.tiles[h])
  }

  lemma InitValid(radius: nat)
    ensures Valid(Init(radius))
  {
  }

  /** The stack on `h`; a key never written reads as an empty stack. */
  function TileAt(g: Grid, h: Hex): Tile {
    if h in g.tiles then g.tiles[h] else EmptyTile
  }

  predicate Flagged(g: Grid, h: Hex) {
    h in g.tiles && g.tiles[h].attack
  }

  /** Pushes `layer` on top of the stack at `h`, dropping the oldest layer
      when the stack grows beyond six, and recomputes the tile's attack flag:
      raised exactly when the stack now holds six layers, all of the pushing
      player. The caller has already refused flagged tiles. Also reports
      whether a layer was dropped. */
  function PushLayer(g: Grid, h: Hex, layer: Layer): (res: (Grid, bool))
    requires !Flagged(g, h)
    ensures h in res.0.tiles
    ensures var (g', shifted) := res;
      var before := TileAt(g, h).layers;
      var after := TileAt(g', h).layers;
      && shifted == (|before| >= MaxLayers)
      && after == (before + [layer])[if shifted then 1 else 0..]
      && (TileAt(g', h).attack <==> |after| == MaxLayers && OwnedBy(after, layer.owner))
    ensures var (g', _) := res;
      && g'.radius == g.radius
      && g'.tiles.Keys == g.tiles.Keys + {h}
      && (forall k :: k in g.tiles && k != h ==> g'.tiles[k] == g.tiles[k])
  {
    var pushed := TileAt(g, h).layers + [layer];
    var shifted := |pushed| > MaxLayers;
    var stack := if shifted then pushed[1..] else pushed;
    var attack := if |stack| == MaxLayers then OwnedBy(stack, layer.owner) else false;
    (Grid(g.radius, AddKey(g.order, h), g.tiles[h := Tile(stack, attack)]), shifted)
  }

  /** On a valid board a push never leaves more than six layers, the newest
      layer is on top, and the board stays valid: this is why a flagged tile
      always holds six layers of one player. */
  lemma PushLayerValid(g: Grid, h: Hex, layer: Layer)
    requires Valid(g)
    requires !Flagged(g, h)
    ensures var after := TileAt(PushLayer(g, h, layer).0, h).layers;
      && 1 <= |after| <= MaxLayers
      && after[|after| - 1] == layer
    ensures Valid(PushLayer(g, h, layer).0)
  {
    var (g', _) := PushLayer(g, h, layer);
    EnumeratesAddKey(g.order, g.tiles.Keys, h);
    var t := g'.tiles[h];
    if t.attack {
      assert t.layers[0].owner == layer.owner;
    }
    assert TileOk(t);
  }

  /** Empties the stack at `h` and lowers its flag. */
  function ClearTile(g: Grid, h: Hex): (g': Grid)
    ensures g'.tiles.Keys == g.tiles.Keys + {h}
    ensures g'.tiles[h] == EmptyTile
    ensures forall k :: k in g.tiles && k != h ==> g'.tiles[k] == g.tiles[k]
    ensures g'.radius == g.radius
  {
    Grid(g.radius, AddKey(g.order, h), g.tiles[h := EmptyTile])
  }

  lemma ClearTileValid(g: Grid, h: Hex)
    requires Valid(g)
    ensures Valid(ClearTile(g, h))
  {
    EnumeratesAddKey(g.order, g.tiles.Keys, h);
  }

  /** The target choice of an attack effect: while fewer than `amount` tiles
      are chosen and candidates remain, a random candidate is spliced out of
      the list and chosen. The random index `Math.floor(Math.random() * n)` is
      `picks[0] % n`. */
  function ChooseTiles(candidates: seq<Hex>, amount: nat, picks: seq<nat>): (chosen: seq<Hex>)
    ensures |chosen| <= amount
    ensures |picks| >= amount ==> |chosen| == Min(amount, |candidates|)
    ensures forall h :: h in chosen ==> h in candidates
    ensures NoDup(candidates) ==> NoDup(chosen)
    decreases amount
  {
    if amount == 0 || |candidates| == 0 || |picks| == 0 then []
    else
      var i := picks[0] % |candidates|;
      var rest := candidates[..i] + candidates[i + 1..];
      var next := ChooseTiles(rest, amount - 1, picks[1..]);
      assert forall k :: k in rest ==> k in candidates;
      assert NoDup(candidates) ==> NoDup(rest) && candidates[i] !in rest by {
        if NoDup(candidates) {
          forall a, b | 0 <= a < b < |rest| ensures rest[a] != rest[b] {
            var a' := if a < i then a else a + 1;
            var b' := if b < i then b else b + 1;
            assert rest[a] == candidates[a'] && rest[b] == candidates[b'];
          }
          forall a | 0 <= a < |rest| ensures rest[a] != candidates[i] {
            assert rest[a] == candidates[if a < i then a else a + 1];
          }
        }
      }
      [candidates[i]] + next
  }

  /** Empties the stacks of the given tiles one after the other. */
  function ClearTiles(g: Grid, hs: seq<Hex>): (g': Grid)
    ensures g'.radius == g.radius
    ensures g'.tiles.Keys == g.tiles.Keys + set h | h in hs
    ensures forall h :: h in hs ==> g'.tiles[h] == EmptyTile
    ensures forall k :: k in g.tiles && k !in hs ==> g'.tiles[k] == g.tiles[k]
    decreases |hs|
  {
    if |hs| == 0 then g else ClearTiles(ClearTile(g, hs[0]), hs[1..])
  }

  /** Clearing tiles keeps the board invariant. */
  lemma {:induction false} ClearTilesValid(g: Grid, hs: seq<Hex>)
    requires Valid(g)
    ensures Valid(ClearTiles(g, hs))
    decreases |hs|
  {
    if |hs| > 0 {
      ClearTileValid(g, hs[0]);
      ClearTilesValid(ClearTile(g, hs[0]), hs[1..]);
    }
  }

  /** An attack on the tile `at`: its stack is emptied and its flag lowered,
      then up to `amount` tiles chosen at random among all keys (the attacked
      one included) are emptied too. Returns the board and the chosen tiles. */
  function AttackClear(g: Grid, at: Hex, amount: nat, picks: seq<nat>): (res: (Grid, seq<Hex>))
    ensures var (g', chosen) := res;
      && g'.radius == g.radius
      && |chosen| <= amount
      && g'.tiles.Keys == g.tiles.Keys + {at} + (set h | h in chosen)
      && g'.tiles[at] == EmptyTile
      && (forall h :: h in chosen ==> g'.tiles[h] == EmptyTile)
      && (forall h :: h in g.tiles && h != at && h !in chosen ==> g'.tiles[h] == g.tiles[h])
  {
    var g1 := ClearTile(g, at);
    var chosen := ChooseTiles(g1.order, amount, picks);
    (ClearTiles(g1, chosen), chosen)
  }

  /** On a valid board the attack keeps the board valid, adds no key, and
      clears distinct tiles: as many as asked for while tiles remain. */
  lemma AttackClearValid(g: Grid, at: Hex, amount: nat, picks: seq<nat>)
    ensures var (g', chosen) := AttackClear(g, at, amount, picks);
      Valid(g) ==>
      && Valid(g')
      && g'.tiles.Keys == g.tiles.Keys + {at}
      && NoDup(chosen)
      && (|picks| >= amount ==> |chosen| == Min(amount, |g'.tiles|))
  {
    if Valid(g) {
      var g1 := ClearTile(g, at);
      ClearTileValid(g, at);
      EnumeratesIff(g1.order, g1.tiles.Keys);
      EnumerationLength(g1.order, g1.tiles.Keys);
      var chosen := ChooseTiles(g1.order, amount, picks);
      ClearTilesValid(g1, chosen);
    }
  }
}

=== FILE: js.dfy ===
/** The slice of JavaScript semantics the server's handlers rely on: dynamic
    values as they arrive in request bodies and socket payloads, truthiness and
    the `a || b` default idiom, `typeof` tests, `parseInt(s, 10)`,
    `String.prototype.trim`, `slice(0, end)` and the numeric coercion used by
    relational operators. */
module Js {
  import opened Prelude

  /** A JavaScript value as it can reach the server. `Date` is the only
      non-plain object the modelled code creates (`new Date()`). Numbers are
      finite: NaN and the infinities are outside the model. */
  datatype Value =
    | Undefined
    | Null
    | Bool(b: bool)
    | Num(n: real)
    | Str(s: string)
    | Date(ms: int)
    | Obj(fields: map<string, Value>)

  predicate Truthy(v: Value) {
    match v
    case Undefined => false
    case Null => false
    case Bool(b) => b
    case Num(n) => n != 0.0
    case Str(s) => s != ""
    case Date(_) => true
    case Obj(_) => true
  }

  /** `a || b`: the first operand when it is truthy, otherwise the second. */
  function Or(a: Value, b: Value): Value {
    if Truthy(a) then a else b
  }

  /** A property read `o[k]` on a plain object; absent keys read as undefined. */
  function Get(fields: map<string, Value>, k: string): Value {
    if k in fields then fields[k] else Undefined
  }

  /** A property read `v.k` on any value: a plain object looks the key up;
      `undefined` and `null` are outside this use, and the other primitives
      and dates have no own property of the names the handlers read, so the
      read yields undefined. */
  function FieldOf(v: Value, k: string): (r: Value)
    ensures !v.Obj? ==> r == Undefined
  {
    match v
    case Obj(fields) => Get(fields, k)
    case _ => Undefined
  }

  /** What an Express handler sends: `res.status(status).json(body)`, or
      `res.json(body)` with status 200. `JSON.stringify` leaves out the
      fields whose value is undefined. */
  datatype Reply = Reply(status: nat, body: map<string, Value>)

  // ---------------------------------------------------------------------------
  // Whitespace, trim

  /** The characters `trim` and `parseInt` skip: the WhiteSpace and
      LineTerminator productions of ECMAScript (tab, vertical tab, form feed,
      space, no-break space, byte order mark, the Unicode space separators, line
      feed, carriage return, line and paragraph separators). */
  predicate IsWhitespace(c: char) {
    c == '\t' || c == '\n' || c == '\U{B}' || c == '\U{C}' || c == '\r' ||
    c == ' ' || c == '\U{A0}' || c == '\U{1680}' ||
    ('\U{2000}' <= c <= '\U{200A}') ||
    c == '\U{2028}' || c == '\U{2029}' || c == '\U{202F}' || c == '\U{205F}' ||
    c == '\U{3000}' || c == '\U{FEFF}'
  }

  /** The index of the first character at or after `i` that is not
      whitespace, or `|s|` when there is none. */
  function SkipSpace(s: string, i: nat): (n: nat)
    requires i <= |s|
    ensures i <= n <= |s|
    ensures forall j :: i <= j < n ==> IsWhitespace(s[j])
    ensures n < |s| ==> !IsWhitespace(s[n])
    decreases |s| - i
  {
    if i < |s| && IsWhitespace(s[i]) then SkipSpace(s, i + 1) else i
  }

  /** Walking back from `j` to no further than `lo`: the index just after
      the last character that is not whitespace, or `lo` when there is none. */
  function SkipSpaceBack(s: string, lo: nat, j: nat): (n: nat)
    requires lo <= j <= |s|
    ensures lo <= n <= j
    ensures forall k :: n <= k < j ==> IsWhitespace(s[k])
    ensures n > lo ==> !IsWhitespace(s[n - 1])
    decreases j - lo
  {
    if j > lo && IsWhitespace(s[j - 1]) then SkipSpaceBack(s, lo, j - 1) else j
  }

  /** `s` without its leading whitespace, as `parseInt` skips it. */
  function TrimStart(s: string): (r: string)
    ensures |r| <= |s| && r == s[|s| - |r|..]
    ensures forall i :: 0 <= i < |s| - |r| ==> IsWhitespace(s[i])
    ensures |r| > 0 ==> !IsWhitespace(r[0])
  {
    s[SkipSpace(s, 0)..]
  }

  /** A string that does not start with whitespace is its own `TrimStart`. */
  lemma TrimStartOfWord(s: string)
    requires |s| == 0 || !IsWhitespace(s[0])
    ensures TrimStart(s) == s
  {
    assert SkipSpace(s, 0) == 0;
  }

  /** `s.trim()`: `s` with leading and trailing whitespace removed; what is
      left starts at the first character that is not whitespace. */
  function Trim(s: string): (r: string)
    ensures var k := SkipSpace(s, 0);
      && k + |r| <= |s|
      && r == s[k..k + |r|]
      && (forall i :: 0 <= i < k ==> IsWhitespace(s[i]))
      && (forall i :: k + |r| <= i < |s| ==> IsWhitespace(s[i]))
    ensures |r| > 0 ==> !IsWhitespace(r[0]) && !IsWhitespace(r[|r| - 1])
  {
    var k := SkipSpace(s, 0);
    s[k..SkipSpaceBack(s, k, |s|)]
  }

  /** `x.slice(0, end)` on a string or array, for an integer `end`: a negative
      end counts back from the length. */
  function SliceTo<T>(s: seq<T>, end: int): (r: seq<T>)
    ensures |r| <= |s| && r == s[..|r|]
    ensures end >= 0 ==> |r| == if end < |s| then end else |s|
    ensures end < 0 ==> |r| == if |s| + end > 0 then |s| + end else 0
  {
    if end >= 0 then (if end < |s| then s[..end] else s)
    else if |s| + end > 0 then s[..|s| + end]
    else []
  }

  /** `s.startsWith(prefix)`. */
  predicate StartsWith(s: string, prefix: string) {
    |prefix| <= |s| && s[..|prefix|] == prefix
  }

  /** `s.includes(sub)`: `sub` occurs in `s` at some position. */
  predicate Includes(s: string, sub: string)
    decreases |s|
  {
    if |sub| > |s| then false
    else if s[..|sub|] == sub then true
    else Includes(s[1..], sub)
  }

  /** `Includes` holds exactly when `sub` occurs at some position of `s`. */
  lemma {:induction false} IncludesAt(s: string, sub: string, i: nat)
    requires i + |sub| <= |s| && s[i..i + |sub|] == sub
    ensures Includes(s, sub)
    decreases i
  {
    if i > 0 && s[..|sub|] != sub {
      assert s[1..][i - 1..i - 1 + |sub|] == s[i..i + |sub|];
      IncludesAt(s[1..], sub, i - 1);
    }
  }

  lemma {:induction false} IncludesWitness(s: string, sub: string) returns (i: nat)
    requires Includes(s, sub)
    ensures i + |sub| <= |s| && s[i..i + |sub|] == sub
    decreases |s|
  {
    if s[..|sub|] == sub {
      i := 0;
    } else {
      var j := IncludesWitness(s[1..], sub);
      assert s[1..][j..j + |sub|] == s[j + 1..j + 1 + |sub|];
      i := j + 1;
    }
  }

  // ---------------------------------------------------------------------------
  // Decimal digits, parseInt

  predicate IsDigit(c: char) {
    '0' <= c <= '9'
  }

  function DigitValue(c: char): nat
    requires IsDigit(c)
  {
    (c as int) - ('0' as int)
  }

  function DigitChar(d: nat): (c: char)
    requires d < 10
    ensures IsDigit(c) && DigitValue(c) == d
  {
    (('0' as int) + d) as char
  }

  /** The longest prefix of `s` made of decimal digits. */
  function DigitPrefix(s: string): (r: string)
    ensures |r| <= |s| && r == s[..|r|]
    ensures forall i :: 0 <= i < |r| ==> IsDigit(r[i])
    ensures |r| < |s| ==> !IsDigit(s[|r|])
  {
    if |s| > 0 && IsDigit(s[0]) then [s[0]] + DigitPrefix(s[1..]) else []
  }

  /** The number a string of decimal digits denotes. */
  function DigitsValue(d: string): nat
    requires forall i :: 0 <= i < |d| ==> IsDigit(d[i])
  {
    if |d| == 0 then 0 else DigitsValue(d[..|d| - 1]) * 10 + DigitValue(d[|d| - 1])
  }

  /** `parseInt(s, 10)`; `None` stands for NaN. Leading whitespace is skipped,
      one sign is accepted, and the longest run of digits after it is read. */
  function ParseInt(s: string): Option<int> {
    ParseSigned(TrimStart(s))
  }

  /** `parseInt` once the whitespace is skipped: an optional sign, then the
      longest run of digits, which must not be empty. */
  function ParseSigned(t: string): Option<int> {
    var negative := |t| > 0 && t[0] == '-';
    var body := if |t| > 0 && (t[0] == '-' || t[0] == '+') then t[1..] else t;
    var digits := DigitPrefix(body);
    if |digits| == 0 then None
    else if negative then Some(-(DigitsValue(digits) as int))
    else Some(DigitsValue(digits))
  }

  /** The decimal numeral of a natural number, without leading zeros. */
  function NatString(n: nat): (r: string)
    ensures |r| > 0
    ensures forall i :: 0 <= i < |r| ==> IsDigit(r[i])
  {
    if n < 10 then [DigitChar(n)] else NatString(n / 10) + [DigitChar(n % 10)]
  }

  /** `String(n)` for an integer. */
  function IntString(n: int): string {
    if n < 0 then "-" + NatString(-n) else NatString(n)
  }

  lemma {:induction false} NatStringValue(n: nat)
    ensures DigitsValue(NatString(n)) == n
  {
    if n >= 10 {
      var r := NatString(n);
      assert r[..|r| - 1] == NatString(n / 10);
      NatStringValue(n / 10);
    }
  }

  lemma {:induction false} DigitPrefixOfDigits(d: string)
    requires forall i :: 0 <= i < |d| ==> IsDigit(d[i])
    ensures DigitPrefix(d) == d
  {
    if |d| > 0 {
      DigitPrefixOfDigits(d[1..]);
    }
  }

  lemma DigitIsNotSpace(c: char)
    requires IsDigit(c)
    ensures !IsWhitespace(c) && c != '-' && c != '+'
  {
  }

  lemma ParseSignedOfDigits(s: string)
    requires |s| > 0 && forall i :: 0 <= i < |s| ==> IsDigit(s[i])
    ensures ParseSigned(s) == Some(DigitsValue(s))
  {
    DigitIsNotSpace(s[0]);
    DigitPrefixOfDigits(s);
  }

  lemma ParseIntOfDigits(s: string)
    requires |s| > 0 && forall i :: 0 <= i < |s| ==> IsDigit(s[i])
    ensures ParseInt(s) == Some(DigitsValue(s))
  {
    DigitIsNotSpace(s[0]);
    TrimStartOfWord(s);
    ParseSignedOfDigits(s);
  }

  lemma ParseIntOfNatString(m: nat)
    ensures ParseInt(NatString(m)) == Some(m)
  {
    NatStringValue(m);
    ParseIntOfDigits(NatString(m));
  }

  lemma ParseSignedOfNegative(m: nat)
    requires m > 0
    ensures ParseSigned("-" + NatString(m)) == Some(-(m as int))
  {
    var s := "-" + NatString(m);
    assert s[0] == '-' && s[1..] == NatString(m);
    DigitPrefixOfDigits(NatString(m));
    NatStringValue(m);
  }

  lemma ParseIntOfMinus(m: nat)
    requires m > 0
    ensures ParseInt("-" + NatString(m)) == Some(-(m as int))
  {
    var s := "-" + NatString(m);
    assert s[0] == '-';
    TrimStartOfWord(s);
    ParseSignedOfNegative(m);
  }

  lemma ParseIntOfNegative(n: int)
    requires n < 0
    ensures ParseInt(IntString(n)) == Some(n)
  {
    assert IntString(n) == "-" + NatString(-n);
    ParseIntOfMinus(-n);
  }

  predicate IsLetter(c: char) {
    'a' <= c <= 'z' || 'A' <= c <= 'Z'
  }

  lemma LetterIsNotSpace(c: char)
    requires IsLetter(c)
    ensures !IsWhitespace(c) && !IsDigit(c) && c != '-' && c != '+'
  {
  }

  lemma ParseSignedOfWord(t: string)
    requires |t| > 0 && IsLetter(t[0])
    ensures ParseSigned(t) == None
  {
    LetterIsNotSpace(t[0]);
    assert DigitPrefix(t) == [];
  }

  /** A string that starts with a letter, such as "undefined", has no
      number in front. */
  lemma ParseIntOfWord(s: string)
    requires |s| > 0 && IsLetter(s[0])
    ensures ParseInt(s) == None
  {
    LetterIsNotSpace(s[0]);
    TrimStartOfWord(s);
    ParseSignedOfWord(s);
  }

  /** `parseInt` reads back the numeral `String(n)` of every integer: a limit
      sent as a decimal integer arrives unchanged. */
  lemma ParseIntOfIntString(n: int)
    ensures ParseInt(IntString(n)) == Some(n)
  {
    if n < 0 {
      ParseIntOfNegative(n);
    } else {
      assert IntString(n) == NatString(n);
      ParseIntOfNatString(n);
    }
  }

  // ---------------------------------------------------------------------------
  // typeof and numeric coercion

  predicate IsString(v: Value) {
    v.Str?
  }

  predicate IsNumber(v: Value) {
    v.Num?
  }

  /** The numeric value of a string as the `Number` coercion reads it, for
      strings that are empty or blank (0) or an optionally signed run of decimal
      digits surrounded by whitespace; `None` (NaN) otherwise. */
  function StringToNumber(s: string): Option<real> {
    var t := Trim(s);
    if |t| == 0 then Some(0.0)
    else
      var negative := t[0] == '-';
      var body := if t[0] == '-' || t[0] == '+' then t[1..] else t;
      if |body| > 0 && DigitPrefix(body) == body then
        var v := DigitsValue(body) as real;
        Some(if negative then -v else v)
      else None
  }

  /** The number a relational comparison with a number coerces `v` to;
      `None` stands for NaN, which compares false with everything. */
  function ToNumber(v: Value): Option<real> {
    match v
    case Undefined => None
    case Null => Some(0.0)
    case Bool(b) => Some(if b then 1.0 else 0.0)
    case Num(n) => Some(n)
    case Str(s) => StringToNumber(s)
    case Date(ms) => Some(ms as real)
    case Obj(_) => None
  }
}

=== FILE: leaderboard.dfy ===
/** The second leaderboard revision, the one the server mounts: no board
    exists until a game is first used, the submitted name is trimmed and
    cut to twenty characters, and the reply does not tell the rank.
    `Date.now()` is the parameter `now`. */
module Leaderboard {
  import opened Prelude
  import opened Js
  import opened Ranking

  /** The longest stored name. */
  const NameLength := 20

  /** `name.trim().slice(0, 20)`. */
  function StoredName(name: string): (r: string)
    ensures |r| <= NameLength && |r| <= |Trim(name)| && r == Trim(name)[..|r|]
    ensures |Trim(name)| <= NameLength ==> r == Trim(name)
    ensures |Trim(name)| > NameLength ==> |r| == NameLength
  {
    SliceTo(Trim(name), NameLength)
  }

  /** The accepted part of `submit`: the entry is pushed onto the game's
      board, made empty first when missing, which is then sorted and cut to
      ten. Other games' boards do not change. */
  function Push(m: Boards, gameId: string, e: Entry): (m': Boards)
    requires BoardsOk(m)
    ensures BoardsOk(m') && gameId in m'
    ensures m'.Keys == m.Keys + {gameId} && m' - {gameId} == m - {gameId}
    ensures var b := GetLeaderboard(m, gameId).1; m'[gameId] == Truncate(StableSort(b + [e]))
  {
    var (m1, b) := GetLeaderboard(m, gameId);
    PutBoard(m1, gameId, Rank(b, e).0)
  }

  /** After a push the new entry is on the board exactly when fewer than
      ten entries score at least as much; otherwise the board is as it
      was. */
  lemma PushPlaces(m: Boards, gameId: string, e: Entry)
    requires BoardsOk(m)
    ensures var b := GetLeaderboard(m, gameId).1; var b' := Push(m, gameId, e)[gameId];
      && (InsertPos(b, e) < TopN ==> InsertPos(b, e) < |b'| && b'[InsertPos(b, e)] == e)
      && (InsertPos(b, e) >= TopN ==> b' == b)
  {
    RankKeeps(GetLeaderboard(m, gameId).1, e);
  }

  /** `submit` for `POST /api/leaderboard/:gameId/submit`: an ill-typed name
      or score is refused before any board is made; otherwise the trimmed
      and shortened name is ranked with the score. */
  function Submit(m: Boards, gameId: string, body: map<string, Value>, now: int): (res: (Boards, Reply))
    requires BoardsOk(m)
    ensures BoardsOk(res.0)
    ensures var name := Get(body, "name"); var score := Get(body, "score");
      if !IsString(name) || !IsNumber(score) then
        res.0 == m && res.1.status == 400
      else
        res.0 == Push(m, gameId, Entry(StoredName(name.s), score.n, now))
        && res.1 == Reply(200, map["success" := Bool(true)])
  {
    var name := Get(body, "name");
    var score := Get(body, "score");
    if !IsString(name) || !IsNumber(score) then
      (m, Reply(400, map["error" := Str("Invalid name or score")]))
    else
      (Push(m, gameId, Entry(StoredName(name.s), score.n, now)), Reply(200, map["success" := Bool(true)]))
  }

  /** A refused submission does not even make the game's board. */
  lemma RefusedMakesNoBoard(m: Boards, gameId: string, body: map<string, Value>, now: int)
    requires BoardsOk(m) && gameId !in m
    requires !IsString(Get(body, "name")) || !IsNumber(Get(body, "score"))
    ensures gameId !in Submit(m, gameId, body, now).0
  {
  }
}

=== FILE: leaderboard_manager.dfy ===
/** The first leaderboard revision: boards made for the configured games at
    start, a submit endpoint that rejects unknown games and ill-typed
    bodies, and `addLeaderboardEntry`, which ranks a new entry and reports
    whether it made the top ten. `Date.now()` is the parameter `now`. */
module LeaderboardManager {
  import opened Prelude
  import opened Js
  import opened Ranking

  /** The constructor: an empty board for every game id. */
  function Init(gameIds: seq<string>): (m: Boards)
    ensures BoardsOk(m)
    ensures m.Keys == set id | id in gameIds
    ensures forall id :: id in m ==> m[id] == []
  {
    map id | id in gameIds :: []
  }

  /** `addLeaderboardEntry(gameId, name, score)`: the board becomes the top
      ten of the stable sort of the old board followed by the new entry, and
      the flag says whether the entry's place in that order is below ten.
      Other games' boards do not change. */
  function AddLeaderboardEntry(m: Boards, gameId: string, name: string, score: real, now: int): (res: (Boards, bool))
    requires BoardsOk(m)
    ensures BoardsOk(res.0) && gameId in res.0
    ensures res.0.Keys == m.Keys + {gameId} && res.0 - {gameId} == m - {gameId}
    ensures var b := GetLeaderboard(m, gameId).1; var e := Entry(name, score, now);
      res.0[gameId] == Truncate(StableSort(b + [e])) && (res.1 <==> InsertPos(b, e) < TopN)
  {
    var ranked := Rank(GetLeaderboard(m, gameId).1, Entry(name, score, now));
    (PutBoard(m, gameId, ranked.0), ranked.1 < TopN)
  }

  /** An entry reported in the top ten is on the board at its place; one
      that is not leaves the board unchanged. */
  lemma AddLeaderboardEntryPlaces(m: Boards, gameId: string, name: string, score: real, now: int)
    requires BoardsOk(m)
    ensures var (m', top) := AddLeaderboardEntry(m, gameId, name, score, now);
      var b := GetLeaderboard(m, gameId).1; var pos := InsertPos(b, Entry(name, score, now));
      && (top ==> pos < |m'[gameId]| && m'[gameId][pos] == Entry(name, score, now))
      && (!top ==> m'[gameId] == b)
  {
    var b := GetLeaderboard(m, gameId).1;
    RankKeeps(b, Entry(name, score, now));
  }

  /** `submit` for `POST /api/leaderboard/:gameId/submit`. The handler
      destructures `{ entry, isInTop10 }` from what `addLeaderboardEntry`
      returns, which is only the flag (`return entry, isInTop10` is a comma
      expression), so both read as undefined. */
  function Submit(m: Boards, gameId: string, body: map<string, Value>, now: int): (res: (Boards, Reply))
    requires BoardsOk(m)
    ensures BoardsOk(res.0)
    ensures var name := Get(body, "name"); var score := Get(body, "score");
      if gameId !in m || !IsString(name) || !IsNumber(score) then
        res.0 == m && res.1.status == 400
      else
        res.0 == AddLeaderboardEntry(m, gameId, name.s, score.n, now).0 && res.1.status == 200
  {
    var name := Get(body, "name");
    var score := Get(body, "score");
    if gameId !in m then
      (m, Reply(400, map["error" := Str("Invalid gameId")]))
    else if !IsString(name) || !IsNumber(score) then
      (m, Reply(400, map["error" := Str("Invalid name or score")]))
    else
      var (m', top) := AddLeaderboardEntry(m, gameId, name.s, score.n, now);
      var returned := Bool(top);
      (m', Reply(200, map["success" := Bool(true), "entry" := FieldOf(returned, "entry"),
                          "isInTop10" := FieldOf(returned, "isInTop10")]))
  }

  /** An accepted submission replies with success only: the entry and the
      top-ten flag come back undefined, whatever the ranking. */
  lemma SubmitHidesRank(m: Boards, gameId: string, body: map<string, Value>, now: int)
    requires BoardsOk(m) && gameId in m && IsString(Get(body, "name")) && IsNumber(Get(body, "score"))
    ensures var reply := Submit(m, gameId, body, now).1;
      reply.body["success"] == Bool(true) && reply.body["entry"] == Undefined && reply.body["isInTop10"] == Undefined
  {
  }
}

=== FILE: plugins.dfy ===
/** The game plugins a game registry dispatches to: the template game and the
    dice game. A plugin is an object with `create(room)`, `update(io, room,
    outState)` and an `isPersistent` flag; the dice game also remembers the
    board size of the room it created last. Each plugin reads its level file
    when it creates a room; the file's content is part of the plugin value. */
module Plugins {
  import opened Prelude
  import opened Js
  import opened HexGrid
  import opened Entities
  import opened Rooms
  import BasicGame
  import CreationGame

  datatype Plugin =
    | Basic(level: Level)
    | Creation(level: Level, size: nat)

  /** A level file holds JSON, so no thing of it holds a board yet; the dice
      game's level has a camera with a `transform` object to place. */
  predicate PluginOk(p: Plugin) {
    && (forall t :: t in p.level.things ==> t.data.Plain?)
    && (p.Creation? ==> CreationGame.CameraOk(p.level.camera))
  }

  /** `instance.isPersistent`: both plugins declare `false`, so their empty
      rooms are destroyed. */
  function Persistent(p: Plugin): (b: bool)
    ensures !b
  {
    match p
    case Basic(_) => false
    case Creation(_, _) => false
  }

  /** `instance.create(room)` on a freshly made room: the lobby is left alone,
      any other room loads the level. */
  function Create(p: Plugin, r: Room): (res: (Plugin, Room))
    requires PluginOk(p)
    ensures PluginOk(res.0) && res.0.level == p.level && res.0.Basic? == p.Basic?
    ensures res.1.players == r.players && res.1.playerOrder == r.playerOrder
    ensures res.1.roomId == r.roomId && res.1.roomName == r.roomName && res.1.gameOver == r.gameOver
    ensures r.roomId == "lobby" ==> res == (p, r)
    ensures r.roomId != "lobby" ==> !res.1.started && res.1.timer == 0 && res.1.currentPlayerIndex == 0
    ensures p.Creation? && r.roomId != "lobby" ==> res.0.size == CreationGame.BoardSize(r.roomId)
  {
    match p
    case Basic(level) => (p, BasicGame.Create(r, level))
    case Creation(level, size) =>
      var (size', r') := CreationGame.Create(size, r, level);
      (Creation(level, size'), r')
  }

  /** Creating a room keeps the room invariant, with valid boards and
      non-negative stats. */
  lemma CreateKept(p: Plugin, r: Room)
    requires PluginOk(p) && CreationGame.Inv(r)
    ensures CreationGame.Inv(Create(p, r).1)
  {
    var r' := Create(p, r).1;
    if r.roomId != "lobby" {
      match p
      case Basic(level) =>
        forall k | k in r'.things && r'.things[k].ThingEntity? && r'.things[k].thing.data.GridData?
          ensures Valid(r'.things[k].thing.data.grid)
        {
          BasicBoards(r.things, level.things, k);
        }
      case Creation(level, size) =>
        CreationGame.OnFetchOk(r, level, CreationGame.BoardSize(r.roomId));
    }
  }

  /** `aiPlayerMax()` answers the board size of the room the dice game
      created last: the size its name picks, from 1 to 5, and unchanged by
      the lobby. */
  lemma AiPlayerMaxAfterCreate(p: Plugin, r: Room)
    requires PluginOk(p) && p.Creation?
    ensures Create(p, r).0.Creation?
    ensures r.roomId == "lobby" ==> CreationGame.AiPlayerMax(Create(p, r).0.size) == CreationGame.AiPlayerMax(p.size)
    ensures r.roomId != "lobby" ==> CreationGame.AiPlayerMax(Create(p, r).0.size) == CreationGame.BoardSize(r.roomId)
    ensures r.roomId != "lobby" ==> 1 <= CreationGame.AiPlayerMax(Create(p, r).0.size) <= 5
  {
  }

  /** A board stored while loading the template game's level was already in
      the room. */
  lemma {:induction false} BasicBoards(m: map<string, Entity>, ts: seq<Thing>, k: string)
    requires forall t :: t in ts ==> t.data.Plain?
    requires var m' := InsertThings(m, ts); k in m' && m'[k].ThingEntity? && m'[k].thing.data.GridData?
    ensures k in m && InsertThings(m, ts)[k] == m[k]
    decreases |ts|
  {
    if |ts| > 0 {
      assert ts[0] in ts;
      BasicBoards(m[ts[0].id := ThingEntity(ts[0])], ts[1..], k);
    }
  }

  /** `instance.update(io, room, outState)`: the template game never throws
      and never reports positions. */
  function Update(p: Plugin, r: Room, d: CreationGame.Draws): (o: CreationGame.Outcome)
    requires RoomOk(r)
    ensures p.Basic? ==> o == CreationGame.Done(BasicGame.Update(r), [])
    ensures p.Creation? ==> o == CreationGame.Update(r, d)
  {
    match p
    case Basic(_) => CreationGame.Done(BasicGame.Update(r), [])
    case Creation(_, _) => CreationGame.Update(r, d)
  }

  /** A tick of either plugin keeps the invariant, adds no player and keeps
      the room's id and name. */
  lemma UpdateKept(p: Plugin, r: Room, d: CreationGame.Draws)
    requires CreationGame.Inv(r)
    ensures var r' := Update(p, r, d).room;
      && CreationGame.Inv(r') && r'.players.Keys <= r.players.Keys
      && r'.roomId == r.roomId && r'.roomName == r.roomName
  {
    if p.Creation? {
      CreationGame.UpdateKept(r, d);
    }
  }
}

=== FILE: prelude.dfy ===
/** Small generic vocabulary shared by the other modules: an optional value,
    duplicate-free sequences that enumerate a set, and order-preserving
    filtering of sequences. */
module Prelude {

  datatype Option<+T> = None | Some(value: T) {
    function GetOr(default: T): T {
      match this
      case Some(v) => v
      case None => default
    }
  }

  /** No element occurs twice. */
  predicate NoDup<T(==)>(s: seq<T>) {
    forall i, j :: 0 <= i < j < |s| ==> s[i] != s[j]
  }

  /** `s` lists every element of `keys` exactly once: the shape of
      `Object.keys(o)` for an object whose key set is `keys`. Stated
      recursively; `EnumeratesIff` gives the element-wise reading. */
  ghost predicate Enumerates<T>(s: seq<T>, keys: set<T>)
    decreases |s|
  {
    if |s| == 0 then keys == {} else s[0] in keys && Enumerates(s[1..], keys - {s[0]})
  }

  /** The elements of `s` that satisfy `p`, in their original order. */
  function Filter<T(!new)>(p: T -> bool, s: seq<T>): (r: seq<T>)
    ensures |r| <= |s|
    ensures forall x :: x in r <==> x in s && p(x)
  {
    if |s| == 0 then []
    else if p(s[0]) then [s[0]] + Filter(p, s[1..])
    else Filter(p, s[1..])
  }

  /** `sub` is obtained from `s` by deleting some elements. */
  ghost predicate IsSubsequence<T>(sub: seq<T>, s: seq<T>)
    decreases |s|
  {
    if |sub| == 0 then true
    else if |s| == 0 then false
    else if sub[0] == s[0] then IsSubsequence(sub[1..], s[1..])
    else IsSubsequence(sub, s[1..])
  }

  lemma {:induction false} FilterIsSubsequence<T(!new)>(p: T -> bool, s: seq<T>)
    ensures IsSubsequence(Filter(p, s), s)
  {
    if |s| > 0 {
      FilterIsSubsequence(p, s[1..]);
      if !p(s[0]) {
        SubsequenceOfTail(Filter(p, s[1..]), s);
      }
    }
  }

  lemma {:induction false} SubsequenceOfTail<T>(sub: seq<T>, s: seq<T>)
    requires |s| > 0
    requires IsSubsequence(sub, s[1..])
    ensures IsSubsequence(sub, s)
    decreases |s|, |sub|
  {
    if |sub| > 0 && sub[0] == s[0] {
      SubsequenceDropHead(sub, s[1..]);
    }
  }

  lemma {:induction false} SubsequenceDropHead<T>(sub: seq<T>, s: seq<T>)
    requires |sub| > 0
    requires IsSubsequence(sub, s)
    ensures IsSubsequence(sub[1..], s)
    decreases |s|, |sub|
  {
    if sub[0] == s[0] {
      SubsequenceOfTail(sub[1..], s);
    } else {
      SubsequenceDropHead(sub, s[1..]);
      SubsequenceOfTail(sub[1..], s);
    }
  }

  /** Filtering distributes over concatenation. */
  lemma {:induction false} FilterAppend<T(!new)>(p: T -> bool, a: seq<T>, b: seq<T>)
    ensures Filter(p, a + b) == Filter(p, a) + Filter(p, b)
  {
    if |a| > 0 {
      assert (a + b)[0] == a[0] && (a + b)[1..] == a[1..] + b;
      FilterAppend(p, a[1..], b);
      if p(a[0]) {
        assert Filter(p, a + b) == [a[0]] + Filter(p, a[1..] + b);
      }
    } else {
      assert a + b == b;
    }
  }

  /** Filtering with a predicate every element satisfies changes nothing. */
  lemma {:induction false} FilterAll<T(!new)>(p: T -> bool, s: seq<T>)
    requires forall i :: 0 <= i < |s| ==> p(s[i])
    ensures Filter(p, s) == s
  {
    if |s| > 0 {
      FilterAll(p, s[1..]);
    }
  }

  /** `s` without the occurrences of `x`. */
  function Remove<T(==,!new)>(s: seq<T>, x: T): (r: seq<T>)
    ensures forall y :: y in r <==> y in s && y != x
    ensures NoDup(s) ==> NoDup(r)
    ensures x !in s ==> r == s
  {
    if |s| == 0 then []
    else if s[0] == x then Remove(s[1..], x)
    else
      var rest := Remove(s[1..], x);
      assert NoDup(s) ==> s[0] !in s[1..];
      [s[0]] + rest
  }

  /** Removing an element keeps the others in their order. */
  lemma {:induction false} RemoveSubsequence<T(!new)>(s: seq<T>, x: T)
    ensures IsSubsequence(Remove(s, x), s)
    decreases |s|
  {
    if |s| > 0 {
      RemoveSubsequence(s[1..], x);
      if s[0] == x {
        SubsequenceOfTail(Remove(s[1..], x), s);
      } else {
        assert Remove(s, x)[1..] == Remove(s[1..], x);
      }
    }
  }

  /** Appends `x` unless it is already listed, as assigning a new key to a
      JavaScript object appends it to the key order and re-assigning an
      existing key keeps its position. */
  function AddKey<T(==,!new)>(s: seq<T>, x: T): (r: seq<T>)
    ensures forall y :: y in r <==> y in s || y == x
    ensures NoDup(s) ==> NoDup(r)
    ensures x in s ==> r == s
  {
    if x in s then s else s + [x]
  }

  /** `Enumerates` means: no duplicates, and the elements are exactly the
      keys. */
  lemma {:induction false} EnumeratesIff<T>(s: seq<T>, keys: set<T>)
    ensures Enumerates(s, keys) <==> NoDup(s) && forall x :: x in s <==> x in keys
    decreases |s|
  {
    if |s| > 0 {
      var rest := s[1..];
      EnumeratesIff(rest, keys - {s[0]});
      assert s == [s[0]] + rest;
      assert forall x :: x in s <==> x == s[0] || x in rest;
      if NoDup(s) && (forall x :: x in s <==> x in keys) {
        assert forall j :: 0 <= j < |rest| ==> rest[j] == s[j + 1];
        assert NoDup(rest) by {
          forall i, j | 0 <= i < j < |rest| ensures rest[i] != rest[j] {
            assert rest[i] == s[i + 1] && rest[j] == s[j + 1];
          }
        }
      }
      if Enumerates(s, keys) {
        assert s[0] !in rest;
        forall i, j | 0 <= i < j < |s| ensures s[i] != s[j] {
          if i > 0 {
            assert s[i] == rest[i - 1] && s[j] == rest[j - 1];
          } else {
            assert s[j] == rest[j - 1];
          }
        }
      }
    } else {
      assert forall x :: x !in s;
    }
  }

  /** Appending a new key keeps the enumeration. */
  lemma EnumeratesAddKey<T(!new)>(s: seq<T>, keys: set<T>, x: T)
    requires Enumerates(s, keys)
    ensures Enumerates(AddKey(s, x), keys + {x})
  {
    EnumeratesIff(s, keys);
    EnumeratesIff(AddKey(s, x), keys + {x});
  }

  /** Dropping a key keeps the enumeration. */
  lemma EnumeratesRemove<T(!new)>(s: seq<T>, keys: set<T>, x: T)
    requires Enumerates(s, keys)
    ensures Enumerates(Remove(s, x), keys - {x})
  {
    EnumeratesIff(s, keys);
    EnumeratesIff(Remove(s, x), keys - {x});
  }

  lemma {:induction false} EnumerationLength<T>(s: seq<T>, keys: set<T>)
    requires Enumerates(s, keys)
    ensures |s| == |keys|
    decreases |s|
  {
    if |s| > 0 {
      EnumerationLength(s[1..], keys - {s[0]});
    }
  }

  /** Storing under `k` changes nothing outside `k`. */
  lemma PutOutside<K, V>(m: map<K, V>, k: K, v: V)
    ensures m[k := v] - {k} == m - {k}
  {
  }

  /** Two maps that agree outside `s` agree outside any superset of `s`. */
  lemma AgreeOutside<K, V>(m1: map<K, V>, m2: map<K, V>, s: set<K>, t: set<K>)
    requires m1 - s == m2 - s && s <= t
    ensures m1 - t == m2 - t
  {
    forall k | k !in t
      ensures (k in m1 <==> k in m2) && (k in m1 ==> m1[k] == m2[k])
    {
      assert k in m1 - s <==> k in m1;
      assert k in m2 - s <==> k in m2;
      if k in m1 {
        assert (m1 - s)[k] == m1[k];
      }
    }
  }
}

=== FILE: profile_manager.dfy ===
/** Player profiles: a plain object per id, merged shallowly on update, with
    handlers that adjust numeric stats and credits. A profile is held as its
    fields; values are JavaScript values, amounts are numbers. `new Date()`
    is the parameter `now`. */
module ProfileManager {
  import opened Prelude
  import opened Js

  type Fields = map<string, Value>

  type Profiles = map<string, Fields>

  /** The own fields `{ ...v }` copies: those of a plain object, none of
      `null`, `undefined`, a number, a boolean or a date. */
  function Spread(v: Value): (f: Fields)
    ensures v.Obj? ==> f == v.fields
    ensures !v.Obj? ==> f == map[]
  {
    match v
    case Obj(fields) => fields
    case _ => map[]
  }

  /** `setProfile(id, profile)`: `{ ...current, ...profile }`, where the
      current profile is empty when there is none. */
  function SetProfile(ps: Profiles, id: string, profile: Value): (ps': Profiles)
    ensures id in ps' && ps' - {id} == ps - {id}
    ensures forall k :: k in ps'[id] <==> k in Spread(profile) || (id in ps && k in ps[id])
    ensures forall k :: k in Spread(profile) ==> ps'[id][k] == Spread(profile)[k]
    ensures id in ps ==> forall k :: k in ps[id] && k !in Spread(profile) ==> ps'[id][k] == ps[id][k]
  {
    var current := if id in ps then ps[id] else map[];
    ps[id := current + Spread(profile)]
  }

  /** Setting the same data twice is setting it once. */
  lemma SetProfileIdempotent(ps: Profiles, id: string, profile: Value)
    ensures SetProfile(SetProfile(ps, id, profile), id, profile) == SetProfile(ps, id, profile)
  {
    var once := SetProfile(ps, id, profile);
    var twice := SetProfile(once, id, profile);
    assert twice[id] == once[id];
    assert twice - {id} == once - {id};
    assert twice.Keys == once.Keys;
  }

  /** Merging with an object that has every current field yields that
      object: what the handlers do when they write back the stored profile
      they have just changed. */
  lemma SetProfileCovering(ps: Profiles, id: string, p: Fields)
    requires id in ps && ps[id].Keys <= p.Keys
    ensures SetProfile(ps, id, Obj(p)) == ps[id := p]
  {
    assert (ps[id] + p) == p;
  }

  /** `getProfile(id)`: the stored object, or `null`. */
  function GetProfile(ps: Profiles, id: string): (r: Option<Fields>)
    ensures r.None? <==> id !in ps
    ensures r.Some? ==> r.value == ps[id]
  {
    if id in ps then Some(ps[id]) else None
  }

  /** `createProfile(id, name)`: a new profile replaces any old one. */
  function CreateProfile(ps: Profiles, id: string, name: Value, now: int): (ps': Profiles)
    ensures ps' - {id} == ps - {id} && id in ps'
    ensures ps'[id].Keys == {"id", "name", "credits", "createdAt", "stats"}
    ensures ps'[id]["name"] == (if Truthy(name) then name else Str("Anonymous"))
    ensures ps'[id]["credits"] == Num(0.0) && ps'[id]["stats"] == Obj(map[]) && ps'[id]["id"] == Str(id)
  {
    ps[id := map["id" := Str(id), "name" := Or(name, Str("Anonymous")), "credits" := Num(0.0),
                 "createdAt" := Date(now), "stats" := Obj(map[])]]
  }

  /** A created profile reads back with an empty stats object, whatever was
      stored before. */
  lemma CreateThenGet(ps: Profiles, id: string, now: int)
    ensures var p := GetProfile(CreateProfile(ps, id, Undefined, now), id);
      p.Some? && p.value["name"] == Str("Anonymous") && Spread(p.value["stats"]) == map[]
  {
  }

  // ---------------------------------------------------------------------------
  // Stat and credit handlers. Each does nothing for an absent profile.
  // `None` marks a run that does not complete inside the model: assigning a
  // stat on a `stats` value that is a non-object truthy primitive throws a
  // TypeError (class code is strict), and `+` on a string concatenates.

  /** `updateStats`: `profile.stats = { ...profile.stats, ...stats }`, then
      the profile is set again. */
  function UpdateStats(ps: Profiles, id: string, stats: Value): (ps': Profiles)
    ensures id !in ps ==> ps' == ps
    ensures id in ps ==>
      && ps'.Keys == ps.Keys && ps' - {id} == ps - {id}
      && ps'[id] == ps[id]["stats" := Obj(Spread(Get(ps[id], "stats")) + Spread(stats))]
  {
    if id !in ps then ps
    else
      var p := ps[id];
      var p' := p["stats" := Obj(Spread(Get(p, "stats")) + Spread(stats))];
      SetProfileCovering(ps, id, p');
      SetProfile(ps, id, Obj(p'))
  }

  /** The given stats override, the other stats stay. */
  lemma UpdateStatsOverlays(ps: Profiles, id: string, stats: Value, key: string)
    requires id in ps
    ensures var now := Spread(UpdateStats(ps, id, stats)[id]["stats"]);
      && (key in Spread(stats) ==> now[key] == Spread(stats)[key])
      && (key !in Spread(stats) ==> Get(now, key) == Get(Spread(Get(ps[id], "stats")), key))
  {
  }

  /** The stat `key` of a profile; undefined when absent. */
  function Stat(p: Fields, key: string): Value {
    Get(Spread(Get(p, "stats")), key)
  }

  /** `profile.stats = profile.stats || {}`: the object the stat is written
      into, or `None` when `stats` is a truthy non-object. */
  function StatHolder(p: Fields): (h: Option<Fields>)
    ensures h.None? <==> Truthy(Get(p, "stats")) && !Get(p, "stats").Obj?
    ensures h.Some? ==> forall key :: Get(h.value, key) == Stat(p, key)
  {
    var h := Or(Get(p, "stats"), Obj(map[]));
    if h.Obj? then Some(h.fields) else None
  }

  /** `a + n` for a number `n`, when it is numeric addition with a finite
      result: `None` for `undefined` (NaN) and for the operands that turn it
      into string concatenation (strings, objects, dates). */
  function Plus(a: Value, n: real): (r: Option<Value>)
    ensures a.Num? ==> r == Some(Num(a.n + n))
    ensures r.Some? ==> r.value.Num? && ToNumber(a).Some? && r.value.n == ToNumber(a).value + n
  {
    match a
    case Num(x) => Some(Num(x + n))
    case Bool(b) => Some(Num((if b then 1.0 else 0.0) + n))
    case Null => Some(Num(n))
    case _ => None
  }

  /** `a - n`: numeric subtraction after coercion; `None` stands for NaN. */
  function Minus(a: Value, n: real): (r: Option<Value>)
    ensures r.Some? <==> ToNumber(a).Some?
    ensures r.Some? ==> r.value == Num(ToNumber(a).value - n)
  {
    match ToNumber(a)
    case None => None
    case Some(x) => Some(Num(x - n))
  }

  /** The common shape of `incrementStat` and `decrementStat`: the stat,
      absent or falsy read as 0, is replaced by `f` of it, and the profile is
      set again. */
  function AdjustStat(ps: Profiles, id: string, key: string, f: Value -> Option<Value>): (r: Option<Profiles>)
    ensures id !in ps ==> r == Some(ps)
    ensures id in ps && r.Some? ==>
      && r.value.Keys == ps.Keys && r.value - {id} == ps - {id}
      && f(Or(Stat(ps[id], key), Num(0.0))).Some?
      && Stat(r.value[id], key) == f(Or(Stat(ps[id], key), Num(0.0))).value
      && (forall k :: k != key ==> Stat(r.value[id], k) == Stat(ps[id], k))
      && ps[id] - {"stats"} == r.value[id] - {"stats"}
    ensures id in ps && r.None? ==> StatHolder(ps[id]).None? || f(Or(Stat(ps[id], key), Num(0.0))).None?
  {
    if id !in ps then Some(ps)
    else
      var p := ps[id];
      match StatHolder(p)
      case None => None
      case Some(st) =>
        match f(Or(Get(st, key), Num(0.0)))
        case None => None
        case Some(v) =>
          var p' := p["stats" := Obj(st[key := v])];
          SetProfileCovering(ps, id, p');
          Some(SetProfile(ps, id, Obj(p')))
  }

  /** `incrementStat(id, statKey, amount)`. */
  function IncrementStat(ps: Profiles, id: string, key: string, amount: real): (r: Option<Profiles>)
    ensures id !in ps ==> r == Some(ps)
    ensures r.Some? ==> r.value.Keys == ps.Keys
    ensures id in ps && Stat(ps[id], key).Num? ==> r.Some? && Stat(r.value[id], key) == Num(Stat(ps[id], key).n + amount)
    ensures id in ps && Stat(ps[id], key) == Undefined && StatHolder(ps[id]).Some? ==>
      r.Some? && Stat(r.value[id], key) == Num(amount)
  {
    AdjustStat(ps, id, key, v => Plus(v, amount))
  }

  /** `decrementStat(id, statKey, amount)`. */
  function DecrementStat(ps: Profiles, id: string, key: string, amount: real): (r: Option<Profiles>)
    ensures id !in ps ==> r == Some(ps)
    ensures r.Some? ==> r.value.Keys == ps.Keys
    ensures id in ps && Stat(ps[id], key).Num? ==> r.Some? && Stat(r.value[id], key) == Num(Stat(ps[id], key).n - amount)
    ensures id in ps && Stat(ps[id], key) == Undefined && StatHolder(ps[id]).Some? ==>
      r.Some? && Stat(r.value[id], key) == Num(-amount)
  {
    AdjustStat(ps, id, key, v => Minus(v, amount))
  }

  /** Incrementing a numeric stat and decrementing it by the same amount
      gives back the same profiles. */
  lemma IncrementDecrement(ps: Profiles, id: string, key: string, amount: real)
    requires id in ps && Stat(ps[id], key).Num?
    ensures var up := IncrementStat(ps, id, key, amount);
      up.Some? && DecrementStat(up.value, id, key, amount) == Some(ps)
  {
    var p := ps[id];
    var st := Spread(Get(p, "stats"));
    assert Get(p, "stats").Obj?;
    var up := IncrementStat(ps, id, key, amount).value;
    var down := DecrementStat(up, id, key, amount).value;
    assert down[id]["stats"] == Obj(st[key := Num(Stat(p, key).n)]);
    assert st[key := Num(Stat(p, key).n)] == st;
    assert down[id] == p;
    assert down == ps;
  }

  /** The common shape of `addCredits` and `subtractCredits`. */
  function AdjustCredits(ps: Profiles, id: string, f: Value -> Option<Value>): (r: Option<Profiles>)
    ensures id !in ps ==> r == Some(ps)
    ensures id in ps ==> (r.Some? <==> f(Or(Get(ps[id], "credits"), Num(0.0))).Some?)
    ensures id in ps && r.Some? ==>
      && r.value.Keys == ps.Keys && r.value - {id} == ps - {id}
      && r.value[id] == ps[id]["credits" := f(Or(Get(ps[id], "credits"), Num(0.0))).value]
  {
    if id !in ps then Some(ps)
    else
      var p := ps[id];
      match f(Or(Get(p, "credits"), Num(0.0)))
      case None => None
      case Some(v) =>
        var p' := p["credits" := v];
        SetProfileCovering(ps, id, p');
        Some(SetProfile(ps, id, Obj(p')))
  }

  /** `addCredits(id, amount)`. */
  function AddCredits(ps: Profiles, id: string, amount: real): (r: Option<Profiles>)
    ensures id !in ps ==> r == Some(ps)
    ensures r.Some? ==> r.value.Keys == ps.Keys
    ensures id in ps && Credits(ps[id]).Some? ==> r.Some? && Credits(r.value[id]) == Some(Credits(ps[id]).value + amount)
  {
    AdjustCredits(ps, id, v => Plus(v, amount))
  }

  /** `subtractCredits(id, amount)`: there is no floor at zero. */
  function SubtractCredits(ps: Profiles, id: string, amount: real): (r: Option<Profiles>)
    ensures id !in ps ==> r == Some(ps)
    ensures r.Some? ==> r.value.Keys == ps.Keys
    ensures id in ps && Credits(ps[id]).Some? ==> r.Some? && Credits(r.value[id]) == Some(Credits(ps[id]).value - amount)
  {
    AdjustCredits(ps, id, v => Minus(v, amount))
  }

  /** The numeric credits of a profile, absent or falsy read as 0; `None`
      when they are not a number. */
  function Credits(p: Fields): Option<real> {
    var c := Or(Get(p, "credits"), Num(0.0));
    if c.Num? then Some(c.n) else None
  }

  /** A fresh profile that spends more than it has goes negative. */
  lemma CreditsGoNegative(ps: Profiles, id: string, now: int, amount: real)
    requires amount > 0.0
    ensures var r := SubtractCredits(CreateProfile(ps, id, Undefined, now), id, amount);
      r.Some? && Credits(r.value[id]) == Some(-amount) && Credits(r.value[id]).value < 0.0
  {
  }

  /** `setCredits(id, amount)`. */
  function SetCredits(ps: Profiles, id: string, amount: Value): (ps': Profiles)
    ensures id !in ps ==> ps' == ps
    ensures id in ps ==> ps' == ps[id := ps[id]["credits" := amount]]
  {
    if id !in ps then ps
    else
      var p' := ps[id]["credits" := amount];
      SetProfileCovering(ps, id, p');
      SetProfile(ps, id, Obj(p'))
  }

  /** `getCredits(id, callback)`: the value passed to the callback, which is
      not called for an absent profile. */
  function GetCredits(ps: Profiles, id: string): (r: Option<Value>)
    ensures r.None? <==> id !in ps
    ensures r.Some? ==> Truthy(r.value) || r.value == Num(0.0)
  {
    if id in ps then Some(Or(Get(ps[id], "credits"), Num(0.0))) else None
  }

  /** Credits set and read back are the credits set, unless falsy, which
      read as 0. */
  lemma SetThenGetCredits(ps: Profiles, id: string, amount: Value)
    requires id in ps
    ensures GetCredits(SetCredits(ps, id, amount), id) == Some(if Truthy(amount) then amount else Num(0.0))
  {
  }
}

=== FILE: ranking.dfy ===
/** The ranking both leaderboard revisions keep: entries sorted by
    descending score with `sort((a, b) => b.score - a.score)`, which
    `Array.prototype.sort` performs stably, cut to the top ten. */
module Ranking {
  import opened Prelude
  import opened Js

  /** `{ name, score, timestamp }`; `timestamp` is the `Date.now()` of the
      submission. */
  datatype Entry = Entry(name: string, score: real, timestamp: int)

  /** The most entries a board keeps. */
  const TopN := 10

  /** Non-increasing by score. */
  predicate Sorted(s: seq<Entry>) {
    forall i, j :: 0 <= i < j < |s| ==> s[i].score >= s[j].score
  }

  /** A board as the handlers leave it: sorted and at most ten long. */
  predicate BoardOk(b: seq<Entry>) {
    Sorted(b) && |b| <= TopN
  }

  /** Where a new entry goes among `b`: in front of the first entry with a
      lower score, so after every entry with the same score. */
  function InsertPos(b: seq<Entry>, e: Entry): (pos: nat)
    ensures pos <= |b|
    ensures forall i :: 0 <= i < pos ==> b[i].score >= e.score
    ensures pos < |b| ==> b[pos].score < e.score
  {
    if |b| == 0 || b[0].score < e.score then 0 else 1 + InsertPos(b[1..], e)
  }

  /** One step of insertion sort: `e` placed at `InsertPos`, everything
      else in its order. */
  function Insert(b: seq<Entry>, e: Entry): (r: seq<Entry>)
    ensures |r| == |b| + 1 && r[InsertPos(b, e)] == e
    ensures forall i {:trigger r[i]} :: 0 <= i < InsertPos(b, e) ==> r[i] == b[i]
    ensures forall i {:trigger r[i]} :: InsertPos(b, e) < i < |r| ==> r[i] == b[i - 1]
  {
    var pos := InsertPos(b, e);
    b[..pos] + [e] + b[pos..]
  }

  /** Inserting into a sorted board keeps it sorted and adds exactly the
      new entry. */
  lemma InsertSorted(b: seq<Entry>, e: Entry)
    requires Sorted(b)
    ensures Sorted(Insert(b, e))
    ensures multiset(Insert(b, e)) == multiset(b) + multiset{e}
  {
    InsertOrdered(b, e);
    InsertPermutes(b, e);
  }

  lemma InsertOrdered(b: seq<Entry>, e: Entry)
    requires Sorted(b)
    ensures Sorted(Insert(b, e))
  {
    var pos := InsertPos(b, e);
    var r := Insert(b, e);
    forall i, j | 0 <= i < j < |r| ensures r[i].score >= r[j].score {
      if j < pos {
        assert r[i] == b[i] && r[j] == b[j];
      } else if i > pos {
        assert r[i] == b[i - 1] && r[j] == b[j - 1];
      } else if i == pos {
        assert r[j] == b[j - 1];
      } else if j == pos {
        assert r[i] == b[i];
      } else {
        assert r[i] == b[i] && r[j] == b[j - 1];
      }
    }
  }

  lemma InsertPermutes(b: seq<Entry>, e: Entry)
    ensures multiset(Insert(b, e)) == multiset(b) + multiset{e}
  {
    var pos := InsertPos(b, e);
    assert Insert(b, e) == b[..pos] + [e] + b[pos..];
    assert b == b[..pos] + b[pos..];
  }

  /** The reference order: stable insertion sort by descending score, each
      later element placed after the earlier ones of equal score. */
  function StableSort(s: seq<Entry>): (r: seq<Entry>)
    ensures Sorted(r)
    ensures multiset(r) == multiset(s)
    decreases |s|
  {
    if |s| == 0 then []
    else
      var init := s[..|s| - 1];
      var sorted := StableSort(init);
      InsertSorted(sorted, s[|s| - 1]);
      MultisetOfLast(s);
      Insert(sorted, s[|s| - 1])
  }

  lemma MultisetOfLast(s: seq<Entry>)
    requires |s| > 0
    ensures multiset(s) == multiset(s[..|s| - 1]) + multiset{s[|s| - 1]}
  {
    assert s == s[..|s| - 1] + [s[|s| - 1]];
  }

  /** The entries of `s` with score `v`, in their order. */
  function OfScore(s: seq<Entry>, v: real): seq<Entry>
    decreases |s|
  {
    if |s| == 0 then [] else (if s[0].score == v then [s[0]] else []) + OfScore(s[1..], v)
  }

  lemma {:induction false} OfScoreAppend(a: seq<Entry>, b: seq<Entry>, v: real)
    ensures OfScore(a + b, v) == OfScore(a, v) + OfScore(b, v)
    decreases |a|
  {
    if |a| == 0 {
      assert a + b == b;
    } else {
      var h := if a[0].score == v then [a[0]] else [];
      assert (a + b)[0] == a[0] && (a + b)[1..] == a[1..] + b;
      OfScoreAppend(a[1..], b, v);
      assert OfScore(a + b, v) == h + (OfScore(a[1..], v) + OfScore(b, v));
      assert OfScore(a, v) == h + OfScore(a[1..], v);
    }
  }

  lemma {:induction false} OfScoreNone(s: seq<Entry>, v: real)
    requires forall i :: 0 <= i < |s| ==> s[i].score < v
    ensures OfScore(s, v) == []
    decreases |s|
  {
    if |s| > 0 {
      OfScoreNone(s[1..], v);
    }
  }

  /** Behind the insertion point of a sorted board every score is lower. */
  lemma TailBelow(b: seq<Entry>, e: Entry)
    requires Sorted(b)
    ensures forall k :: InsertPos(b, e) <= k < |b| ==> b[k].score < e.score
  {
    var pos := InsertPos(b, e);
    forall k | pos <= k < |b| ensures b[k].score < e.score {
      assert b[k].score <= b[pos].score;
    }
  }

  /** Both the board and the board with `e` inserted, split at the
      insertion point. */
  lemma OfScoreAround(b: seq<Entry>, e: Entry, v: real)
    ensures var pos := InsertPos(b, e);
      && OfScore(Insert(b, e), v) == OfScore(b[..pos], v) + OfScore([e], v) + OfScore(b[pos..], v)
      && OfScore(b, v) == OfScore(b[..pos], v) + OfScore(b[pos..], v)
  {
    var pos := InsertPos(b, e);
    var lo, hi := b[..pos], b[pos..];
    assert Insert(b, e) == lo + [e] + hi;
    OfScoreAppend(lo + [e], hi, v);
    OfScoreAppend(lo, [e], v);
    assert b == lo + hi;
    OfScoreAppend(lo, hi, v);
  }

  /** Restricted to one score, inserting into a sorted board appends: the
      new entry comes after the earlier entries of its score. */
  lemma InsertOfScore(b: seq<Entry>, e: Entry, v: real)
    requires Sorted(b)
    ensures OfScore(Insert(b, e), v) == OfScore(b, v) + OfScore([e], v)
  {
    var pos := InsertPos(b, e);
    OfScoreAround(b, e, v);
    if e.score == v {
      TailBelow(b, e);
      OfScoreNone(b[pos..], v);
      assert OfScore(b, v) == OfScore(b[..pos], v) + [];
    } else {
      assert OfScore([e], v) == [] by {
        assert [e][1..] == [];
      }
    }
  }

  /** Equal scores keep their order: restricted to any one score, the sort
      is the identity. */
  lemma {:induction false} StableSortStable(s: seq<Entry>, v: real)
    ensures OfScore(StableSort(s), v) == OfScore(s, v)
    decreases |s|
  {
    if |s| > 0 {
      var init := s[..|s| - 1];
      var e := s[|s| - 1];
      StableSortStable(init, v);
      InsertOfScore(StableSort(init), e, v);
      assert s == init + [e];
      OfScoreAppend(init, [e], v);
    }
  }

  /** A sorted sequence is its own stable sort. */
  lemma {:induction false} StableSortOfSorted(s: seq<Entry>)
    requires Sorted(s)
    ensures StableSort(s) == s
    decreases |s|
  {
    if |s| > 0 {
      var init := s[..|s| - 1];
      var e := s[|s| - 1];
      assert Sorted(init) by {
        assert forall i :: 0 <= i < |init| ==> init[i] == s[i];
      }
      StableSortOfSorted(init);
      InsertAtEnd(init, e);
      assert s == init + [e];
    }
  }

  /** An entry scoring no higher than the whole board goes last. */
  lemma InsertAtEnd(b: seq<Entry>, e: Entry)
    requires forall i :: 0 <= i < |b| ==> b[i].score >= e.score
    ensures Insert(b, e) == b + [e]
  {
    assert InsertPos(b, e) == |b|;
    assert b[..|b|] == b;
  }

  /** `lb.length = 10` when longer. */
  function Truncate(b: seq<Entry>): (r: seq<Entry>)
    ensures |r| <= TopN && |r| <= |b| && r == b[..|r|]
    ensures |b| <= TopN ==> r == b
  {
    if |b| > TopN then b[..TopN] else b
  }

  /** The board after adding one entry: push, sort, truncate. Also tells
      where the entry landed before the cut. */
  function Rank(b: seq<Entry>, e: Entry): (res: (seq<Entry>, nat))
    requires BoardOk(b)
    ensures BoardOk(res.0)
    ensures res.0 == Truncate(StableSort(b + [e])) && res.1 == InsertPos(b, e)
  {
    InsertSorted(b, e);
    StableSortOfSorted(b);
    assert StableSort(b + [e]) == Insert(b, e) by {
      assert (b + [e])[..|b|] == b;
    }
    (Truncate(Insert(b, e)), InsertPos(b, e))
  }

  /** The entry stays on the board exactly when it lands among the first
      ten; one that does not leaves the board as it was. */
  lemma RankKeeps(b: seq<Entry>, e: Entry)
    requires BoardOk(b)
    ensures var (b', pos) := Rank(b, e);
      && (pos < TopN ==> pos < |b'| && b'[pos] == e && |b'| == if |b| < TopN then |b| + 1 else TopN)
      && (pos >= TopN ==> b' == b)
  {
    var pos := InsertPos(b, e);
    var r := Insert(b, e);
    if pos >= TopN {
      assert |b| == TopN;
      assert r[..TopN] == b;
    }
  }

  // ---------------------------------------------------------------------------
  // Boards by game id, and the two helpers both revisions share

  /** `this.leaderboard`: one board per game id. */
  type Boards = map<string, seq<Entry>>

  predicate BoardsOk(m: Boards) {
    forall id :: id in m ==> BoardOk(m[id])
  }

  /** Storing a well-formed board keeps every board well-formed. */
  lemma BoardsOkPut(m: Boards, id: string, b: seq<Entry>)
    requires BoardsOk(m) && BoardOk(b)
    ensures BoardsOk(m[id := b])
  {
  }

  /** Stores board `b` for `id`; every other board stays as it was. */
  function PutBoard(m: Boards, id: string, b: seq<Entry>): (m': Boards)
    requires BoardsOk(m) && BoardOk(b)
    ensures BoardsOk(m') && id in m' && m'[id] == b
    ensures m'.Keys == m.Keys + {id} && m' - {id} == m - {id}
  {
    BoardsOkPut(m, id, b);
    PutOutside(m, id, b);
    m[id := b]
  }

  /** `getLeaderboard(gameId)`: the board of the game, made empty first when
      the game has none (an existing board is an array, always truthy). */
  function GetLeaderboard(m: Boards, id: string): (res: (Boards, seq<Entry>))
    ensures id in res.0 && res.1 == res.0[id]
    ensures res.0.Keys == m.Keys + {id} && res.0 - {id} == m - {id}
    ensures id in m ==> res == (m, m[id])
    ensures id !in m ==> res.1 == []
    ensures BoardsOk(m) ==> BoardsOk(res.0)
  {
    if id in m then (m, m[id]) else (m[id := []], [])
  }

  /** Asking twice is asking once. */
  lemma GetLeaderboardIdempotent(m: Boards, id: string)
    ensures GetLeaderboard(GetLeaderboard(m, id).0, id) == GetLeaderboard(m, id)
  {
  }

  /** `parseInt(req.query.limit, 10) || 10`; `None` is an absent `limit`,
      read as the string "undefined". NaN and 0 are falsy and give 10. */
  function QueryLimit(q: Option<string>): (n: int)
    ensures n != 0
  {
    match ParseInt(q.GetOr("undefined"))
    case None => 10
    case Some(k) => if k == 0 then 10 else k
  }

  /** The limit is the integer sent, or 10 when it is absent or zero. */
  lemma QueryLimitOf(n: int)
    ensures QueryLimit(None) == 10
    ensures QueryLimit(Some(IntString(n))) == if n == 0 then 10 else n
  {
    ParseIntOfIntString(n);
    ParseIntOfWord("undefined");
  }

  /** `getLeaderboardForGame`: `lb.slice(0, limit)` of the game's board,
      which is made empty when missing. A positive limit keeps up to that
      many entries; a negative one drops that many from the end. */
  function LeaderboardForGame(m: Boards, id: string, q: Option<string>): (res: (Boards, seq<Entry>))
    ensures res.0 == GetLeaderboard(m, id).0
    ensures var b := res.0[id];
      && |res.1| <= |b| && res.1 == b[..|res.1|]
      && (QueryLimit(q) > 0 ==> |res.1| == if QueryLimit(q) < |b| then QueryLimit(q) else |b|)
      && (QueryLimit(q) < 0 ==> |res.1| == if |b| + QueryLimit(q) > 0 then |b| + QueryLimit(q) else 0)
  {
    var (m', b) := GetLeaderboard(m, id);
    (m', SliceTo(b, QueryLimit(q)))
  }

  /** Without a limit the whole board comes back, since no board holds more
      than ten entries. */
  lemma LeaderboardForGameDefault(m: Boards, id: string)
    requires BoardsOk(m)
    ensures var res := LeaderboardForGame(m, id, None); res.1 == res.0[id]
  {
    QueryLimitOf(0);
  }
}

=== FILE: rooms.dfy ===
/** The state of one room of a game (the object `addGameState` creates and the
    plugins mutate), the level file a plugin loads into it, and the updates
    that store a player in both `players` and `things`. `playerOrder` is
    `Object.keys(players)`: insertion order. */
module Rooms {
  import opened Prelude
  import opened Js
  import opened HexGrid
  import opened Entities

  datatype Room = Room(
    roomId: string,
    roomName: string,
    paused: Value,
    cachedPlayerCount: Option<int>,
    players: map<string, Player>,
    playerOrder: seq<string>,
    things: map<string, Entity>,
    weather: Value,
    camera: Value,
    timer: int,
    currentPlayerIndex: nat,
    started: bool,
    gameOver: bool)

  /** The content of a plugin's `level.json`. */
  datatype Level = Level(paused: Value, camera: Value, weather: Value, things: seq<Thing>)

  /** The room `addGameState` creates before the plugin's `create` runs. */
  function NewRoom(gameId: string, roomId: string): (r: Room)
    ensures r.roomId == roomId && r.roomName == gameId + ":" + roomId
    ensures r.players == map[] && r.things == map[] && r.playerOrder == []
    ensures r.timer == 0 && r.currentPlayerIndex == 0 && !r.started && !r.gameOver
    ensures !Truthy(r.paused) && r.cachedPlayerCount == None
  {
    Room(roomId, gameId + ":" + roomId, Bool(false), None, map[], [], map[],
         Obj(map[]), Obj(map[]), 0, 0, false, false)
  }

  /** The room invariant: `playerOrder` lists each player once and every
      player is stored under its own id. */
  ghost predicate RoomOk(r: Room) {
    && Enumerates(r.playerOrder, r.players.Keys)
    && forall id :: id in r.players ==> r.players[id].id == id
  }

  lemma NewRoomOk(gameId: string, roomId: string)
    ensures RoomOk(NewRoom(gameId, roomId))
  {
  }

  function PlayerCount(r: Room): nat {
    |r.playerOrder|
  }

  /** `Object.keys(players).length` is the number of players. */
  lemma PlayerCountIsSize(r: Room)
    requires RoomOk(r)
    ensures PlayerCount(r) == |r.players|
  {
    EnumerationLength(r.playerOrder, r.players.Keys);
  }

  /** Every listed id is a player's key. */
  lemma OrderedPresent(r: Room, i: nat)
    requires RoomOk(r) && i < |r.playerOrder|
    ensures r.playerOrder[i] in r.players
  {
    EnumeratesIff(r.playerOrder, r.players.Keys);
  }

  /** The id at position `i` of the key order. */
  function PlayerAt(r: Room, i: nat): (id: string)
    requires RoomOk(r) && i < PlayerCount(r)
    ensures id in r.players && id == r.playerOrder[i]
  {
    OrderedPresent(r, i);
    r.playerOrder[i]
  }

  /** `Object.values(players)`: the players in key order, each once. */
  function PlayersInOrder(r: Room): (ps: seq<Player>)
    requires RoomOk(r)
    ensures |ps| == PlayerCount(r) == |r.players|
    ensures forall i :: 0 <= i < |ps| ==> ps[i] == r.players[PlayerAt(r, i)]
    ensures forall id :: id in r.players ==> r.players[id] in ps
  {
    PlayerCountIsSize(r);
    EnumeratesIff(r.playerOrder, r.players.Keys);
    var ps := seq(|r.playerOrder|, i requires 0 <= i < |r.playerOrder| => r.players[r.playerOrder[i]]);
    assert forall id :: id in r.players ==> r.players[id] in ps by {
      forall id | id in r.players
        ensures r.players[id] in ps
      {
        var i :| 0 <= i < |r.playerOrder| && r.playerOrder[i] == id;
        assert ps[i] == r.players[id];
      }
    }
    ps
  }

  /** Every hex board held by a thing of the room satisfies the board
      invariant. */
  ghost predicate GridsValid(r: Room) {
    forall k :: k in r.things && r.things[k].ThingEntity? && r.things[k].thing.data.GridData? ==>
      Valid(r.things[k].thing.data.grid)
  }

  /** `players[p.id] = p; things[p.id] = p`: a new id goes to the end of the
      key order, a present one keeps its place. */
  function PutPlayer(r: Room, p: Player): (r': Room)
    requires RoomOk(r)
    ensures RoomOk(r')
    ensures r'.players == r.players[p.id := p]
    ensures r'.things == r.things[p.id := PlayerRef]
    ensures p.id in r.players ==> r'.playerOrder == r.playerOrder
    ensures p.id !in r.players ==> r'.playerOrder == r.playerOrder + [p.id]
    ensures r'.(players := r.players, things := r.things, playerOrder := r.playerOrder) == r
  {
    EnumeratesIff(r.playerOrder, r.players.Keys);
    EnumeratesAddKey(r.playerOrder, r.players.Keys, p.id);
    assert r.players[p.id := p].Keys == r.players.Keys + {p.id};
    r.(players := r.players[p.id := p],
       things := r.things[p.id := PlayerRef],
       playerOrder := AddKey(r.playerOrder, p.id))
  }

  /** `delete players[id]; delete things[id]`: the id leaves the key order and
      the others keep their relative order. */
  function DeletePlayer(r: Room, id: string): (r': Room)
    requires RoomOk(r)
    ensures RoomOk(r')
    ensures r'.players == r.players - {id}
    ensures r'.things == r.things - {id}
    ensures IsSubsequence(r'.playerOrder, r.playerOrder)
    ensures id in r.players ==> |r'.playerOrder| == |r.playerOrder| - 1
    ensures id !in r.players ==> r'.playerOrder == r.playerOrder
    ensures r'.(players := r.players, things := r.things, playerOrder := r.playerOrder) == r
  {
    EnumeratesIff(r.playerOrder, r.players.Keys);
    EnumeratesRemove(r.playerOrder, r.players.Keys, id);
    assert (r.players - {id}).Keys == r.players.Keys - {id};
    EnumerationLength(Remove(r.playerOrder, id), r.players.Keys - {id});
    EnumerationLength(r.playerOrder, r.players.Keys);
    RemoveSubsequence(r.playerOrder, id);
    r.(players := r.players - {id}, things := r.things - {id},
       playerOrder := Remove(r.playerOrder, id))
  }

  /** Changes the state of a present player. Both maps hold the same object,
      so `things` is untouched. */
  function SetPlayer(r: Room, p: Player): (r': Room)
    requires RoomOk(r) && p.id in r.players
    ensures RoomOk(r')
    ensures r'.players == r.players[p.id := p]
    ensures r'.players.Keys == r.players.Keys
    ensures r'.(players := r.players) == r
  {
    assert r.players[p.id := p].Keys == r.players.Keys;
    r.(players := r.players[p.id := p])
  }

  /** Replaces the `data` of the non-player thing stored under `key`. */
  function SetThingData(r: Room, key: string, data: ThingData): (r': Room)
    requires RoomOk(r) && key in r.things && r.things[key].ThingEntity?
    ensures RoomOk(r')
    ensures r'.things == r.things[key := ThingEntity(r.things[key].thing.(data := data))]
    ensures r'.(things := r.things) == r
  {
    r.(things := r.things[key := ThingEntity(r.things[key].thing.(data := data))])
  }

  /** The ids of a list of things. */
  function Ids(ts: seq<Thing>): (ids: set<string>)
    ensures forall i :: 0 <= i < |ts| ==> ts[i].id in ids
    decreases |ts|
  {
    if |ts| == 0 then {}
    else
      assert forall i :: 1 <= i < |ts| ==> ts[i] == ts[1..][i - 1];
      {ts[0].id} + Ids(ts[1..])
  }

  /** An id is among the ids exactly when some thing of the list has it. */
  lemma {:induction false} IdsOf(ts: seq<Thing>, k: string)
    ensures k in Ids(ts) <==> exists i :: 0 <= i < |ts| && ts[i].id == k
    decreases |ts|
  {
    if |ts| > 0 {
      IdsOf(ts[1..], k);
      if k in Ids(ts[1..]) {
        var i :| 0 <= i < |ts[1..]| && ts[1..][i].id == k;
        assert ts[i + 1].id == k;
      }
      if exists i :: 0 <= i < |ts| && ts[i].id == k {
        var i :| 0 <= i < |ts| && ts[i].id == k;
        if i > 0 {
          assert ts[1..][i - 1].id == k;
        }
      }
    }
  }

  /** `for (const t of things) room.things[t.id] = t`. */
  function InsertThings(m: map<string, Entity>, ts: seq<Thing>): (m': map<string, Entity>)
    ensures m'.Keys == m.Keys + Ids(ts)
    ensures forall k :: k in m && k !in Ids(ts) ==> m'[k] == m[k]
    ensures forall k :: k in Ids(ts) ==> m'[k].ThingEntity?
    decreases |ts|
  {
    if |ts| == 0 then m
    else InsertThings(m[ts[0].id := ThingEntity(ts[0])], ts[1..])
  }

  /** The thing stored under an id is the last thing of the list with that
      id: later duplicates overwrite earlier ones. */
  lemma {:induction false} InsertThingsLast(m: map<string, Entity>, ts: seq<Thing>, i: nat)
    requires i < |ts| && ts[i].id !in Ids(ts[i + 1..])
    ensures InsertThings(m, ts)[ts[i].id] == ThingEntity(ts[i])
    decreases |ts|
  {
    var m1 := m[ts[0].id := ThingEntity(ts[0])];
    if i > 0 {
      assert ts[1..][i - 1] == ts[i] && ts[1..][i..] == ts[i + 1..];
      InsertThingsLast(m1, ts[1..], i - 1);
    }
  }

}

=== FILE: sessions.dfy ===
/** The server around the game registries: the table of games by id, the
    socket sessions (`socket.data`: the game, the room id and the player
    object of one connection), the socket handlers of `onConnection`, the
    server tick over every game and the player-count endpoints. Socket ids
    and the colour draws arrive as parameters; emits other than the tick's
    are not modelled. */
module Sessions {
  import opened Prelude
  import opened Entities
  import opened Rooms
  import opened Plugins
  import opened GameManager
  import CreationGame

  /** `socket.data` of one connection. `player` is the player object as the
      session last stored it; while the player sits in a room the room's
      copy is the current one (see `CurrentPlayer`). */
  datatype Session = Session(gameId: string, roomId: string, player: Player)

  datatype Server = Server(games: map<string, Game>, gameOrder: seq<string>, sessions: map<string, Session>)

  /** Every game is stored under its id and keeps the registry invariant;
      every session belongs to a known game and holds its own player, with
      non-negative stats. */
  ghost predicate ServerOk(s: Server) {
    && Enumerates(s.gameOrder, s.games.Keys)
    && (forall k :: k in s.games ==> GameOk(s.games[k]) && s.games[k].gameId == k)
    && (forall sid :: sid in s.sessions ==> SessionOk(s, sid))
  }

  ghost predicate SessionOk(s: Server, sid: string)
    requires sid in s.sessions
  {
    var se := s.sessions[sid];
    se.gameId in s.games && se.player.id == sid && CreationGame.StatsOk(se.player.data)
  }

  /** The table of registries `loadGameMap` fills, one empty registry per
      entry, a later entry replacing an earlier one with the same id. */
  function GameTable(entries: seq<(string, Plugin)>): map<string, Game>
    decreases |entries|
  {
    if |entries| == 0 then map[]
    else
      var last := |entries| - 1;
      GameTable(entries[..last])[entries[last].0 := Game(entries[last].0, entries[last].1, map[], [])]
  }

  /** `loadGameMap(gameMap)`: a server holding exactly the table above, in
      the order the ids first appear, and no session. */
  function LoadGameMap(entries: seq<(string, Plugin)>): (s: Server)
    requires forall i :: 0 <= i < |entries| ==> PluginOk(entries[i].1)
    ensures ServerOk(s) && s.sessions == map[]
    ensures s.games == GameTable(entries)
    decreases |entries|
  {
    if |entries| == 0 then
      Server(map[], [], map[])
    else
      var last := |entries| - 1;
      NewGame(LoadGameMap(entries[..last]), entries[last].0, entries[last].1)
  }

  /** The registries are exactly those named in the map. */
  lemma {:induction false} GameTableIds(entries: seq<(string, Plugin)>)
    ensures GameTable(entries).Keys == set e | e in entries :: e.0
    decreases |entries|
  {
    if |entries| > 0 {
      var last := |entries| - 1;
      var init := entries[..last];
      GameTableIds(init);
      assert entries == init + [entries[last]];
      assert (set e | e in entries :: e.0) == (set e | e in init :: e.0) + {entries[last].0};
    }
  }

  /** Each id names the registry made for the last entry with that id. */
  lemma {:induction false} GameTableLastWins(entries: seq<(string, Plugin)>, i: nat)
    requires i < |entries| && forall j :: i < j < |entries| ==> entries[j].0 != entries[i].0
    ensures var t := GameTable(entries);
      entries[i].0 in t && t[entries[i].0] == Game(entries[i].0, entries[i].1, map[], [])
    decreases |entries|
  {
    var last := |entries| - 1;
    if i < last {
      var init := entries[..last];
      assert init[i] == entries[i];
      assert forall j :: i < j < last ==> init[j] == entries[j];
      GameTableLastWins(init, i);
    }
  }

  /** A registry with no room yet keeps the registry invariant. */
  lemma EmptyGameOk(id: string, plugin: Plugin)
    requires PluginOk(plugin)
    ensures GameOk(Game(id, plugin, map[], []))
  {
  }

  /** `games[gameId] = new Game(gameId, instance)`. */
  function NewGame(s: Server, id: string, plugin: Plugin): (s': Server)
    requires ServerOk(s) && PluginOk(plugin)
    ensures ServerOk(s') && s'.sessions == s.sessions
    ensures s'.games == s.games[id := Game(id, plugin, map[], [])]
  {
    EnumeratesIff(s.gameOrder, s.games.Keys);
    EnumeratesAddKey(s.gameOrder, s.games.Keys, id);
    EmptyGameOk(id, plugin);
    var games := s.games[id := Game(id, plugin, map[], [])];
    assert games.Keys == s.games.Keys + {id};
    var s' := Server(games, AddKey(s.gameOrder, id), s.sessions);
    assert forall sid :: sid in s'.sessions ==> SessionOk(s, sid) && SessionOk(s', sid);
    s'
  }

  /** Records the session of socket `sid`. */
  function PutSession(s: Server, sid: string, se: Session): (s': Server)
    requires ServerOk(s) && se.gameId in s.games && se.player.id == sid && CreationGame.StatsOk(se.player.data)
    ensures ServerOk(s')
    ensures s'.sessions == s.sessions[sid := se] && s'.games == s.games && s'.gameOrder == s.gameOrder
  {
    s.(sessions := s.sessions[sid := se])
  }

  /** Stores a changed registry back under its id. */
  function PutGame(s: Server, g: Game): (s': Server)
    requires ServerOk(s) && g.gameId in s.games && GameOk(g)
    ensures ServerOk(s')
    ensures s'.games == s.games[g.gameId := g] && s'.gameOrder == s.gameOrder && s'.sessions == s.sessions
  {
    var s' := s.(games := s.games[g.gameId := g]);
    assert s'.games.Keys == s.games.Keys;
    assert forall sid :: sid in s'.sessions ==> SessionOk(s, sid) && SessionOk(s', sid);
    s'
  }

  // ---------------------------------------------------------------------------
  // Socket handlers

  /** `onConnection(io, socket)`: the room named in the handshake is made if
      missing (any id: it is not checked) and a fresh player, named after the
      socket unless a name is given, joins it. `None` stands for the
      TypeError an unknown game id raises. */
  function Connect(s: Server, sid: string, gameId: string, roomId: string, name: string,
                   red: nat, green: nat, blue: nat): (res: Option<Server>)
    requires ServerOk(s) && red < 100 && green < 100 && blue < 100
    ensures res.None? <==> gameId !in s.games
    ensures res.Some? ==> ServerOk(res.value) && res.value.games.Keys == s.games.Keys
    ensures res.Some? ==> sid in res.value.sessions && res.value.sessions[sid] == Session(gameId, roomId, NewPlayer(sid, name, None, DrawnColor(red, green, blue)))
  {
    if gameId !in s.games then None
    else
      var p := NewPlayer(sid, name, None, DrawnColor(red, green, blue));
      var g1 := AddGameState(s.games[gameId], roomId).0;
      var g2 := AddPlayer(GetRoomName(g1, roomId).0, roomId, p);
      Some(PutSession(PutGame(s, g2), sid, Session(gameId, roomId, p)))
  }

  /** The connected player sits in the handshake's room under the socket's
      id, as a fresh player with score 0. */
  lemma ConnectJoins(s: Server, sid: string, gameId: string, roomId: string, name: string,
                     red: nat, green: nat, blue: nat)
    requires ServerOk(s) && red < 100 && green < 100 && blue < 100 && gameId in s.games
    ensures var s' := Connect(s, sid, gameId, roomId, name, red, green, blue).value;
      && roomId in s'.games[gameId].rooms
      && sid in s'.games[gameId].rooms[roomId].players
      && s'.games[gameId].rooms[roomId].players[sid] == s'.sessions[sid].player
      && s'.sessions[sid].player.score == 0 && s'.sessions[sid].player.data.health == 3
  {
  }

  /** The room that holds the session's player object, if any: the
      session's room, or else the lobby a finished game sent it to. */
  function HoldingRoom(g: Game, se: Session, sid: string): (key: Option<string>)
    ensures key.Some? ==> key.value in g.rooms && sid in g.rooms[key.value].players
    ensures se.roomId in g.rooms && sid in g.rooms[se.roomId].players ==> key == Some(se.roomId)
  {
    if se.roomId in g.rooms && sid in g.rooms[se.roomId].players then Some(se.roomId)
    else if Lobby in g.rooms && sid in g.rooms[Lobby].players then Some(Lobby)
    else None
  }

  /** The player object of a session as the server holds it now. */
  function CurrentPlayer(g: Game, se: Session, sid: string): (p: Player)
    requires GameOk(g) && se.player.id == sid && CreationGame.StatsOk(se.player.data)
    ensures p.id == sid && CreationGame.StatsOk(p.data)
    ensures HoldingRoom(g, se, sid).Some? ==> p == g.rooms[HoldingRoom(g, se, sid).value].players[sid]
    ensures HoldingRoom(g, se, sid).None? ==> p == se.player
  {
    match HoldingRoom(g, se, sid)
    case Some(key) => g.rooms[key].players[sid]
    case None => se.player
  }

  /** `data.player.input = input` on the game's side: the room holding the
      player object sees the new input. */
  function StoreInputIn(g: Game, se: Session, sid: string, input: Input): (res: (Game, Player))
    requires GameOk(g) && se.player.id == sid && CreationGame.StatsOk(se.player.data)
    ensures GameOk(res.0) && res.0.gameId == g.gameId && res.0.rooms.Keys == g.rooms.Keys
    ensures res.1 == CurrentPlayer(g, se, sid).(input := Some(input))
    ensures match HoldingRoom(g, se, sid)
      case Some(key) => res.0.rooms == g.rooms[key := g.rooms[key].(players := g.rooms[key].players[sid := res.1])]
      case None => res.0 == g
  {
    var p := CurrentPlayer(g, se, sid).(input := Some(input));
    match HoldingRoom(g, se, sid)
    case Some(key) =>
      var r := SetPlayer(g.rooms[key], p);
      assert RoomStored(g.gameId, key, r) by {
        assert forall k :: k in r.players ==> k == sid || r.players[k] == g.rooms[key].players[k];
      }
      (PutRoom(g, key, r), p)
    case None => (g, p)
  }

  /** `socket.on("playerInput")`: the input is stored on the session's
      player object, wherever it sits. */
  function PlayerInput(s: Server, sid: string, input: Input): (s': Server)
    requires ServerOk(s)
    ensures ServerOk(s') && s'.games.Keys == s.games.Keys && s'.sessions.Keys == s.sessions.Keys
    ensures sid !in s.sessions ==> s' == s
    ensures sid in s.sessions ==> s'.sessions[sid].player.input == Some(input)
  {
    if sid !in s.sessions then s
    else
      var se := s.sessions[sid];
      var (g, p) := StoreInputIn(s.games[se.gameId], se, sid, input);
      PutSession(PutGame(s, g), sid, se.(player := p))
  }

  /** The game's side of a room change: the player object leaves the
      session's room and joins `newRoomId`, which is made if missing; the
      player count of the new room is read. */
  function Rejoin(g: Game, se: Session, sid: string, newRoomId: string): (res: (Game, Player))
    requires GameOk(g) && se.player.id == sid && CreationGame.StatsOk(se.player.data)
    ensures GameOk(res.0) && res.0.gameId == g.gameId && res.0.rooms.Keys <= g.rooms.Keys + {newRoomId}
    ensures res.1 == CurrentPlayer(g, se, sid) && res.1.id == sid && CreationGame.StatsOk(res.1.data)
    ensures newRoomId in res.0.rooms && sid in res.0.rooms[newRoomId].players
    ensures res.0.rooms[newRoomId].players[sid] == res.1
  {
    var p := CurrentPlayer(g, se, sid);
    var g1 := RemovePlayer(g, se.roomId, sid);
    var g2 := AddGameState(g1, newRoomId).0;
    var g3 := AddPlayer(GetRoomName(g2, newRoomId).0, newRoomId, p);
    (GetPlayerCountInRoom(g3, newRoomId).0, p)
  }

  /** The player leaves the room it changes from when that is another
      room. */
  lemma RejoinLeaves(g: Game, se: Session, sid: string, newRoomId: string)
    requires GameOk(g) && se.player.id == sid && CreationGame.StatsOk(se.player.data)
    requires se.roomId != newRoomId
    ensures var g' := Rejoin(g, se, sid, newRoomId).0;
      se.roomId in g'.rooms ==> sid !in g'.rooms[se.roomId].players
  {
    var g1 := RemovePlayer(g, se.roomId, sid);
    var g2 := AddGameState(g1, newRoomId).0;
    assert se.roomId in g2.rooms ==> se.roomId in g1.rooms && g2.rooms[se.roomId] == g1.rooms[se.roomId];
  }

  /** Changing rooms does not reset the score: the player arrives with the
      score it had where it sat. */
  lemma RejoinKeepsScore(g: Game, se: Session, sid: string, newRoomId: string)
    requires GameOk(g) && se.player.id == sid && CreationGame.StatsOk(se.player.data)
    requires se.roomId in g.rooms && sid in g.rooms[se.roomId].players
    ensures Rejoin(g, se, sid, newRoomId).0.rooms[newRoomId].players[sid].score == g.rooms[se.roomId].players[sid].score
  {
  }

  /** `socket.on("playerChangeRoom")`: an id `VALID_ROOM_ID` rejects is
      ignored; otherwise the session's player moves to the new room, which
      the session now names. */
  function ChangeRoom(s: Server, sid: string, newRoomId: string): (s': Server)
    requires ServerOk(s)
    ensures ServerOk(s') && s'.games.Keys == s.games.Keys && s'.sessions.Keys == s.sessions.Keys
    ensures sid !in s.sessions || !ValidRoomId(newRoomId) ==> s' == s
    ensures sid in s.sessions && ValidRoomId(newRoomId) ==>
      var se := s.sessions[sid]; var (g', p) := Rejoin(s.games[se.gameId], se, sid, newRoomId);
      s'.games == s.games[se.gameId := g'] && s'.sessions == s.sessions[sid := Session(se.gameId, newRoomId, p)]
  {
    if sid !in s.sessions || !ValidRoomId(newRoomId) then s
    else
      var se := s.sessions[sid];
      var (g', p) := Rejoin(s.games[se.gameId], se, sid, newRoomId);
      PutSession(PutGame(s, g'), sid, Session(se.gameId, newRoomId, p))
  }

  /** `socket.on("disconnect")`: the player leaves the session's room, and
      the player count sent afterwards asks for that room again, which makes
      it anew when the departure destroyed it. */
  function Disconnect(s: Server, sid: string): (s': Server)
    requires ServerOk(s)
    ensures ServerOk(s') && s'.games.Keys == s.games.Keys
    ensures sid !in s.sessions ==> s' == s
    ensures sid in s.sessions ==>
      var se := s.sessions[sid]; var g' := s'.games[se.gameId];
      && s'.sessions == s.sessions - {sid}
      && se.roomId in g'.rooms && sid !in g'.rooms[se.roomId].players
  {
    if sid !in s.sessions then s
    else
      var se := s.sessions[sid];
      var g1 := RemovePlayer(s.games[se.gameId], se.roomId, sid);
      var g2 := GetPlayerCountInRoom(g1, se.roomId).0;
      DropSession(PutGame(s, g2), sid)
  }

  /** Forgets the session of socket `sid`. */
  function DropSession(s: Server, sid: string): (s': Server)
    requires ServerOk(s)
    ensures ServerOk(s')
    ensures s'.sessions == s.sessions - {sid} && s'.games == s.games && s'.gameOrder == s.gameOrder
  {
    s.(sessions := s.sessions - {sid})
  }

  /** When the last player of a room other than the lobby disconnects, the
      room is destroyed and at once made again, empty and not started. */
  lemma DisconnectRemakesRoom(s: Server, sid: string)
    requires ServerOk(s) && sid in s.sessions
    requires var se := s.sessions[sid]; var g := s.games[se.gameId];
      se.roomId in g.rooms && g.rooms[se.roomId].players.Keys == {sid} && se.roomId != Lobby
    ensures var se := s.sessions[sid]; var r := Disconnect(s, sid).games[se.gameId].rooms[se.roomId];
      r.players == map[] && !r.started && !r.gameOver && r.timer == 0
  {
  }

  /** A player a finished game sent to the lobby is not removed from it on
      disconnect: the session still names the destroyed room. */
  lemma DisconnectAfterGameOver(s: Server, sid: string)
    requires ServerOk(s) && sid in s.sessions
    requires var se := s.sessions[sid]; var g := s.games[se.gameId];
      se.roomId != Lobby && se.roomId !in g.rooms && Lobby in g.rooms && sid in g.rooms[Lobby].players
    ensures var se := s.sessions[sid]; var g' := Disconnect(s, sid).games[se.gameId];
      Lobby in g'.rooms && sid in g'.rooms[Lobby].players && sid !in Disconnect(s, sid).sessions
  {
    var se := s.sessions[sid];
    var g := s.games[se.gameId];
    var g2 := GetPlayerCountInRoom(g, se.roomId).0;
    assert g2.rooms[Lobby] == g.rooms[Lobby];
  }

  // ---------------------------------------------------------------------------
  // Server tick

  /** The body of the server tick for the games listed in `ids`, in order:
      each game runs `update(io)`, and a plugin that throws ends the tick.
      `dr(gameId)` supplies the random draws of that game's rooms. */
  function TickGames(s: Server, ids: seq<string>, dr: string -> string -> CreationGame.Draws): (res: (Server, seq<Event>, bool))
    requires ServerOk(s)
    ensures ServerOk(res.0) && res.0.games.Keys == s.games.Keys && res.0.gameOrder == s.gameOrder
    ensures res.0.sessions == s.sessions
    ensures forall id :: id in s.games && id !in ids ==> res.0.games[id] == s.games[id]
    ensures !res.2 ==> forall id, k :: id in ids && id in res.0.games && k in res.0.games[id].rooms ==>
      !res.0.games[id].rooms[k].gameOver
    decreases |ids|
  {
    if |ids| == 0 then (s, [], false)
    else if ids[0] !in s.games then TickGames(s, ids[1..], dr)
    else
      var (s1, evs, crashed) := TickGame(s, ids[0], dr);
      if crashed then (s1, evs, true)
      else
        var (s2, evs2, crashed2) := TickGames(s1, ids[1..], dr);
        (s2, evs + evs2, crashed2)
  }

  /** One game's turn in the tick: its registry is updated and stored back,
      and nothing else changes. */
  function TickGame(s: Server, id: string, dr: string -> string -> CreationGame.Draws): (res: (Server, seq<Event>, bool))
    requires ServerOk(s) && id in s.games
    ensures ServerOk(res.0) && res.0.games.Keys == s.games.Keys && res.0.gameOrder == s.gameOrder
    ensures res.0.sessions == s.sessions
    ensures forall other :: other in s.games && other != id ==> res.0.games[other] == s.games[other]
    ensures !res.2 ==> forall k :: k in res.0.games[id].rooms ==> !res.0.games[id].rooms[k].gameOver
  {
    var upd := UpdateGame(s.games[id], dr(id));
    StoreTicked(s, upd.0, upd.1, upd.2)
  }

  /** Stores a registry back after its update; a registry whose update did
      not throw has no finished room. */
  function StoreTicked(s: Server, g: Game, evs: seq<Event>, crashed: bool): (res: (Server, seq<Event>, bool))
    requires ServerOk(s) && g.gameId in s.games && GameOk(g)
    requires !crashed ==> forall k :: k in g.rooms ==> !g.rooms[k].gameOver
    ensures ServerOk(res.0) && res.0.games.Keys == s.games.Keys && res.0.gameOrder == s.gameOrder
    ensures res.0.sessions == s.sessions && res.1 == evs && res.2 == crashed
    ensures res.0.games == s.games[g.gameId := g]
  {
    (PutGame(s, g), evs, crashed)
  }

  /** The interval callback: every game, in the order the game map listed
      them. */
  function ServerTick(s: Server, dr: string -> string -> CreationGame.Draws): (res: (Server, seq<Event>, bool))
    requires ServerOk(s)
    ensures ServerOk(res.0) && res.0.games.Keys == s.games.Keys && res.0.sessions == s.sessions
    ensures !res.2 ==> forall id, k :: id in res.0.games && k in res.0.games[id].rooms ==>
      !res.0.games[id].rooms[k].gameOver
  {
    EnumeratesIff(s.gameOrder, s.games.Keys);
    TickGames(s, s.gameOrder, dr)
  }

  // ---------------------------------------------------------------------------
  // Player-count endpoints

  ghost predicate GamesOk(games: map<string, Game>) {
    forall k :: k in games ==> GameOk(games[k])
  }

  /** The total of `getPlayerCount()` over the games listed in `ids`; an id
      without a game counts nothing. */
  function SumGames(games: map<string, Game>, ids: seq<string>): nat
    requires GamesOk(games)
  {
    if |ids| == 0 then 0
    else (if ids[0] in games then GetPlayerCount(games[ids[0]]) else 0) + SumGames(games, ids[1..])
  }

  /** `GET /api/gameManager/playersInAllGames`. */
  function PlayersInAllGames(s: Server): (n: nat)
    requires ServerOk(s)
    ensures n == SumGames(s.games, s.gameOrder)
    ensures s.games == map[] ==> n == 0
  {
    EnumeratesIff(s.gameOrder, s.games.Keys);
    SumGames(s.games, s.gameOrder)
  }

  /** `GET /api/gameManager/playersInPerGames`: one count per game. */
  function PlayersPerGame(s: Server): (counts: map<string, nat>)
    requires ServerOk(s)
    ensures counts.Keys == s.games.Keys
    ensures forall id :: id in counts ==> counts[id] == SumCounts(s.games[id].rooms, s.games[id].roomOrder)
  {
    map id | id in s.games :: GetPlayerCount(s.games[id])
  }

  /** The loop of `summary` over `ids`: the players of games with players,
      and how many such games there are. */
  function SummaryOver(games: map<string, Game>, ids: seq<string>): (res: (nat, nat))
    requires GamesOk(games)
    ensures res.0 == SumGames(games, ids)
    ensures res.1 <= |ids| && res.1 <= res.0
    ensures res.1 == 0 <==> res.0 == 0
    decreases |ids|
  {
    if |ids| == 0 then (0, 0)
    else
      var (total, active) := SummaryOver(games, ids[1..]);
      var n := if ids[0] in games then GetPlayerCount(games[ids[0]]) else 0;
      if n > 0 then (total + n, active + 1) else (total, active)
  }

  /** `GET /api/gameManager/summary`: `totalPlayers` is the
      `playersInAllGames` count, since games without players add nothing to
      either; `activeGames` counts at most every game, and is zero exactly
      when nobody plays. */
  function Summary(s: Server): (res: (nat, nat))
    requires ServerOk(s)
    ensures res.0 == PlayersInAllGames(s)
    ensures res.1 <= |s.games| && (res.1 == 0 <==> res.0 == 0)
  {
    EnumerationLength(s.gameOrder, s.games.Keys);
    SummaryOver(s.games, s.gameOrder)
  }

  /** Every game listed once contributes its own count to the total. */
  lemma {:induction false} SumGamesCounts(games: map<string, Game>, ids: seq<string>, id: string)
    requires GamesOk(games) && NoDup(ids) && id in ids && id in games
    ensures GetPlayerCount(games[id]) <= SumGames(games, ids)
    decreases |ids|
  {
    if ids[0] != id {
      assert id in ids[1..];
      assert NoDup(ids[1..]) by {
        forall i, j | 0 <= i < j < |ids[1..]| ensures ids[1..][i] != ids[1..][j] {
          assert ids[1..][i] == ids[i + 1] && ids[1..][j] == ids[j + 1];
        }
      }
      SumGamesCounts(games, ids[1..], id);
    }
  }

  /** The total is at least the count of any one game, and of any room of
      it. */
  lemma PlayersInAllGamesBounds(s: Server, id: string)
    requires ServerOk(s) && id in s.games
    ensures PlayersPerGame(s)[id] <= PlayersInAllGames(s)
  {
    EnumeratesIff(s.gameOrder, s.games.Keys);
    SumGamesCounts(s.games, s.gameOrder, id);
  }
}

=== FILE: transforms.dfy ===
/** Placement and colour of entities: the `transform` objects (position,
    Euler rotation in XYZ order, scale) and the `colorData` records. */
module Transforms {

  datatype Vec3 = Vec3(x: real, y: real, z: real)

  /** A rotation `{ isEuler: true, _x, _y, _z, _order: "XYZ" }`. */
  datatype Euler = Euler(x: real, y: real, z: real)

  datatype Transform = Transform(position: Vec3, rotation: Euler, scale: Vec3)

  /** RGBA colour with components in [0, 1]. */
  datatype Color = Color(r: real, g: real, b: real, a: real)

  /** Position at the origin, zero rotation, unit scale: the placement every
      constructed entity starts with. */
  const Identity := Transform(Vec3(0.0, 0.0, 0.0), Euler(0.0, 0.0, 0.0), Vec3(1.0, 1.0, 1.0))
}
